=== FILE: README.md ===
# tidy_vcf in Dafny

A model of the core of tidy_vcf. tidy_vcf turns a VCF file into two
rectangular tab-separated tables:

- a site table: one row per kept record, with the seven fixed fields and one
  column per INFO key declared in the header;
- a genotype table: one row per kept record and sample, with the fixed
  fields, the sample id and one column per FORMAT key.

Absent keys are written as the literal `NA`.

## What is modelled

The modules follow the program's structure:

- `Outcomes`: `Result` and `Option`, and the Python exceptions the code can
  raise, as an `Error` enum. These are the failed tuple unpacking, the
  `IndexError`, the sample-count `assert` and the never-set
  `individual_ids`. `Collect` turns a sequence of results into one result.
- `PyStr`: the parts of Python's `str` the code relies on. These are
  `split(sep)`, which keeps empty pieces, and `split()`, which splits on
  whitespace runs. Also `strip()` (Python's whitespace set), `join`, `int()`
  on position strings, and `list.index`.
- `OrderedDict`: insertion-ordered dicts as duplicate-free key sequences,
  with `update` and `fromkeys`.
- `Header`: `Header.build_vcf_dicts`.
  - The loop is the method `BuildVcfDicts`.
  - It is proved equal to a declarative schema, `HeaderSchema`. That schema
    holds the INFO, FORMAT and FILTER keys in first-declaration order and
    the sample ids of the `#CHROM` line.
- `Record`: `VCFLine._process_line`, `build_info`, `build_formats` and
  `process_site`, over a `VcfLine` datatype. Also the width of a row
  against its column line.
- `Selector`: `TidyVCF.parse_sites` and `sites_pass`.
  - The cursor starts at `("", 0)`.
  - The selector is also a fold over records, proved equal to the
    predicate applied to consecutive pairs.
- `Driver`: the loop of `parse_file`, as a pure function over the lines,
  called `Drive`.
  - It produces the two outputs as lists of echoed lines, column lines and
    rows.
  - It is proved equal to a reference pipeline: parse every data line,
    select, then project the kept records.
  - It is also proved to echo every `#` line, and to print the column lines
    exactly once, before the first data line.
- `Legacy`: the first revision, the top-level `tidy_vcf.py`.
  - It has `""` placeholders and no INFO `.` case.
  - Data lines are split on single tabs.
  - Genotype rows carry raw colon fields.
  - A sites dict is parsed but never consulted.
  - A column line takes the first data line's FORMAT keys.
  - Lemmas relate it to the later revision.
- `Fixture`: the test cases of `TestClass`. They use the embedded VCF text:
  17 INFO keys, 11 FORMAT keys and 13 samples. They are concrete lemmas:
  - the header test;
  - the site row and the first genotype row of the data line.

  The source's data line separates fields with runs of spaces. `Fixture`
  renders the record with tabs instead. `_process_line` splits on any
  whitespace run, so both give the same tokens (`Record.ProcessLineRender`).
  The same holds for the `#CHROM` line of the embedded header
  (`Fixture.ChromLine`): it is written with tabs, and the sample ids are its
  whitespace tokens from index 9 on (`Header.SampleIds`), whichever
  separator is used.

`tidy_vcf/main.py` and `tidy_vcf/tidy_vcf.py` hold the same classes, with
`tidy_vcf/tidy_vcf.py` shifted three lines down. One model serves both. The
table below cites `tidy_vcf/main.py`, except for the embedded tests.

### Where the model follows the code rather than the documented intent

- **An INFO piece without `=` fails.** A flag, or an empty piece from
  `;;`, fails at `i[1]`, even when its name is not a header key. The record
  is not read as "present with an empty value".
- **FORMAT keys that the record has but the header lacks are appended**
  after the header's keys. The genotype row then has more cells than its
  column line (`Record.GenotypeRowWidth`).
- **A sample fails when some FORMAT key's first position in the spec has no
  sample field.** A key is looked up at its first position
  (`format_elements.index`), so a spec that repeats a key, such as `GT:GT`,
  accepts a sample `0/0` with a single field (`Record.RepeatedKeyShortSample`). For a spec without repeated
  keys, this means the sample fails when it has fewer colon fields than the
  spec has keys (`Record.SampleFormatArity`).
- **A header key is the text after the last `=` before the first `,`.**
  The documented rule is the text after `ID=`.
- **Without a `#CHROM` line the sample ids are never set.** Processing any
  record then fails. The ids are not an empty list.
- **Thinning compares against the previous record seen**, not the previous
  one kept. The first record always passes under thinning.
- **Thinned records are strictly more than `thin` bases apart.** The help
  text of `--thin` says "no less than THIN bases apart", but the code keeps
  a record on the same chromosome only when `int(POS) - int(prev) > thin`
  (`Selector.ThinStrictlyApart`, `Selector.ThinnedApart`). A record
  exactly `thin` bases on is dropped.
- **A sites-file name of `""` is never read, yet is still consulted.**
  `__post_init__` calls `parse_sites` only when the name is truthy, while
  `sites_pass` reads `sites_dict` whenever the name is not `None`. So the
  first data line stops the run with an `AttributeError`, whatever `thin`
  is; a file without data lines converts as with no sites file
  (`Driver.ConvertUnnamedSites`). The CLI lets `-s ""` through.
- **With both a sites file and thinning set, the class keeps a record if
  either rule passes.** Only the CLI rejects the combination.

## Model

| member | source | states |
|---|---|---|
| Header.KeyOfDeclaration | tidy_vcf/main.py:93-101 | the key read from a meta line `<prefix>=<KEY>,<rest>` is `KEY`: the text after the last `=` in the part before the first `,` |
| Header.KeyOf | tidy_vcf/main.py:94 | an extracted key never contains `,` or `=` |
| Header.LeadingRun | tidy_vcf/main.py:90-92 | a scan that breaks at the first line not starting with a prefix reads exactly the leading lines with that prefix. The header is the run of `#` lines (`HeaderLen`); the old revision reads the run of `##` lines (`Legacy.MetaLen`, tidy_vcf.py:28-30). |
| Header.BlockKeysSpec | tidy_vcf/main.py:93-101 | the INFO, FORMAT and FILTER keys are duplicate-free; a key is present iff some header line of that tag declares it; keys are in first-declaration order |
| Header.HeaderSamplesSpec | tidy_vcf/main.py:102-103 | sample ids are unset iff no header line starts with `#CHROM`; otherwise they come from the last such line, and no later header line starts with `#CHROM` |
| Header.SampleIds | tidy_vcf/main.py:103 | the sample ids are the whitespace tokens of the stripped `#CHROM` line from index 9 on; there are none when it has nine or fewer tokens |
| Header.BuildVcfDicts | tidy_vcf/main.py:85-106 | the line-by-line scan, which stops at the first non-`#` line, yields exactly the declarative header schema |
| Header.ContentHeaderNames | tidy_vcf/main.py:83 | `content_header` is the seven fixed column names joined with tabs |
| Record.ProcessLine | tidy_vcf/main.py:123-140 | parsing fails iff the line has fewer than nine whitespace tokens; otherwise the record's fields, in order, are exactly the line's tokens, each non-empty and whitespace-free |
| Record.ProcessLineRender | tidy_vcf/main.py:123-140 | round trip: a record with whitespace-free fields, written as a tab-separated line, parses back to itself |
| Record.PieceSecondPart | tidy_vcf/main.py:150-152 | an INFO piece is split on every `=`: `a=b=c` has name `a` and value `b` |
| Record.BuildInfo | tidy_vcf/main.py:147-161 | build_info fails iff INFO is not `.` and some `;`-piece lacks `=`; otherwise it gives one value per header INFO key |
| Record.BuildInfoValues | tidy_vcf/main.py:149-159 | each header key takes the value of the first INFO piece with that name; it keeps `NA` if no piece names it, or if INFO is `.` |
| Record.BuildInfoRow | tidy_vcf/main.py:160-161 | `info_string` can be built iff build_info succeeds |
| Record.FillSample | tidy_vcf/main.py:170-172 | the inner loop over FORMAT elements succeeds iff each element's first position has a sample field. Header keys keep their order, and the record's new keys are appended after them. A record key takes the field at its first position. Every other key keeps its value. |
| Record.SampleFormat | tidy_vcf/main.py:166-173 | one sample's dict: it succeeds iff every FORMAT element's first position has a field; its keys are the header's FORMAT keys followed by the record's undeclared keys, in first-seen order |
| Record.SampleFormatValues | tidy_vcf/main.py:169-172 | each key of a sample's dict holds the sample's field at the key's first position in the FORMAT spec, or `NA` if the record does not name it |
| Record.SampleFormatArity | tidy_vcf/main.py:166-172 | for a FORMAT spec without repeats, a sample projects iff it has at least as many colon fields as the spec has keys |
| Record.RepeatedKeyShortSample | tidy_vcf/main.py:169-172 | a spec that repeats a key, such as `GT:GT`, projects a one-field sample such as `0/0`: the dict is just that key holding that field. The lookup uses the key's first position, so the sample needs no second field. |
| Record.SampleFormatKeeps | tidy_vcf/main.py:169-172 | when the header declares every key of the record's FORMAT spec, a sample's dict has exactly the header's keys in the header's order |
| Record.SampleWidth | tidy_vcf/main.py:169-172 | a sample's dict has at least as many values as the header has FORMAT keys, and exactly as many iff the header declares every FORMAT key of the record |
| Record.SampleDicts | tidy_vcf/main.py:167-173 | `format_list` can be built iff every sample projects; it holds one dict per sample, in order |
| Record.BuildFormats | tidy_vcf/main.py:163-178 | `format_strings` can be built iff the sample ids are set and every sample projects. It has as many rows as the shorter of the ids and the sample columns (`zip`). Row `i` is the content string, sample id `i`, then sample `i`'s dict values. |
| Record.ProcessSite | tidy_vcf/main.py:142-145 | process_site fails with unset sample ids, then with a count mismatch between sample columns and ids, then where build_info or build_formats fails. On success, the site row is `info_string`, and there is exactly one genotype row per sample, in sample-id order. |
| Record.SiteRowCells | tidy_vcf/main.py:160-161 | a site row splits into the seven fixed fields followed by one cell per header INFO key |
| Record.SiteColumnCells | tidy_vcf/main.py:245-247 | the site column line splits into the seven fixed names followed by the INFO keys |
| Record.SiteRowWidth | tidy_vcf/main.py:160-161 | a site row has as many cells as the site column line |
| Record.GenotypeColumnsCells | tidy_vcf/main.py:246-251 | the genotype column line splits into the fixed names, `IND`, then the FORMAT keys |
| Record.GenotypeRowCells | tidy_vcf/main.py:174-178 | a genotype row splits into the fixed fields, the sample id, then the dict's values |
| Record.GenotypeRowSplit | tidy_vcf/main.py:174-178 | genotype row `i` of a processed record splits into the fixed fields, sample id `i`, then sample `i`'s projected values |
| Record.GenotypeRowWidth | tidy_vcf/main.py:170-178 | for a header with at least one FORMAT key, a genotype row has as many cells as the genotype column line iff the header declares every FORMAT key of the record; otherwise the undeclared keys widen it |
| Selector.SiteKey | tidy_vcf/main.py:208 | the allow-list key is the chromosome, a tab, then the position: the text before the tab is the chromosome and the text after it the position |
| Selector.SiteKeyInjective | tidy_vcf/main.py:208 | for tab-free chromosomes, two loci have the same key iff they are equal |
| Selector.DistanceOfNumerals | tidy_vcf/main.py:220 | for positions written as integer numerals, the distance is the current number minus the previous one, whatever the chromosomes |
| Selector.SitesPass | tidy_vcf/main.py:212-227 | sites_pass case by case. With no sites file and no thinning, every record passes. With a sites file only, a record passes iff its key is listed. Under thinning, a new chromosome passes. On the same chromosome, a record passes iff it is more than `thin` past the previous one, or, with a sites file too, if it is listed. A negative `thin` alone keeps everything. It fails iff a needed `int()` fails. |
| Selector.SitesMatchText | tidy_vcf/main.py:215 | allow-list membership is a text match: a listed `1 500` keeps `1 500` but not `1 0500` |
| Selector.ParseSites | tidy_vcf/main.py:203-210 | parse_sites fails iff some line does not hold exactly two whitespace tokens |
| Selector.ParseSitesKeys | tidy_vcf/main.py:203-210 | the parsed set is the set of `chrom\tpos` keys of the lines, so repeated lines collapse |
| Selector.ParseSitesOfFile | tidy_vcf/main.py:203-210 | round trip: a sites file written from loci parses back to exactly the set of their keys |
| Selector.Select | tidy_vcf/main.py:252-256 | the selector fold gives one decision per record |
| Selector.SelectPointwise | tidy_vcf/main.py:252-256 | the fold succeeds iff sites_pass succeeds on each record against the record observed before it, and then each decision is that call's value |
| Selector.ThreeRecords | tidy_vcf/main.py:252-256 | for three records, the decisions pair each record with the one before it, the first with the initial cursor |
| Selector.ThinnedApart | tidy_vcf/main.py:217-233 | with thinning alone, in a run from the initial `("", 0)` cursor over one chromosome in increasing position order, every kept record lies more than `thin` past every earlier record |
| Selector.ThinStrictlyApart | tidy_vcf/main.py:217-225 | under thinning alone, a record on the previous record's chromosome, both positions integer numerals, passes iff it is strictly more than `thin` bases on; one exactly `thin` on is dropped, although the `--thin` help text says "no less than THIN bases apart" |
| Selector.ThinAgainstPrevious | tidy_vcf/main.py:255-256 | with thin 100, records at 100, 150, 220 give kept, dropped, dropped: 220 is compared with 150, which was dropped, not with 100 |
| Selector.ThinKeepsFar | tidy_vcf/main.py:217-222 | with thin 100, records at 100, 150, 260 give kept, dropped, kept |
| Selector.FirstTwo | tidy_vcf/main.py:198-199 | from the initial cursor `("", 0)` the first record passes; a record 50 past it on the same chromosome does not |
| Driver.EmitTexts | tidy_vcf/main.py:257-261 | a kept record adds exactly its site row to the site table's rows and its genotype rows, in order, to the genotype table's; a dropped record adds nothing; neither prints an echoed or column line; only a kept record fails, exactly when process_site fails |
| Driver.Heading | tidy_vcf/main.py:243-251 | the first data line prints the site column line and the genotype column line, once each, and nothing else |
| Driver.ParseAll | tidy_vcf/main.py:253 | parsing all data lines succeeds iff every one has nine tokens; it gives the records in order |
| Driver.DriveMatchesReference | tidy_vcf/main.py:229-261 | the loop succeeds iff the pipeline does: parse every data line, select, then process the kept records. The site table's rows are then the kept records' site rows, and the genotype table's rows their genotype rows, in order. |
| Driver.DriveEchoes | tidy_vcf/main.py:240-242 | both outputs echo exactly the `#` lines of the file, stripped and in order |
| Driver.DriveColumns | tidy_vcf/main.py:243-251 | each output gets its column line exactly once if the file has a data line, and never otherwise |
| Driver.DriveColumnsPlacement | tidy_vcf/main.py:240-251 | everything before a column line is an echoed line, and those are exactly the stripped `#` lines that precede the first data line, in order |
| Driver.DriveNoData | tidy_vcf/main.py:236-242 | a file without data lines converts to exactly its stripped `#` lines, echoed in order to both tables, with no column line and no row |
| Driver.ConvertUnnamedSites | tidy_vcf/main.py:196-215 | with a sites-file name of `""`, the conversion succeeds iff the file has no data line, and then prints only the echoed `#` lines; once the first data line parses, it fails on the unset `sites_dict` |
| Legacy.MetaLenStopsAtChrom | tidy_vcf.py:29-30 | the scan never reaches a `#CHROM` line |
| Legacy.VcfDictScan | tidy_vcf.py:24-38 | the loop of vcf_dict computes exactly the keys the leading `##` lines declare |
| Legacy.VcfDictSpec | tidy_vcf.py:32-37 | INFO and FORMAT keys are duplicate-free; a key is present iff a leading `##INFO` or `##FORMAT` line declares it |
| Legacy.VcfDictAgrees | tidy_vcf.py:24-38 | when all `##` lines precede the other `#` lines, the old and new revisions read the same INFO and FORMAT keys |
| Legacy.LegacyInfo | tidy_vcf.py:42-52 | old build_info fails iff some `;`-piece lacks `=`; otherwise it gives one value per key |
| Legacy.LegacyInfoDot | tidy_vcf.py:44-46 | INFO `.` fails in the old revision: there is no `.` case |
| Legacy.LegacyInfoAgrees | tidy_vcf.py:42-52 | for any INFO other than `.`, old and new build_info give the same values (`"" + v` is `v`) |
| Legacy.LegacyBuildInfo | tidy_vcf.py:53-57 | with `print_header`, the keys tab-joined; it fails exactly when the value form fails |
| Legacy.LegacyHeaderWidth | tidy_vcf.py:53-57 | the header form splits into the keys, and has as many fields as the value form |
| Legacy.GetInds | tidy_vcf.py:65-66 | get_inds gives the single-tab fields from index 9 on |
| Legacy.GetIndsOfLine | tidy_vcf.py:65-66 | round trip: a line of nine fields and sample ids, joined with tabs, gives back the ids |
| Legacy.DfContentFields | tidy_vcf.py:68-69 | df_content splits back into exactly its seven fields, and equals the later revision's `content_string` |
| Legacy.ParseGTs | tidy_vcf.py:71-73 | parse_GTs gives one list of colon fields per sample column; joined with `:` they give the column back |
| Legacy.LegacyProcessSite | tidy_vcf.py:90-104 | old process_site fails iff the stripped line has fewer than nine tab fields, or build_info fails; otherwise it gives as many genotype rows as the shorter of ids and sample columns (`zip`) |
| Legacy.LegacyGenotypeRows | tidy_vcf.py:98-104 | `zip` gives one row per pair, `id\tsite_row\tfields` |
| Legacy.LegacySiteCells | tidy_vcf.py:95-101 | an old site row splits into the seven fixed fields followed by one INFO value per key |
| Legacy.LegacyGenotypeCells | tidy_vcf.py:102-104 | an old genotype row splits into the id, the seven fixed fields, then the sample's colon fields in the record's own order, without projection |
| Legacy.SitesFrom | tidy_vcf.py:78-81 | the old parse_sites loop fails iff some line does not hold two tokens; a chromosome already present keeps its position |
| Legacy.LegacyParseSites | tidy_vcf.py:75-82 | old parse_sites fails iff some line does not hold exactly two tokens |
| Legacy.LegacyParseSitesSpec | tidy_vcf.py:75-82 | the dict holds exactly the chromosomes of the file, each mapped to the position on its first line |
| Legacy.LegacyHeading | tidy_vcf.py:118-126 | the first data line's column lines: they can be printed iff that line has nine tab fields and its INFO passes build_info; the genotype column line names that line's FORMAT keys |
| Legacy.LegacyColumnsPlacement | tidy_vcf.py:118-130 | from the start of a run, each column line is followed at once by the rows of the first line not starting with `#`. In the site table that is its site row. In the genotype table it is its genotype rows, built with the sample ids bound when the loop reaches that line. This holds whatever `##`, `#CHROM` and other `#` lines come first. |
| Legacy.LegacyDriveShape | tidy_vcf.py:106-130 | when the old loop succeeds, it does four things. It echoes exactly the `##` lines to both outputs. Every line other than `##` and `#CHROM` gives one site row. The column lines come once, iff there is a line not starting with `#`. The genotype column line names that line's FORMAT keys. |
| Legacy.LegacySitesIgnored | tidy_vcf.py:106-110 | the sites dict is never consulted: any two sites files that parse give the same conversion |
| Fixture.ExampleHeaderLen | tidy_vcf/tidy_vcf.py:88-95 | the header scan of the test file covers its 28 meta lines and the `#CHROM` line, and stops at the data line |
| Fixture.ExampleHeader | tidy_vcf/tidy_vcf.py:339-380 | the header of the test file gives the 13 sample ids and the 17 INFO keys in declaration order, the 11 FORMAT keys, and no FILTER keys |
| Fixture.ExampleWellFormed | tidy_vcf/tidy_vcf.py:386 | the test's data line parses with `_process_line` into the expected fields |
| Fixture.ExampleInfo | tidy_vcf/tidy_vcf.py:389-392 | the test record's INFO values, in header order, are `NA` for AC, AF and AN, and the literal `.` for MLEAC and MLEAF |
| Fixture.ExampleSiteRow | tidy_vcf/tidy_vcf.py:389-392 | the test record's `info_string` is the asserted site row |
| Fixture.ProjectThree | tidy_vcf/tidy_vcf.py:169-176 | under FORMAT keys that declare GT, DP and RGQ, a sample `<gt>:<dp>:<rgq>` puts its three fields in those keys' columns and `NA` in every other column |
| Fixture.ExampleFirstSample | tidy_vcf/tidy_vcf.py:393-396 | the first sample `0/0:2:6` projects onto the header's FORMAT order as `NA,2,NA,0/0,NA,NA,NA,NA,NA,6,NA` |
| Fixture.ExampleGenotypeRow | tidy_vcf/tidy_vcf.py:393-396 | the first genotype row is the asserted string |
| Fixture.ExampleVcfLine | tests/tests_main.py:94-107 | against the test file's header, process_site on the data line succeeds. It gives the asserted site row, 13 genotype rows, and the asserted first genotype row. |

## Left out

- Argument parsing and `main()` / `__main__` are not modelled. They are command-line glue. The sites file and the thinning distance are parameters here.
- The CLI's refusal of a sites file together with thinning (`tidy_vcf/main.py:265-270`) is not modelled. The class semantics, where either rule keeps a record, are modelled instead.
- `openfile`, gzip and every `open` / `print` are left out because they are I/O.
  - A file is a `seq<string>` of lines, each possibly ending in a newline.
  - Each output is a sequence of printed lines. Each line is tagged as an echoed `#` line, a column line or a row.
- The output written before an exception is not modelled. A failing conversion is an `Err`, with no partial tables.
- The header is read from the same lines that are converted. Reading the file twice (once for `Header`, once for `parse_file`) is not distinguished from reading it once.
- The global `h` that `tidy_vcf/tidy_vcf.py:248-250` uses in place of the `header` parameter is not modelled. Importing that revision succeeds, but a call of `TidyVCF.parse_file` from code that did not run it as a script fails with a `NameError` at the first data line, because `h` is bound only under `if __name__ == "__main__"` (`tidy_vcf/tidy_vcf.py:280`); the model follows the parameter, as `tidy_vcf/main.py:245-247` does.
- The legacy module reads `args.vcf`, and writes to module-level files, instead of using its parameters (`tidy_vcf.py:19-22`, `tidy_vcf.py:107`). The model passes the same lines explicitly.
- Creating and deleting the test file in `TestClass` is left out because it is filesystem plumbing. The fixture strings are modelled.
- setup.py is packaging metadata and is not modelled. Its entry point names a `main` that `tidy_vcf/tidy_vcf.py` does not define.
- PyStr.PyInt: handles an optional sign followed by ASCII digits only. Python's `int()` also accepts surrounding whitespace, underscores and non-ASCII digits. Those inputs are treated as failures, so `Selector.Distance` fails on them where Python would not. Positions from `split()` never carry whitespace.
- QUAL and INFO values are kept as opaque text. The program never reads them as numbers.
- The FILTER keys are extracted into the schema (`Header.BlockKeysSpec` covers them), but the program never writes them, so no output property involves them.
- Header dicts are never mutated, and calling `build_formats` before `process_site` gives the same rows. Both hold by construction here: the header schema is an immutable value and every operation is a pure function of its inputs. No separate lemma states them.
- Record.BuildInfoRow: its contract states only when the row exists. Its cells are stated by `Record.SiteRowCells`.

=== FILE: driver.dfy ===
/** The conversion loop (`TidyVCF.parse_file` in tidy_vcf/main.py) as a
    pure fold over the lines of the VCF file: blank lines are skipped, `#`
    lines are echoed to both tables, the first data line is preceded by the
    two column lines, and every data line is parsed, judged by the
    selector, and projected when it passes. */
module Driver {
  import opened Outcomes
  import opened PyStr
  import opened OrderedDict
  import opened Header
  import opened Record
  import opened Selector

  /** What a printed line is: a copied `#` line, a column line, or a row. */
  datatype Kind = Echo | Columns | Row

  datatype Emitted = Emitted(kind: Kind, text: string)

  /** The lines printed to the site table and to the genotype table. */
  datatype Output = Output(sites: seq<Emitted>, genotypes: seq<Emitted>)

  /** The texts of the lines of one kind, in order. */
  function TextsOf(es: seq<Emitted>, k: Kind): (r: seq<string>)
    ensures |r| <= |es|
  {
    if |es| == 0 then []
    else (if es[0].kind == k then [es[0].text] else []) + TextsOf(es[1..], k)
  }

  lemma {:induction false} TextsOfConcat(a: seq<Emitted>, b: seq<Emitted>, k: Kind)
    ensures TextsOf(a + b, k) == TextsOf(a, k) + TextsOf(b, k)
    decreases |a|
  {
    if |a| > 0 {
      assert (a + b)[1..] == a[1..] + b;
      TextsOfConcat(a[1..], b, k);
    } else {
      assert a + b == b;
    }
  }

  lemma TextsOfThree(a: seq<Emitted>, b: seq<Emitted>, c: seq<Emitted>, k: Kind)
    ensures TextsOf(a + b + c, k) == TextsOf(a, k) + TextsOf(b, k) + TextsOf(c, k)
  {
    TextsOfConcat(a + b, c, k);
    TextsOfConcat(a, b, k);
  }

  /** Rows made from some texts. */
  function Rows(texts: seq<string>): (es: seq<Emitted>)
    ensures |es| == |texts|
    ensures forall i :: 0 <= i < |es| ==> es[i] == Emitted(Row, texts[i])
  {
    seq(|texts|, i requires 0 <= i < |texts| => Emitted(Row, texts[i]))
  }

  lemma {:induction false} TextsOfRows(texts: seq<string>, k: Kind)
    ensures TextsOf(Rows(texts), k) == if k == Row then texts else []
    decreases |texts|
  {
    if |texts| > 0 {
      assert Rows(texts)[1..] == Rows(texts[1..]);
      TextsOfRows(texts[1..], k);
    }
  }

  /** A blank line strips to nothing and is skipped. */
  predicate IsBlank(line: string) {
    Strip(line) == ""
  }

  /** A line copied to both tables: not blank, and `#` is its very first
      character (before stripping). */
  predicate IsMeta(line: string) {
    !IsBlank(line) && StartsWith(line, "#")
  }

  /** A data line: not blank and not starting with `#`. A line with
      leading whitespace before its `#` is a data line. */
  predicate IsData(line: string) {
    !IsBlank(line) && !StartsWith(line, "#")
  }

  /** The rows a record contributes: its site row and its genotype rows
      when it passes, nothing otherwise. */
  function Emit(v: VcfLine, schema: Schema, pass: bool): (r: Result<Output>)
    requires NoDup(schema.format)
    ensures r.Ok? <==> !pass || ProcessSite(v, schema).Ok?
    ensures r.Ok? && pass ==> (r.value ==
      Output(Rows([ProcessSite(v, schema).value.site]), Rows(ProcessSite(v, schema).value.genotypes)))
    ensures r.Ok? && !pass ==> r.value == Output([], [])
  {
    if !pass then Ok(Output([], []))
    else
      var rows :- ProcessSite(v, schema);
      Ok(Output(Rows([rows.site]), Rows(rows.genotypes)))
  }

  /** What a record prints, kind by kind: a kept record adds its site row
      to the site table's rows and its genotype rows to the genotype
      table's, a dropped record adds nothing, and neither prints an echoed
      line or a column line. Only a kept record can fail, and it fails
      when process_site does. */
  lemma EmitTexts(v: VcfLine, schema: Schema, pass: bool)
    requires NoDup(schema.format)
    ensures Emit(v, schema, pass).Err? <==> pass && ProcessSite(v, schema).Err?
    ensures var r := Emit(v, schema, pass);
      r.Ok? ==>
        && TextsOf(r.value.sites, Row) == (if pass then [ProcessSite(v, schema).value.site] else [])
        && TextsOf(r.value.genotypes, Row) == (if pass then ProcessSite(v, schema).value.genotypes else [])
    ensures var r := Emit(v, schema, pass);
      r.Ok? ==> forall k :: k != Row ==> TextsOf(r.value.sites, k) == [] && TextsOf(r.value.genotypes, k) == []
  {
    if pass && ProcessSite(v, schema).Ok? {
      var rows := ProcessSite(v, schema).value;
      forall k | true
        ensures TextsOf(Rows([rows.site]), k) == (if k == Row then [rows.site] else [])
        ensures TextsOf(Rows(rows.genotypes), k) == (if k == Row then rows.genotypes else [])
      {
        TextsOfRows([rows.site], k);
        TextsOfRows(rows.genotypes, k);
      }
    }
  }

  /** The column lines, printed once before the first data line. */
  function ColumnLines(schema: Schema): Output {
    Output([Emitted(Columns, SiteColumns(schema))], [Emitted(Columns, GenotypeColumns(schema))])
  }

  /** What a data line prints before its rows: the column lines when it is
      the first data line, nothing otherwise. */
  function Heading(schema: Schema, first: bool): (h: Output)
    ensures TextsOf(h.sites, Columns) == (if first then [SiteColumns(schema)] else [])
    ensures TextsOf(h.genotypes, Columns) == (if first then [GenotypeColumns(schema)] else [])
    ensures TextsOf(h.sites, Echo) == [] && TextsOf(h.genotypes, Echo) == []
    ensures TextsOf(h.sites, Row) == [] && TextsOf(h.genotypes, Row) == []
    ensures |h.sites| <= 1 && |h.genotypes| <= 1
  {
    if first then ColumnLines(schema) else Output([], [])
  }

  /** The loop of parse_file from some point on: `prev` is the record read
      last and `first` says whether no data line has been seen yet. */
  function Drive(cfg: Config, schema: Schema, prev: Locus, first: bool, lines: seq<string>): (r: Result<Output>)
    requires NoDup(schema.format)
    decreases |lines|
  {
    if |lines| == 0 then Ok(Output([], []))
    else
      var line, ln := lines[0], Strip(lines[0]);
      if ln == "" then Drive(cfg, schema, prev, first, lines[1..])
      else if StartsWith(line, "#") then
        var rest :- Drive(cfg, schema, prev, first, lines[1..]);
        Ok(Output([Emitted(Echo, ln)] + rest.sites, [Emitted(Echo, ln)] + rest.genotypes))
      else
        var cols := Heading(schema, first);
        var v :- ProcessLine(ln);
        var here := Locus(v.chrom, v.pos);
        var pass :- SitesPass(cfg, prev, here);
        var out :- Emit(v, schema, pass);
        var rest :- Drive(cfg, schema, here, false, lines[1..]);
        Ok(Output(cols.sites + out.sites + rest.sites, cols.genotypes + out.genotypes + rest.genotypes))
  }

  /** parse_file over the lines of a VCF file whose schema was read from
      the same lines by build_vcf_dicts. */
  function ParseFile(cfg: Config, lines: seq<string>): (r: Result<Output>)
  {
    Drive(cfg, HeaderSchema(lines), Start, true, lines)
  }

  /** The `--sites` argument: absent, or a file name together with the
      lines of the file it names. */
  datatype SitesArg = NoSitesFile | SitesFile(name: string, file: seq<string>)

  /** The whole conversion. `__post_init__` reads the sites file only when
      its name is truthy, while sites_pass consults `sites_dict` whenever a
      name is given at all; a name of "" therefore leaves the dict unset. */
  function Convert(sites: SitesArg, thin: int, lines: seq<string>): Result<Output>
  {
    match sites
    case NoSitesFile => ParseFile(Config(None, thin), lines)
    case SitesFile(name, file) =>
      if name == "" then UnreadSites(thin, lines)
      else
        var keys :- ParseSites(file);
        ParseFile(Config(Some(keys), thin), lines)
  }

  /** parse_file with a sites-file name of "": the run is that of no sites
      file up to the first data line, which is parsed and then stops in
      sites_pass on the missing `sites_dict`. */
  function UnreadSites(thin: int, lines: seq<string>): Result<Output>
  {
    var ds := DataLines(lines);
    if |ds| == 0 then ParseFile(Config(None, thin), lines)
    else
      var _ :- ProcessLine(ds[0]);
      Err(SitesNotRead)
  }

  /** A file without data lines converts to its stripped `#` lines, echoed
      in order to both tables, with no column line and no row. */
  lemma {:induction false} DriveNoData(cfg: Config, schema: Schema, prev: Locus, first: bool, lines: seq<string>)
    requires NoDup(schema.format) && |DataLines(lines)| == 0
    ensures Drive(cfg, schema, prev, first, lines) == Ok(Output(Echoes(MetaLines(lines)), Echoes(MetaLines(lines))))
  {
    if |lines| > 0 {
      assert !IsData(lines[0]);
      if IsBlank(lines[0]) {
        BlankStep(cfg, schema, prev, first, lines);
        DriveNoData(cfg, schema, prev, first, lines[1..]);
      } else {
        MetaStep(cfg, schema, prev, first, lines);
        DriveNoData(cfg, schema, prev, first, lines[1..]);
        EchoCons(Strip(lines[0]), MetaLines(lines[1..]));
      }
    }
  }

  lemma EchoCons(t: string, ts: seq<string>)
    ensures Echoes([t] + ts) == [Emitted(Echo, t)] + Echoes(ts)
  {
  }

  /** A sites-file name of "" is never read: a file without data lines
      converts as with no sites file, and any data line makes the
      conversion fail, with the missing `sites_dict` once that line has
      parsed. */
  lemma ConvertUnnamedSites(file: seq<string>, thin: int, lines: seq<string>)
    ensures var r := Convert(SitesFile("", file), thin, lines);
      && (r.Ok? <==> |DataLines(lines)| == 0)
      && (r.Ok? ==> r.value == Output(Echoes(MetaLines(lines)), Echoes(MetaLines(lines))))
      && (|DataLines(lines)| > 0 && ProcessLine(DataLines(lines)[0]).Ok? ==> r == Err(SitesNotRead))
  {
    if |DataLines(lines)| == 0 {
      DriveNoData(Config(None, thin), HeaderSchema(lines), Start, true, lines);
    }
  }

  // ---------------------------------------------------------------------
  // the reference pipeline: parse every data line, select, project

  /** The stripped data lines, in order. */
  function DataLines(lines: seq<string>): seq<string>
  {
    if |lines| == 0 then []
    else (if IsData(lines[0]) then [Strip(lines[0])] else []) + DataLines(lines[1..])
  }

  /** The stripped `#` lines, in order. */
  function MetaLines(lines: seq<string>): seq<string>
  {
    if |lines| == 0 then []
    else (if IsMeta(lines[0]) then [Strip(lines[0])] else []) + MetaLines(lines[1..])
  }

  /** Every data line parsed as a record. */
  function ParseAll(ds: seq<string>): (r: Result<seq<VcfLine>>)
    ensures r.Ok? <==> forall i :: 0 <= i < |ds| ==> ProcessLine(ds[i]).Ok?
    ensures r.Ok? ==> |r.value| == |ds| && forall i :: 0 <= i < |ds| ==> r.value[i] == ProcessLine(ds[i]).value
  {
    var rs := seq(|ds|, i requires 0 <= i < |ds| => ProcessLine(ds[i]));
    assert forall i :: 0 <= i < |ds| ==> rs[i] == ProcessLine(ds[i]);
    Collect(rs)
  }

  function LociOf(vs: seq<VcfLine>): (ls: seq<Locus>)
    ensures |ls| == |vs|
    ensures forall i :: 0 <= i < |vs| ==> ls[i] == Locus(vs[i].chrom, vs[i].pos)
  {
    seq(|vs|, i requires 0 <= i < |vs| => Locus(vs[i].chrom, vs[i].pos))
  }

  function ProjectOne(v: VcfLine, flag: bool, schema: Schema): (r: Result<seq<SiteRows>>)
    requires NoDup(schema.format)
  {
    if !flag then Ok([])
    else
      var rows :- ProcessSite(v, schema);
      Ok([rows])
  }

  /** The rows of the records whose flag is set, in record order. */
  function Project(vs: seq<VcfLine>, flags: seq<bool>, schema: Schema): Result<seq<SiteRows>>
    requires |flags| == |vs| && NoDup(schema.format)
  {
    if |vs| == 0 then Ok([])
    else
      var here :- ProjectOne(vs[0], flags[0], schema);
      var rest :- Project(vs[1..], flags[1..], schema);
      Ok(here + rest)
  }

  /** The rows a run of records contributes, computed stage by stage. */
  function Reference(cfg: Config, schema: Schema, prev: Locus, lines: seq<string>): Result<seq<SiteRows>>
    requires NoDup(schema.format)
  {
    var vs :- ParseAll(DataLines(lines));
    Stages(cfg, schema, prev, vs)
  }

  /** Selection, then projection of the passing records. */
  function Stages(cfg: Config, schema: Schema, prev: Locus, vs: seq<VcfLine>): Result<seq<SiteRows>>
    requires NoDup(schema.format)
  {
    var flags :- Select(cfg, prev, LociOf(vs));
    Project(vs, flags, schema)
  }

  function SiteTexts(rs: seq<SiteRows>): seq<string>
  {
    seq(|rs|, i requires 0 <= i < |rs| => rs[i].site)
  }

  function GenotypeTexts(rs: seq<SiteRows>): seq<string>
  {
    if |rs| == 0 then [] else rs[0].genotypes + GenotypeTexts(rs[1..])
  }

  lemma SiteTextsConcat(a: seq<SiteRows>, b: seq<SiteRows>)
    ensures SiteTexts(a + b) == SiteTexts(a) + SiteTexts(b)
  {
  }

  lemma {:induction false} GenotypeTextsConcat(a: seq<SiteRows>, b: seq<SiteRows>)
    ensures GenotypeTexts(a + b) == GenotypeTexts(a) + GenotypeTexts(b)
    decreases |a|
  {
    if |a| > 0 {
      assert (a + b)[1..] == a[1..] + b;
      GenotypeTextsConcat(a[1..], b);
    } else {
      assert a + b == b;
    }
  }

  // ---------------------------------------------------------------------
  // each stage of the reference pipeline, one record at a time

  lemma ParseAllCons(d: string, ds: seq<string>)
    ensures ParseAll([d] + ds).Ok? <==> ProcessLine(d).Ok? && ParseAll(ds).Ok?
    ensures ParseAll([d] + ds).Ok? ==> ParseAll([d] + ds).value == [ProcessLine(d).value] + ParseAll(ds).value
  {
    assert ([d] + ds)[0] == d && ([d] + ds)[1..] == ds;
  }

  lemma SelectCons(cfg: Config, prev: Locus, l: Locus, ls: seq<Locus>)
    ensures Select(cfg, prev, [l] + ls).Ok? <==> SitesPass(cfg, prev, l).Ok? && Select(cfg, l, ls).Ok?
    ensures Select(cfg, prev, [l] + ls).Ok? ==>
      Select(cfg, prev, [l] + ls).value == [SitesPass(cfg, prev, l).value] + Select(cfg, l, ls).value
  {
    assert ([l] + ls)[0] == l && ([l] + ls)[1..] == ls;
  }

  lemma ProjectCons(v: VcfLine, vs: seq<VcfLine>, f: bool, fs: seq<bool>, schema: Schema)
    requires |fs| == |vs| && NoDup(schema.format)
    ensures Project([v] + vs, [f] + fs, schema).Ok? <==> ProjectOne(v, f, schema).Ok? && Project(vs, fs, schema).Ok?
    ensures Project([v] + vs, [f] + fs, schema).Ok? ==>
      Project([v] + vs, [f] + fs, schema).value == ProjectOne(v, f, schema).value + Project(vs, fs, schema).value
  {
    assert ([v] + vs)[0] == v && ([v] + vs)[1..] == vs;
    assert ([f] + fs)[0] == f && ([f] + fs)[1..] == fs;
  }

  /** The reference pipeline over a run that starts with a data line: that
      record is parsed, judged and projected, then the rest of the run
      follows with the record as its predecessor. */
  lemma ReferenceCons(cfg: Config, schema: Schema, prev: Locus, lines: seq<string>)
    requires NoDup(schema.format) && |lines| > 0 && IsData(lines[0])
    requires ProcessLine(Strip(lines[0])).Ok?
    ensures var v := ProcessLine(Strip(lines[0])).value;
      var here := Locus(v.chrom, v.pos);
      Reference(cfg, schema, prev, lines).Ok? <==>
        (&& SitesPass(cfg, prev, here).Ok?
         && ProjectOne(v, SitesPass(cfg, prev, here).value, schema).Ok?
         && Reference(cfg, schema, here, lines[1..]).Ok?)
    ensures var v := ProcessLine(Strip(lines[0])).value;
      var here := Locus(v.chrom, v.pos);
      Reference(cfg, schema, prev, lines).Ok? ==>
        Reference(cfg, schema, prev, lines).value ==
          ProjectOne(v, SitesPass(cfg, prev, here).value, schema).value + Reference(cfg, schema, here, lines[1..]).value
  {
    var ln := Strip(lines[0]);
    var v := ProcessLine(ln).value;
    var ds := DataLines(lines[1..]);
    assert DataLines(lines) == [ln] + ds;
    ParseAllCons(ln, ds);
    if ParseAll(ds).Ok? {
      StagesCons(cfg, schema, prev, v, ParseAll(ds).value);
    }
  }

  /** Selection and projection over records that start with `v`. */
  lemma StagesCons(cfg: Config, schema: Schema, prev: Locus, v: VcfLine, vs: seq<VcfLine>)
    requires NoDup(schema.format)
    ensures var here := Locus(v.chrom, v.pos);
      Stages(cfg, schema, prev, [v] + vs).Ok? <==>
        (&& SitesPass(cfg, prev, here).Ok?
         && ProjectOne(v, SitesPass(cfg, prev, here).value, schema).Ok?
         && Stages(cfg, schema, here, vs).Ok?)
    ensures var here := Locus(v.chrom, v.pos);
      Stages(cfg, schema, prev, [v] + vs).Ok? ==>
        Stages(cfg, schema, prev, [v] + vs).value ==
          ProjectOne(v, SitesPass(cfg, prev, here).value, schema).value + Stages(cfg, schema, here, vs).value
  {
    var here := Locus(v.chrom, v.pos);
    assert LociOf([v] + vs) == [here] + LociOf(vs);
    SelectCons(cfg, prev, here, LociOf(vs));
    if Select(cfg, here, LociOf(vs)).Ok? && SitesPass(cfg, prev, here).Ok? {
      var p := SitesPass(cfg, prev, here).value;
      var fs := Select(cfg, here, LociOf(vs)).value;
      ProjectCons(v, vs, p, fs, schema);
    }
  }

  // ---------------------------------------------------------------------
  // what the loop prints

  /** The loop and the reference pipeline agree from some point on: the
      loop succeeds exactly when the pipeline does, and then the rows of
      the two tables are the pipeline's site rows and genotype rows. */
  predicate Agree(cfg: Config, schema: Schema, prev: Locus, first: bool, lines: seq<string>)
    requires NoDup(schema.format)
  {
    && (Drive(cfg, schema, prev, first, lines).Ok? <==> Reference(cfg, schema, prev, lines).Ok?)
    && (Drive(cfg, schema, prev, first, lines).Ok? ==>
      && TextsOf(Drive(cfg, schema, prev, first, lines).value.sites, Row) == SiteTexts(Reference(cfg, schema, prev, lines).value)
      && TextsOf(Drive(cfg, schema, prev, first, lines).value.genotypes, Row) == GenotypeTexts(Reference(cfg, schema, prev, lines).value))
  }

  /** The conversion succeeds exactly when the reference pipeline does: every
      data line has nine fields, every record can be judged, and every
      passing record can be projected. The site table's rows are then the
      site rows of the passing records, and the genotype table's rows their
      genotype rows, in record order. */
  lemma {:induction false} DriveMatchesReference(cfg: Config, schema: Schema, prev: Locus, first: bool, lines: seq<string>)
    requires NoDup(schema.format)
    ensures Agree(cfg, schema, prev, first, lines)
    decreases |lines|
  {
    if |lines| > 0 {
      var line, ln := lines[0], Strip(lines[0]);
      if ln == "" || StartsWith(line, "#") {
        DriveMatchesReference(cfg, schema, prev, first, lines[1..]);
        SkipStep(cfg, schema, prev, first, lines);
      } else if ProcessLine(ln).Ok? {
        var v := ProcessLine(ln).value;
        DriveMatchesReference(cfg, schema, Locus(v.chrom, v.pos), false, lines[1..]);
        DataStep(cfg, schema, prev, first, lines);
      } else {
        assert DataLines(lines) == [ln] + DataLines(lines[1..]);
        ParseAllCons(ln, DataLines(lines[1..]));
      }
    }
  }

  /** A blank or `#` line adds no row and no record. */
  lemma SkipStep(cfg: Config, schema: Schema, prev: Locus, first: bool, lines: seq<string>)
    requires NoDup(schema.format) && |lines| > 0 && !IsData(lines[0])
    requires Agree(cfg, schema, prev, first, lines[1..])
    ensures Agree(cfg, schema, prev, first, lines)
  {
    var ln := Strip(lines[0]);
    assert DataLines(lines) == DataLines(lines[1..]);
    assert Reference(cfg, schema, prev, lines) == Reference(cfg, schema, prev, lines[1..]);
    if ln != "" && Drive(cfg, schema, prev, first, lines[1..]).Ok? {
      var rest := Drive(cfg, schema, prev, first, lines[1..]).value;
      var e := [Emitted(Echo, ln)];
      TextsOfConcat(e, rest.sites, Row);
      TextsOfConcat(e, rest.genotypes, Row);
    }
  }

  /** A data line that parses: its record is judged against `prev`, its
      rows (if it passes) come first, then the rest of the run's. */
  lemma DataStep(cfg: Config, schema: Schema, prev: Locus, first: bool, lines: seq<string>)
    requires NoDup(schema.format) && |lines| > 0 && IsData(lines[0])
    requires ProcessLine(Strip(lines[0])).Ok?
    requires var v := ProcessLine(Strip(lines[0])).value;
      Agree(cfg, schema, Locus(v.chrom, v.pos), false, lines[1..])
    ensures Agree(cfg, schema, prev, first, lines)
  {
    DataStepOk(cfg, schema, prev, first, lines);
    if Drive(cfg, schema, prev, first, lines).Ok? {
      DataStepRows(cfg, schema, prev, first, lines);
    }
  }

  lemma DataStepOk(cfg: Config, schema: Schema, prev: Locus, first: bool, lines: seq<string>)
    requires NoDup(schema.format) && |lines| > 0 && IsData(lines[0])
    requires ProcessLine(Strip(lines[0])).Ok?
    requires var v := ProcessLine(Strip(lines[0])).value;
      Drive(cfg, schema, Locus(v.chrom, v.pos), false, lines[1..]).Ok? <==>
      Reference(cfg, schema, Locus(v.chrom, v.pos), lines[1..]).Ok?
    ensures Drive(cfg, schema, prev, first, lines).Ok? <==> Reference(cfg, schema, prev, lines).Ok?
  {
    var v := ProcessLine(Strip(lines[0])).value;
    var here := Locus(v.chrom, v.pos);
    ReferenceCons(cfg, schema, prev, lines);
    DriveData(cfg, schema, prev, first, lines);
    if SitesPass(cfg, prev, here).Ok? {
      var p := SitesPass(cfg, prev, here).value;
      assert Emit(v, schema, p).Ok? <==> ProjectOne(v, p, schema).Ok?;
    }
  }

  lemma DataStepRows(cfg: Config, schema: Schema, prev: Locus, first: bool, lines: seq<string>)
    requires NoDup(schema.format) && |lines| > 0 && IsData(lines[0])
    requires ProcessLine(Strip(lines[0])).Ok?
    requires Drive(cfg, schema, prev, first, lines).Ok? && Reference(cfg, schema, prev, lines).Ok?
    requires var v := ProcessLine(Strip(lines[0])).value;
      Agree(cfg, schema, Locus(v.chrom, v.pos), false, lines[1..])
    ensures TextsOf(Drive(cfg, schema, prev, first, lines).value.sites, Row) == SiteTexts(Reference(cfg, schema, prev, lines).value)
    ensures TextsOf(Drive(cfg, schema, prev, first, lines).value.genotypes, Row) == GenotypeTexts(Reference(cfg, schema, prev, lines).value)
  {
    DataStepSiteRows(cfg, schema, prev, first, lines);
    DataStepGenotypeRows(cfg, schema, prev, first, lines);
  }

  lemma DataStepSiteRows(cfg: Config, schema: Schema, prev: Locus, first: bool, lines: seq<string>)
    requires NoDup(schema.format) && |lines| > 0 && IsData(lines[0])
    requires ProcessLine(Strip(lines[0])).Ok?
    requires Drive(cfg, schema, prev, first, lines).Ok? && Reference(cfg, schema, prev, lines).Ok?
    requires var v := ProcessLine(Strip(lines[0])).value;
      Agree(cfg, schema, Locus(v.chrom, v.pos), false, lines[1..])
    ensures TextsOf(Drive(cfg, schema, prev, first, lines).value.sites, Row) == SiteTexts(Reference(cfg, schema, prev, lines).value)
  {
    var v := ProcessLine(Strip(lines[0])).value;
    var here := Locus(v.chrom, v.pos);
    ReferenceCons(cfg, schema, prev, lines);
    DriveData(cfg, schema, prev, first, lines);
    var p := SitesPass(cfg, prev, here).value;
    var rest, tail := Drive(cfg, schema, here, false, lines[1..]).value, Reference(cfg, schema, here, lines[1..]).value;
    var one := ProjectOne(v, p, schema).value;
    EmitRows(schema, v, p);
    RowsStep(Heading(schema, first), Emit(v, schema, p).value, rest);
    SiteTextsConcat(one, tail);
  }

  lemma DataStepGenotypeRows(cfg: Config, schema: Schema, prev: Locus, first: bool, lines: seq<string>)
    requires NoDup(schema.format) && |lines| > 0 && IsData(lines[0])
    requires ProcessLine(Strip(lines[0])).Ok?
    requires Drive(cfg, schema, prev, first, lines).Ok? && Reference(cfg, schema, prev, lines).Ok?
    requires var v := ProcessLine(Strip(lines[0])).value;
      Agree(cfg, schema, Locus(v.chrom, v.pos), false, lines[1..])
    ensures TextsOf(Drive(cfg, schema, prev, first, lines).value.genotypes, Row) == GenotypeTexts(Reference(cfg, schema, prev, lines).value)
  {
    var v := ProcessLine(Strip(lines[0])).value;
    var here := Locus(v.chrom, v.pos);
    ReferenceCons(cfg, schema, prev, lines);
    DriveData(cfg, schema, prev, first, lines);
    var p := SitesPass(cfg, prev, here).value;
    var rest, tail := Drive(cfg, schema, here, false, lines[1..]).value, Reference(cfg, schema, here, lines[1..]).value;
    var one := ProjectOne(v, p, schema).value;
    EmitRows(schema, v, p);
    RowsStep(Heading(schema, first), Emit(v, schema, p).value, rest);
    GenotypeTextsConcat(one, tail);
  }

  /** The loop on a data line that parses. */
  lemma DriveData(cfg: Config, schema: Schema, prev: Locus, first: bool, lines: seq<string>)
    requires NoDup(schema.format) && |lines| > 0 && IsData(lines[0])
    requires ProcessLine(Strip(lines[0])).Ok?
    ensures var v := ProcessLine(Strip(lines[0])).value;
      var here := Locus(v.chrom, v.pos);
      Drive(cfg, schema, prev, first, lines).Ok? <==>
        (&& SitesPass(cfg, prev, here).Ok?
         && Emit(v, schema, SitesPass(cfg, prev, here).value).Ok?
         && Drive(cfg, schema, here, false, lines[1..]).Ok?)
    ensures var v := ProcessLine(Strip(lines[0])).value;
      var here := Locus(v.chrom, v.pos);
      var cols := Heading(schema, first);
      Drive(cfg, schema, prev, first, lines).Ok? ==>
        var out, rest := Emit(v, schema, SitesPass(cfg, prev, here).value).value, Drive(cfg, schema, here, false, lines[1..]).value;
        Drive(cfg, schema, prev, first, lines).value ==
          Output(cols.sites + out.sites + rest.sites, cols.genotypes + out.genotypes + rest.genotypes)
  {
  }

  /** Rows after a rows-free heading: the heading adds none, the record's
      own rows come first, then the rest's. */
  lemma RowsStep(cols: Output, out: Output, rest: Output)
    requires TextsOf(cols.sites, Row) == [] && TextsOf(cols.genotypes, Row) == []
    ensures TextsOf(cols.sites + out.sites + rest.sites, Row) == TextsOf(out.sites, Row) + TextsOf(rest.sites, Row)
    ensures TextsOf(cols.genotypes + out.genotypes + rest.genotypes, Row) == TextsOf(out.genotypes, Row) + TextsOf(rest.genotypes, Row)
  {
    RowsAfter(cols.sites, out.sites, rest.sites);
    RowsAfter(cols.genotypes, out.genotypes, rest.genotypes);
  }

  lemma RowsAfter(cols: seq<Emitted>, out: seq<Emitted>, rest: seq<Emitted>)
    requires TextsOf(cols, Row) == []
    ensures TextsOf(cols + out + rest, Row) == TextsOf(out, Row) + TextsOf(rest, Row)
  {
    TextsOfThree(cols, out, rest, Row);
  }

  /** The rows Emit prints are the ones the reference projection keeps. */
  lemma EmitRows(schema: Schema, v: VcfLine, p: bool)
    requires NoDup(schema.format) && Emit(v, schema, p).Ok?
    ensures ProjectOne(v, p, schema).Ok?
    ensures var out, one := Emit(v, schema, p).value, ProjectOne(v, p, schema).value;
      TextsOf(out.sites, Row) == SiteTexts(one) && TextsOf(out.genotypes, Row) == GenotypeTexts(one)
  {
    if p {
      var rows := ProcessSite(v, schema).value;
      TextsOfRows([rows.site], Row);
      TextsOfRows(rows.genotypes, Row);
      assert ProjectOne(v, p, schema).value == [rows];
      assert GenotypeTexts([rows]) == rows.genotypes + GenotypeTexts([]);
    }
  }

  // ---------------------------------------------------------------------
  // echoed lines and column lines

  /** No entry of the given kind. */
  predicate NoneOf(es: seq<Emitted>, k: Kind) {
    forall i :: 0 <= i < |es| ==> es[i].kind != k
  }

  lemma {:induction false} TextsOfNone(es: seq<Emitted>, k: Kind)
    ensures TextsOf(es, k) == [] <==> NoneOf(es, k)
    decreases |es|
  {
    if |es| > 0 {
      TextsOfNone(es[1..], k);
      assert forall i :: 1 <= i < |es| ==> es[i] == es[1..][i - 1];
    }
  }

  /** The lines before the first data line. */
  function BeforeData(lines: seq<string>): seq<string>
  {
    if |lines| == 0 || IsData(lines[0]) then [] else [lines[0]] + BeforeData(lines[1..])
  }

  /** Echoed lines with the given texts. */
  function Echoes(texts: seq<string>): (es: seq<Emitted>)
    ensures |es| == |texts|
    ensures forall i :: 0 <= i < |es| ==> es[i] == Emitted(Echo, texts[i])
  {
    seq(|texts|, i requires 0 <= i < |texts| => Emitted(Echo, texts[i]))
  }

  /** Exactly the echoed lines with the given texts precede any column
      line. */
  predicate EchoesThenColumns(es: seq<Emitted>, texts: seq<string>) {
    forall j :: 0 <= j < |es| && es[j].kind == Columns ==> es[..j] == Echoes(texts)
  }

  lemma MetaBeforeData(lines: seq<string>)
    requires |lines| > 0 && !IsData(lines[0])
    ensures MetaLines(BeforeData(lines)) ==
      (if IsMeta(lines[0]) then [Strip(lines[0])] else []) + MetaLines(BeforeData(lines[1..]))
  {
    assert ([lines[0]] + BeforeData(lines[1..]))[1..] == BeforeData(lines[1..]);
  }

  /** Everything printed before a column line is an echoed `#` line. */
  predicate EchoesBeforeColumns(es: seq<Emitted>) {
    forall i, j :: 0 <= i < j < |es| && es[j].kind == Columns ==> es[i].kind == Echo
  }

  /** What a data line prints for kinds other than rows: its heading only. */
  lemma DataKinds(schema: Schema, v: VcfLine, p: bool, first: bool, rest: Output, k: Kind)
    requires NoDup(schema.format) && Emit(v, schema, p).Ok? && k != Row
    ensures var h, out := Heading(schema, first), Emit(v, schema, p).value;
      && TextsOf(h.sites + out.sites + rest.sites, k) == TextsOf(h.sites, k) + TextsOf(rest.sites, k)
      && TextsOf(h.genotypes + out.genotypes + rest.genotypes, k) == TextsOf(h.genotypes, k) + TextsOf(rest.genotypes, k)
  {
    var h, out := Heading(schema, first), Emit(v, schema, p).value;
    TextsOfConcat(h.sites + out.sites, rest.sites, k);
    TextsOfConcat(h.sites, out.sites, k);
    TextsOfConcat(h.genotypes + out.genotypes, rest.genotypes, k);
    TextsOfConcat(h.genotypes, out.genotypes, k);
    if p {
      var rows := ProcessSite(v, schema).value;
      TextsOfRows([rows.site], k);
      TextsOfRows(rows.genotypes, k);
    }
  }

  /** A `#` line puts one echoed line in front of the rest's output. */
  lemma MetaStep(cfg: Config, schema: Schema, prev: Locus, first: bool, lines: seq<string>)
    requires NoDup(schema.format) && |lines| > 0 && IsMeta(lines[0])
    ensures var r, rest := Drive(cfg, schema, prev, first, lines), Drive(cfg, schema, prev, first, lines[1..]);
      && (r.Ok? <==> rest.Ok?)
      && (r.Ok? ==> r.value == Output([Emitted(Echo, Strip(lines[0]))] + rest.value.sites, [Emitted(Echo, Strip(lines[0]))] + rest.value.genotypes))
    ensures DataLines(lines) == DataLines(lines[1..])
    ensures MetaLines(lines) == [Strip(lines[0])] + MetaLines(lines[1..])
  {
  }

  /** A blank line changes nothing. */
  lemma BlankStep(cfg: Config, schema: Schema, prev: Locus, first: bool, lines: seq<string>)
    requires NoDup(schema.format) && |lines| > 0 && IsBlank(lines[0])
    ensures Drive(cfg, schema, prev, first, lines) == Drive(cfg, schema, prev, first, lines[1..])
    ensures DataLines(lines) == DataLines(lines[1..]) && MetaLines(lines) == MetaLines(lines[1..])
  {
  }

  /** The echoed lines of a run. */
  predicate EchoesOf(cfg: Config, schema: Schema, prev: Locus, first: bool, lines: seq<string>)
    requires NoDup(schema.format)
  {
    var r := Drive(cfg, schema, prev, first, lines);
    r.Ok? ==> TextsOf(r.value.sites, Echo) == MetaLines(lines) && TextsOf(r.value.genotypes, Echo) == MetaLines(lines)
  }

  /** Both tables carry the `#` lines, stripped and in file order, and no
      other echoed line. */
  lemma {:induction false} DriveEchoes(cfg: Config, schema: Schema, prev: Locus, first: bool, lines: seq<string>)
    requires NoDup(schema.format)
    ensures var r := Drive(cfg, schema, prev, first, lines);
      r.Ok? ==> TextsOf(r.value.sites, Echo) == MetaLines(lines) && TextsOf(r.value.genotypes, Echo) == MetaLines(lines)
    decreases |lines|, 1
  {
    if |lines| > 0 {
      if IsBlank(lines[0]) {
        EchoesBlank(cfg, schema, prev, first, lines);
      } else if IsMeta(lines[0]) {
        EchoesMeta(cfg, schema, prev, first, lines);
      } else {
        EchoesData(cfg, schema, prev, first, lines);
      }
    }
  }

  lemma {:induction false} EchoesBlank(cfg: Config, schema: Schema, prev: Locus, first: bool, lines: seq<string>)
    requires NoDup(schema.format) && |lines| > 0 && IsBlank(lines[0])
    ensures EchoesOf(cfg, schema, prev, first, lines)
    decreases |lines|, 0
  {
    DriveEchoes(cfg, schema, prev, first, lines[1..]);
    BlankStep(cfg, schema, prev, first, lines);
  }

  lemma {:induction false} EchoesMeta(cfg: Config, schema: Schema, prev: Locus, first: bool, lines: seq<string>)
    requires NoDup(schema.format) && |lines| > 0 && IsMeta(lines[0])
    ensures EchoesOf(cfg, schema, prev, first, lines)
    decreases |lines|, 0
  {
    DriveEchoes(cfg, schema, prev, first, lines[1..]);
    MetaStep(cfg, schema, prev, first, lines);
    if Drive(cfg, schema, prev, first, lines).Ok? {
      var rest := Drive(cfg, schema, prev, first, lines[1..]).value;
      var e := [Emitted(Echo, Strip(lines[0]))];
      TextsOfConcat(e, rest.sites, Echo);
      TextsOfConcat(e, rest.genotypes, Echo);
    }
  }

  lemma {:induction false} EchoesData(cfg: Config, schema: Schema, prev: Locus, first: bool, lines: seq<string>)
    requires NoDup(schema.format) && |lines| > 0 && IsData(lines[0])
    ensures EchoesOf(cfg, schema, prev, first, lines)
    decreases |lines|, 0
  {
    if Drive(cfg, schema, prev, first, lines).Ok? {
      var v := ProcessLine(Strip(lines[0])).value;
      var here := Locus(v.chrom, v.pos);
      DriveEchoes(cfg, schema, here, false, lines[1..]);
      DriveData(cfg, schema, prev, first, lines);
      assert MetaLines(lines) == MetaLines(lines[1..]);
      DataKinds(schema, v, SitesPass(cfg, prev, here).value, first, Drive(cfg, schema, here, false, lines[1..]).value, Echo);
    }
  }

  /** The column lines of a run: once when it starts before the first data
      line and holds one, never otherwise. */
  predicate ColumnsOnce(cfg: Config, schema: Schema, prev: Locus, first: bool, lines: seq<string>)
    requires NoDup(schema.format)
  {
    var r := Drive(cfg, schema, prev, first, lines);
    r.Ok? ==>
      && TextsOf(r.value.sites, Columns) == (if first && |DataLines(lines)| > 0 then [SiteColumns(schema)] else [])
      && TextsOf(r.value.genotypes, Columns) == (if first && |DataLines(lines)| > 0 then [GenotypeColumns(schema)] else [])
  }

  /** Each table gets its column line exactly once when the run starts
      before the first data line and holds one, and never otherwise. */
  lemma {:induction false} DriveColumns(cfg: Config, schema: Schema, prev: Locus, first: bool, lines: seq<string>)
    requires NoDup(schema.format)
    ensures var r := Drive(cfg, schema, prev, first, lines);
      r.Ok? ==>
        && TextsOf(r.value.sites, Columns) == (if first && |DataLines(lines)| > 0 then [SiteColumns(schema)] else [])
        && TextsOf(r.value.genotypes, Columns) == (if first && |DataLines(lines)| > 0 then [GenotypeColumns(schema)] else [])
    decreases |lines|, 1
  {
    if |lines| > 0 {
      if IsBlank(lines[0]) {
        ColumnsBlank(cfg, schema, prev, first, lines);
      } else if IsMeta(lines[0]) {
        ColumnsMeta(cfg, schema, prev, first, lines);
      } else {
        ColumnsData(cfg, schema, prev, first, lines);
      }
    }
  }

  lemma {:induction false} ColumnsBlank(cfg: Config, schema: Schema, prev: Locus, first: bool, lines: seq<string>)
    requires NoDup(schema.format) && |lines| > 0 && IsBlank(lines[0])
    ensures ColumnsOnce(cfg, schema, prev, first, lines)
    decreases |lines|, 0
  {
    DriveColumns(cfg, schema, prev, first, lines[1..]);
    BlankStep(cfg, schema, prev, first, lines);
  }

  lemma {:induction false} ColumnsMeta(cfg: Config, schema: Schema, prev: Locus, first: bool, lines: seq<string>)
    requires NoDup(schema.format) && |lines| > 0 && IsMeta(lines[0])
    ensures ColumnsOnce(cfg, schema, prev, first, lines)
    decreases |lines|, 0
  {
    DriveColumns(cfg, schema, prev, first, lines[1..]);
    MetaStep(cfg, schema, prev, first, lines);
    if Drive(cfg, schema, prev, first, lines).Ok? {
      var rest := Drive(cfg, schema, prev, first, lines[1..]).value;
      var e := [Emitted(Echo, Strip(lines[0]))];
      TextsOfConcat(e, rest.sites, Columns);
      TextsOfConcat(e, rest.genotypes, Columns);
    }
  }

  lemma {:induction false} ColumnsData(cfg: Config, schema: Schema, prev: Locus, first: bool, lines: seq<string>)
    requires NoDup(schema.format) && |lines| > 0 && IsData(lines[0])
    ensures ColumnsOnce(cfg, schema, prev, first, lines)
    decreases |lines|, 0
  {
    if Drive(cfg, schema, prev, first, lines).Ok? {
      var v := ProcessLine(Strip(lines[0])).value;
      var here := Locus(v.chrom, v.pos);
      DriveColumns(cfg, schema, here, false, lines[1..]);
      DriveData(cfg, schema, prev, first, lines);
      assert |DataLines(lines)| > 0;
      DataKinds(schema, v, SitesPass(cfg, prev, here).value, first, Drive(cfg, schema, here, false, lines[1..]).value, Columns);
    }
  }

  /** Echoed lines only before each column line. */
  predicate ColumnsAfterEchoes(cfg: Config, schema: Schema, prev: Locus, first: bool, lines: seq<string>)
    requires NoDup(schema.format)
  {
    var r := Drive(cfg, schema, prev, first, lines);
    var m := MetaLines(BeforeData(lines));
    r.Ok? ==>
      && EchoesBeforeColumns(r.value.sites) && EchoesBeforeColumns(r.value.genotypes)
      && EchoesThenColumns(r.value.sites, m) && EchoesThenColumns(r.value.genotypes, m)
  }

  /** Each column line comes right after the echoed `#` lines that precede
      the first data line: those lines, in order, and nothing else are
      printed before it. */
  lemma {:induction false} DriveColumnsPlacement(cfg: Config, schema: Schema, prev: Locus, first: bool, lines: seq<string>)
    requires NoDup(schema.format)
    ensures var r := Drive(cfg, schema, prev, first, lines);
      r.Ok? ==> EchoesBeforeColumns(r.value.sites) && EchoesBeforeColumns(r.value.genotypes)
    ensures var r, m := Drive(cfg, schema, prev, first, lines), MetaLines(BeforeData(lines));
      r.Ok? ==> EchoesThenColumns(r.value.sites, m) && EchoesThenColumns(r.value.genotypes, m)
    decreases |lines|, 1
  {
    if |lines| > 0 {
      if IsBlank(lines[0]) {
        PlacementBlank(cfg, schema, prev, first, lines);
      } else if IsMeta(lines[0]) {
        PlacementMeta(cfg, schema, prev, first, lines);
      } else {
        PlacementData(cfg, schema, prev, first, lines);
      }
    }
  }

  lemma {:induction false} PlacementBlank(cfg: Config, schema: Schema, prev: Locus, first: bool, lines: seq<string>)
    requires NoDup(schema.format) && |lines| > 0 && IsBlank(lines[0])
    ensures ColumnsAfterEchoes(cfg, schema, prev, first, lines)
    decreases |lines|, 0
  {
    DriveColumnsPlacement(cfg, schema, prev, first, lines[1..]);
    BlankStep(cfg, schema, prev, first, lines);
    assert MetaLines(BeforeData(lines)) == MetaLines(BeforeData(lines[1..])) by {
      assert !IsData(lines[0]) && !IsMeta(lines[0]);
      MetaBeforeData(lines);
    }
  }

  lemma {:induction false} PlacementMeta(cfg: Config, schema: Schema, prev: Locus, first: bool, lines: seq<string>)
    requires NoDup(schema.format) && |lines| > 0 && IsMeta(lines[0])
    ensures ColumnsAfterEchoes(cfg, schema, prev, first, lines)
    decreases |lines|, 0
  {
    DriveColumnsPlacement(cfg, schema, prev, first, lines[1..]);
    MetaStep(cfg, schema, prev, first, lines);
    if Drive(cfg, schema, prev, first, lines).Ok? {
      var rest := Drive(cfg, schema, prev, first, lines[1..]).value;
      var m := MetaLines(BeforeData(lines[1..]));
      MetaBeforeData(lines);
      EchoFirst(Strip(lines[0]), rest.sites, m);
      EchoFirst(Strip(lines[0]), rest.genotypes, m);
    }
  }

  /** After a data line no column line follows, so only the heading can
      hold one, and it comes first. */
  lemma PlacementData(cfg: Config, schema: Schema, prev: Locus, first: bool, lines: seq<string>)
    requires NoDup(schema.format) && |lines| > 0 && IsData(lines[0])
    ensures ColumnsAfterEchoes(cfg, schema, prev, first, lines)
  {
    if Drive(cfg, schema, prev, first, lines).Ok? {
      var v := ProcessLine(Strip(lines[0])).value;
      var here := Locus(v.chrom, v.pos);
      DriveColumns(cfg, schema, here, false, lines[1..]);
      DriveData(cfg, schema, prev, first, lines);
      var rest := Drive(cfg, schema, here, false, lines[1..]).value;
      TextsOfNone(rest.sites, Columns);
      TextsOfNone(rest.genotypes, Columns);
      var p := SitesPass(cfg, prev, here).value;
      var h, out := Heading(schema, first), Emit(v, schema, p).value;
      OutNoColumns(v, schema, p);
      assert BeforeData(lines) == [];
      HeadingFirst(h.sites, out.sites, rest.sites);
      HeadingFirst(h.genotypes, out.genotypes, rest.genotypes);
    }
  }

  lemma OutNoColumns(v: VcfLine, schema: Schema, p: bool)
    requires NoDup(schema.format) && Emit(v, schema, p).Ok?
    ensures NoneOf(Emit(v, schema, p).value.sites, Columns) && NoneOf(Emit(v, schema, p).value.genotypes, Columns)
  {
  }

  lemma EchoFirst(ln: string, rest: seq<Emitted>, m: seq<string>)
    requires EchoesBeforeColumns(rest) && EchoesThenColumns(rest, m)
    ensures EchoesBeforeColumns([Emitted(Echo, ln)] + rest)
    ensures EchoesThenColumns([Emitted(Echo, ln)] + rest, [ln] + m)
  {
    var es := [Emitted(Echo, ln)] + rest;
    forall i, j | 0 <= i < j < |es| && es[j].kind == Columns ensures es[i].kind == Echo {
      if i > 0 {
        assert es[i] == rest[i - 1] && es[j] == rest[j - 1];
      }
    }
    forall j | 0 <= j < |es| && es[j].kind == Columns ensures es[..j] == Echoes([ln] + m) {
      assert j > 0 && es[j] == rest[j - 1];
      assert es[..j] == [Emitted(Echo, ln)] + rest[..j - 1];
    }
  }

  lemma HeadingFirst(h: seq<Emitted>, out: seq<Emitted>, rest: seq<Emitted>)
    requires |h| <= 1 && NoneOf(out, Columns) && NoneOf(rest, Columns)
    ensures EchoesBeforeColumns(h + out + rest)
    ensures EchoesThenColumns(h + out + rest, [])
  {
    var es := h + out + rest;
    forall j | |h| <= j < |es| ensures es[j].kind != Columns {
      if j < |h| + |out| {
        assert es[j] == out[j - |h|];
      } else {
        assert es[j] == rest[j - |h| - |out|];
      }
    }
  }
}

=== FILE: fixture.dfy ===
/** The example file and record the repository's own tests are written
    against (the `### testing ###` block of tidy_vcf/tidy_vcf.py and
    tests/tests_main.py): eleven FORMAT and seventeen INFO declarations, a
    `#CHROM` line naming thirteen samples, and one data line. The lemmas
    here state what those tests expect of the header scan and of the two
    projections of the record. */
module Fixture {
  import opened Outcomes
  import opened PyStr
  import opened OrderedDict
  import opened Header
  import opened Record
  import Selector

  // ---------------------------------------------------------------------
  // the header block

  /** A meta line `##<tag>=<ID=<key>,Number=<n>,Type=<t>,Description="">`
      as the example file holds it, newline included. */
  function MetaLine(tag: string, key: string, number: string, typ: string): string {
    "##" + tag + "=<ID=" + key + ",Number=" + number + ",Type=" + typ + ",Description=\"\">\n"
  }

  /** The meta lines declaring `keys` with one tag, in order. */
  function Decls(tag: string, keys: seq<string>, numbers: seq<string>, types: seq<string>): seq<string>
    requires |keys| == |numbers| == |types|
  {
    seq(|keys|, i requires 0 <= i < |keys| => MetaLine(tag, keys[i], numbers[i], types[i]))
  }

  const FormatKeys: seq<string> :=
    ["AD", "DP", "GQ", "GT", "MIN_DP", "PGT", "PID", "PL", "PS", "RGQ", "SB"]
  const FormatNumbers: seq<string> :=
    ["R", "1", "1", "1", "1", "1", "1", "G", "1", "1", "4"]
  const FormatTypes: seq<string> :=
    ["Integer", "Integer", "Integer", "String", "Integer", "String", "String",
     "Integer", "Integer", "Integer", "Integer"]

  const InfoKeys: seq<string> :=
    ["AC", "AF", "AN", "BaseQRankSum", "DP", "END", "ExcessHet", "FS",
     "InbreedingCoeff", "MLEAC", "MLEAF", "MQ", "MQRankSum", "QD",
     "RAW_MQandDP", "ReadPosRankSum", "SOR"]
  const InfoNumbers: seq<string> :=
    ["A", "A", "1", "1", "1", "1", "1", "1", "1", "A", "A", "1", "1", "1", "2", "1", "1"]
  const InfoTypes: seq<string> :=
    ["Integer", "Float", "Integer", "Float", "Integer", "Integer", "Float", "Float",
     "Float", "Integer", "Float", "Float", "Float", "Float", "Integer", "Float", "Float"]

  const ColumnNames: seq<string> :=
    ["#CHROM", "POS", "ID", "REF", "ALT", "QUAL", "FILTER", "INFO", "FORMAT"]
  const SampleNames: seq<string> :=
    ["Oblat_F_10", "Oblat_F_11", "Oblat_F_2", "Oblat_F_5", "Oblat_F_6",
     "Oblat_F_7", "Oblat_F_8", "Oblat_F_9", "Oblat_M_01", "Oblat_M_12",
     "Oblat_M_13", "Oblat_M_3", "Oblat_M_4"]

  /** The header line, its columns separated by single tabs. */
  function ChromLine(): string {
    Join(ColumnNames + SampleNames, "\t") + "\n"
  }

  // ---------------------------------------------------------------------
  // the data line

  /** An INFO piece `<name>=<value>`. */
  function Assign(name: string, value: string): string {
    name + "=" + value
  }

  /** A sample column `<GT>:<DP>:<RGQ>`. */
  function Sample(gt: string, dp: string, rgq: string): string {
    gt + ":" + dp + ":" + rgq
  }

  const InfoNames: seq<string> :=
    ["BaseQRankSum", "DP", "ExcessHet", "MLEAC", "MLEAF", "MQ", "MQRankSum", "ReadPosRankSum"]
  const InfoValues: seq<string> :=
    ["-1.383", "65", "3.01", ".", ".", "23.2", "-0.674", "0.21"]

  /** The record's INFO pieces, one per name. */
  function InfoPieces(): (ps: seq<string>)
    ensures |ps| == |InfoNames|
  {
    seq(|InfoNames|, i requires 0 <= i < |InfoNames| => Assign(InfoNames[i], InfoValues[i]))
  }

  /** The DP and RGQ fields of the thirteen samples; every GT is `0/0`. */
  const Depths: seq<string> := ["2", "5", "1", "2", "6", "6", "5", "12", "5", "3", "8", "9", "3"]
  const Rgqs: seq<string> := ["6", "15", "3", "6", "18", "8", "12", "36", "15", "9", "21", "21", "9"]

  function Samples(): (gts: seq<string>)
    ensures |gts| == |Depths|
  {
    seq(|Depths|, i requires 0 <= i < |Depths| => Sample("0/0", Depths[i], Rgqs[i]))
  }

  /** The record's FORMAT spec, `GT:DP:RGQ`. */
  function Spec(): string {
    Sample("GT", "DP", "RGQ")
  }

  /** The record's INFO field, its pieces joined with `;`. */
  function InfoField(): string {
    Join(InfoPieces(), ";")
  }

  /** The test record, position 89211 on chromosome 1. */
  function Example(): VcfLine {
    VcfLine("1", "89211", ".", "G", ".", "19.64", "QUAL_filter",
            InfoField(), Spec(), Samples())
  }

  /** The example file: the meta lines, the header line and the record
      written with tab separators. */
  function ExampleFile(): seq<string> {
    Decls("FORMAT", FormatKeys, FormatNumbers, FormatTypes)
      + Decls("INFO", InfoKeys, InfoNumbers, InfoTypes)
      + [ChromLine(), Render(Example()) + "\n"]
  }

  /** The schema the tests expect: the declared keys in file order and
      the thirteen sample ids. */
  const ExampleSchema: Schema := Schema(InfoKeys, FormatKeys, [], Some(SampleNames))

  // ---------------------------------------------------------------------
  // general facts the example rests on

  lemma MetaLineKey(tag: string, key: string, number: string, typ: string)
    requires ',' !in tag && ',' !in key && '=' !in key
    ensures KeyOf(MetaLine(tag, key, number, typ)) == key
  {
    var prefix := "##" + tag + "=<ID";
    var rest := "Number=" + number + ",Type=" + typ + ",Description=\"\">\n";
    assert ',' !in prefix by {
      forall i | 0 <= i < |prefix| ensures prefix[i] != ',' {
        if 2 <= i < 2 + |tag| { assert prefix[i] == tag[i - 2]; }
      }
    }
    assert MetaLine(tag, key, number, typ) == prefix + "=" + key + "," + rest;
    KeyOfDeclaration(prefix, key, rest);
  }

  lemma MetaLineTag(tag: string, key: string, number: string, typ: string)
    ensures StartsWith(MetaLine(tag, key, number, typ), "##" + tag)
  {
    var s := MetaLine(tag, key, number, typ);
    assert s == ("##" + tag) + (s[|"##" + tag|..]);
  }

  /** The keys of lines that all carry `tag` are theirs, in order. */
  lemma {:induction false} DeclaredAll(ls: seq<string>, tag: string, keys: seq<string>)
    requires |ls| == |keys|
    requires forall i :: 0 <= i < |ls| ==> StartsWith(ls[i], tag) && KeyOf(ls[i]) == keys[i]
    ensures Declared(ls, tag) == keys
  {
    if |ls| > 0 {
      DeclaredAll(ls[..|ls| - 1], tag, keys[..|keys| - 1]);
      assert keys == keys[..|keys| - 1] + [keys[|keys| - 1]];
    }
  }

  lemma {:induction false} DeclaredNone(ls: seq<string>, tag: string)
    requires forall i :: 0 <= i < |ls| ==> !StartsWith(ls[i], tag)
    ensures Declared(ls, tag) == []
  {
    if |ls| > 0 {
      DeclaredNone(ls[..|ls| - 1], tag);
    }
  }

  lemma {:induction false} DeclaredConcat(a: seq<string>, b: seq<string>, tag: string)
    ensures Declared(a + b, tag) == Declared(a, tag) + Declared(b, tag)
    decreases |b|
  {
    if |b| == 0 {
      assert a + b == a;
    } else {
      var b' := b[..|b| - 1];
      assert (a + b)[..|a + b| - 1] == a + b';
      DeclaredConcat(a, b', tag);
    }
  }

  lemma MetaLineOther(tag: string, key: string, number: string, typ: string, other: string, k: nat)
    requires k < |tag| && k < |other| && tag[k] != other[k]
    ensures !StartsWith(MetaLine(tag, key, number, typ), "##" + other)
  {
    var s := MetaLine(tag, key, number, typ);
    assert s[2 + k] == tag[k];
    assert ("##" + other)[2 + k] == other[k];
  }

  /** The meta lines of one tag declare their keys, in order. */
  lemma DeclsDeclare(tag: string, keys: seq<string>, numbers: seq<string>, types: seq<string>)
    requires |keys| == |numbers| == |types|
    requires ',' !in tag && forall i :: 0 <= i < |keys| ==> ',' !in keys[i] && '=' !in keys[i]
    ensures Declared(Decls(tag, keys, numbers, types), "##" + tag) == keys
  {
    var ls := Decls(tag, keys, numbers, types);
    forall i | 0 <= i < |ls| ensures StartsWith(ls[i], "##" + tag) && KeyOf(ls[i]) == keys[i] {
      MetaLineTag(tag, keys[i], numbers[i], types[i]);
      MetaLineKey(tag, keys[i], numbers[i], types[i]);
    }
    DeclaredAll(ls, "##" + tag, keys);
  }

  /** ... and nothing under a tag that differs from theirs at position `k`. */
  lemma DeclsNone(tag: string, keys: seq<string>, numbers: seq<string>, types: seq<string>,
                  other: string, k: nat)
    requires |keys| == |numbers| == |types|
    requires k < |tag| && k < |other| && tag[k] != other[k]
    ensures Declared(Decls(tag, keys, numbers, types), "##" + other) == []
  {
    var ls := Decls(tag, keys, numbers, types);
    forall i | 0 <= i < |ls| ensures !StartsWith(ls[i], "##" + other) {
      MetaLineOther(tag, keys[i], numbers[i], types[i], other, k);
    }
    DeclaredNone(ls, "##" + other);
  }

  /** Every column of the header line and every field of the record is a
      non-empty token without whitespace. */
  lemma ChromTokens()
    ensures forall i :: 0 <= i < |ColumnNames + SampleNames| ==>
      |(ColumnNames + SampleNames)[i]| > 0 && NoSpace((ColumnNames + SampleNames)[i])
  {
    ColumnNameTokens();
    SampleNameTokens();
    TokensConcat(ColumnNames, SampleNames);
  }

  lemma ColumnNameTokens()
    ensures forall i :: 0 <= i < |ColumnNames| ==> |ColumnNames[i]| > 0 && NoSpace(ColumnNames[i])
  {
  }

  lemma SampleNameTokens()
    ensures forall i :: 0 <= i < |SampleNames| ==> |SampleNames[i]| > 0 && NoSpace(SampleNames[i])
  {
  }

  lemma TokensConcat(a: seq<string>, b: seq<string>)
    requires forall i :: 0 <= i < |a| ==> |a[i]| > 0 && NoSpace(a[i])
    requires forall i :: 0 <= i < |b| ==> |b[i]| > 0 && NoSpace(b[i])
    ensures forall i :: 0 <= i < |a + b| ==> |(a + b)[i]| > 0 && NoSpace((a + b)[i])
  {
    forall i | 0 <= i < |a + b| ensures |(a + b)[i]| > 0 && NoSpace((a + b)[i]) {
      if i < |a| { assert (a + b)[i] == a[i]; } else { assert (a + b)[i] == b[i - |a|]; }
    }
  }

  /** The header line starts with `#CHROM`, so it is no meta line. */
  lemma ChromLineHead()
    ensures StartsWith(ChromLine(), "#CHROM")
    ensures !StartsWith(ChromLine(), "##")
  {
    var toks := ColumnNames + SampleNames;
    assert Join(toks, "\t") == "#CHROM" + "\t" + Join(toks[1..], "\t");
    assert ChromLine()[..6] == "#CHROM";
    assert ChromLine()[..2] != "##" by {
      assert ChromLine()[..2][1] == "#CHROM"[1];
    }
  }

  /** The header line yields the thirteen ids. */
  lemma ChromLineIds()
    ensures SampleIds(ChromLine()) == SampleNames
  {
    var toks := ColumnNames + SampleNames;
    var j := Join(toks, "\t");
    ChromTokens();
    JoinEnds(toks, '\t');
    Selector.StripNewline(j);
    SplitWsJoin(toks, '\t');
    assert toks[9..] == SampleNames;
  }

  lemma NoSpaceConcat(a: string, b: string)
    requires NoSpace(a) && NoSpace(b)
    ensures NoSpace(a + b)
  {
    forall i | 0 <= i < |a + b| ensures !IsSpace((a + b)[i]) {
      if i < |a| { assert (a + b)[i] == a[i]; } else { assert (a + b)[i] == b[i - |a|]; }
    }
  }

  lemma {:induction false} NoSpaceJoin(xs: seq<string>, sep: string)
    requires NoSpace(sep) && forall i :: 0 <= i < |xs| ==> NoSpace(xs[i])
    ensures NoSpace(Join(xs, sep))
    decreases |xs|
  {
    if |xs| > 1 {
      NoSpaceJoin(xs[1..], sep);
      NoSpaceConcat(xs[0], sep);
      NoSpaceConcat(xs[0] + sep, Join(xs[1..], sep));
    }
  }

  /** A piece `<name>=<value>` splits on `=` into its name and value. */
  lemma AssignSplit(name: string, value: string)
    requires '=' !in name && '=' !in value
    ensures Split(Assign(name, value), '=') == [name, value]
  {
    assert Assign(name, value) == name + ['='] + value;
    SplitPrefix(name, value, '=');
    SplitNoSep(value, '=');
  }

  /** A sample `<a>:<b>:<c>` splits on `:` into its three fields. */
  lemma SampleSplit(a: string, b: string, c: string)
    requires ':' !in a && ':' !in b && ':' !in c
    ensures Split(Sample(a, b, c), ':') == [a, b, c]
  {
    assert Sample(a, b, c) == a + [':'] + (b + [':'] + c);
    SplitPrefix(a, b + [':'] + c, ':');
    SplitPrefix(b, c, ':');
    SplitNoSep(c, ':');
  }

  lemma NotInConcat(a: string, b: string, c: char)
    requires c !in a && c !in b
    ensures c !in a + b
  {
    assert forall i :: 0 <= i < |a + b| ==> (a + b)[i] in a || (a + b)[i] in b by {
      forall i | 0 <= i < |a + b| ensures (a + b)[i] in a || (a + b)[i] in b {
        if i < |a| { assert (a + b)[i] == a[i]; } else { assert (a + b)[i] == b[i - |a|]; }
      }
    }
  }

  /** No INFO name or value holds whitespace, `;` or `=`. */
  lemma InfoTokens()
    ensures forall j :: 0 <= j < |InfoNames| ==>
      |InfoNames[j]| > 0 && NoSpace(InfoNames[j]) && ';' !in InfoNames[j] && '=' !in InfoNames[j]
    ensures forall j :: 0 <= j < |InfoValues| ==>
      NoSpace(InfoValues[j]) && ';' !in InfoValues[j] && '=' !in InfoValues[j]
  {
    InfoNameTokens();
    assert forall j :: 0 <= j < |InfoValues| ==>
      NoSpace(InfoValues[j]) && ';' !in InfoValues[j] && '=' !in InfoValues[j];
  }

  lemma InfoNameTokens()
    ensures forall j :: 0 <= j < |InfoNames| ==>
      |InfoNames[j]| > 0 && NoSpace(InfoNames[j]) && ';' !in InfoNames[j] && '=' !in InfoNames[j]
  {
    InfoNamesSpaceFree();
    InfoNamesPlain();
  }

  lemma InfoNamesSpaceFree()
    ensures forall j :: 0 <= j < |InfoNames| ==> |InfoNames[j]| > 0 && NoSpace(InfoNames[j])
  {
  }

  lemma InfoNamesPlain()
    ensures forall j :: 0 <= j < |InfoNames| ==> ';' !in InfoNames[j] && '=' !in InfoNames[j]
  {
  }

  /** No sample field holds whitespace or `:`. */
  lemma SampleTokens()
    ensures forall i :: 0 <= i < |Depths| ==> NoSpace(Depths[i]) && ':' !in Depths[i]
    ensures forall i :: 0 <= i < |Rgqs| ==> NoSpace(Rgqs[i]) && ':' !in Rgqs[i]
  {
  }

  /** Each INFO piece is free of `;` and names its value. */
  lemma PieceParts()
    ensures forall j :: 0 <= j < |InfoPieces()| ==> ';' !in InfoPieces()[j]
    ensures forall j :: 0 <= j < |InfoNames| ==>
      '=' in InfoPieces()[j] && PieceName(InfoPieces()[j]) == InfoNames[j]
      && PieceValue(InfoPieces()[j]) == InfoValues[j]
  {
    var ps := InfoPieces();
    InfoTokens();
    forall j | 0 <= j < |ps|
      ensures ';' !in ps[j] && '=' in ps[j]
      ensures PieceName(ps[j]) == InfoNames[j] && PieceValue(ps[j]) == InfoValues[j]
    {
      NotInConcat(InfoNames[j], "=", ';');
      NotInConcat(InfoNames[j] + "=", InfoValues[j], ';');
      AssignSplit(InfoNames[j], InfoValues[j]);
      assert ps[j][|InfoNames[j]|] == '=';
    }
  }

  /** The pieces of the record's INFO field are the pieces it was joined
      from, and each names its value. */
  lemma ExamplePieces()
    ensures Pieces(InfoField()) == InfoPieces()
    ensures forall j :: 0 <= j < |InfoNames| ==>
      '=' in InfoPieces()[j] && PieceName(InfoPieces()[j]) == InfoNames[j]
      && PieceValue(InfoPieces()[j]) == InfoValues[j]
  {
    PieceParts();
    SplitJoin(InfoPieces(), ';');
  }

  /** Every sample of the record has the three fields GT, DP and RGQ. */
  lemma ExampleSamples()
    ensures Split(Example().format, ':') == ["GT", "DP", "RGQ"]
    ensures forall i :: 0 <= i < |Samples()| ==> Split(Samples()[i], ':') == ["0/0", Depths[i], Rgqs[i]]
  {
    SampleSplit("GT", "DP", "RGQ");
    SampleTokens();
    forall i | 0 <= i < |Samples()| ensures Split(Samples()[i], ':') == ["0/0", Depths[i], Rgqs[i]] {
      SampleSplit("0/0", Depths[i], Rgqs[i]);
    }
  }

  lemma InfoFieldToken()
    ensures |InfoField()| > 0 && NoSpace(InfoField())
  {
    var ps := InfoPieces();
    InfoTokens();
    forall j | 0 <= j < |ps| ensures |ps[j]| > 0 && NoSpace(ps[j]) {
      NoSpaceConcat(InfoNames[j], "=");
      NoSpaceConcat(InfoNames[j] + "=", InfoValues[j]);
    }
    NoSpaceJoin(ps, ";");
    JoinEnds(ps, ';');
  }

  lemma SampleFieldTokens()
    ensures forall i :: 0 <= i < |Samples()| ==> |Samples()[i]| > 0 && NoSpace(Samples()[i])
  {
    var gts := Samples();
    SampleTokens();
    forall i | 0 <= i < |gts| ensures |gts[i]| > 0 && NoSpace(gts[i]) {
      NoSpaceConcat("0/0", ":");
      NoSpaceConcat("0/0:", Depths[i]);
      NoSpaceConcat("0/0:" + Depths[i], ":");
      NoSpaceConcat("0/0:" + Depths[i] + ":", Rgqs[i]);
    }
  }

  lemma FixedTokens()
    ensures forall i :: 0 <= i < |ExpectedFixed| ==> |ExpectedFixed[i]| > 0 && NoSpace(ExpectedFixed[i])
  {
  }

  lemma SpecToken()
    ensures |Spec()| > 0 && NoSpace(Spec())
  {
  }

  /** The record's fields are non-empty tokens without whitespace, so it
      reads back from its tab-separated line. */
  lemma ExampleWellFormed()
    ensures WellFormed(Example())
    ensures ProcessLine(Render(Example())) == Ok(Example())
  {
    var v := Example();
    InfoFieldToken();
    SampleFieldTokens();
    FixedTokens();
    SpecToken();
    assert v.Fixed() == ExpectedFixed;
    var toks := v.Tokens();
    forall i | 0 <= i < |toks| ensures |toks[i]| > 0 && NoSpace(toks[i]) {
      if i < 7 { assert toks[i] == ExpectedFixed[i]; }
      else if i >= 9 { assert toks[i] == v.gtFormats[i - 9]; }
    }
    ProcessLineRender(v);
  }

  lemma MetaPrefix(s: string, t: string)
    ensures StartsWith(s, "##" + t) ==> StartsWith(s, "##")
  {
    if StartsWith(s, "##" + t) {
      assert s[..2] == ("##" + t)[..2];
    }
  }

  lemma MetaLineHash(tag: string, key: string, number: string, typ: string)
    ensures StartsWith(MetaLine(tag, key, number, typ), "#")
  {
    var s := MetaLine(tag, key, number, typ);
    assert s[..1] == [s[0]];
  }

  /** The header block of the example file: the meta lines and the header
      line. */
  function ExampleBlock(): seq<string> {
    Decls("FORMAT", FormatKeys, FormatNumbers, FormatTypes)
      + Decls("INFO", InfoKeys, InfoNumbers, InfoTypes)
      + [ChromLine()]
  }

  lemma ExampleBlockHashes()
    ensures forall j :: 0 <= j < |ExampleBlock()| ==> StartsWith(ExampleBlock()[j], "#")
  {
    var b := ExampleBlock();
    forall j | 0 <= j < |b| ensures StartsWith(b[j], "#") {
      if j < 11 {
        MetaLineHash("FORMAT", FormatKeys[j], FormatNumbers[j], FormatTypes[j]);
      } else if j < 28 {
        MetaLineHash("INFO", InfoKeys[j - 11], InfoNumbers[j - 11], InfoTypes[j - 11]);
      } else {
        ChromLineHead();
        assert ChromLine()[..1] == "#CHROM"[..1];
      }
    }
  }

  lemma ExampleRecordLine()
    ensures !StartsWith(Render(Example()) + "\n", "#")
  {
    var d := Render(Example()) + "\n";
    ExampleWellFormed();
    JoinEnds(Example().Tokens(), '\t');
    assert d[..1] != "#" by {
      assert d[..1][0] == Example().chrom[0];
    }
  }

  /** The scan of the example file stops at the record, its only line
      that does not start with `#`. */
  lemma ExampleHeaderLen()
    ensures HeaderLen(ExampleFile()) == |ExampleBlock()|
    ensures ExampleFile()[..HeaderLen(ExampleFile())] == ExampleBlock()
  {
    ExampleBlockHashes();
    ExampleRecordLine();
    assert ExampleFile() == ExampleBlock() + [Render(Example()) + "\n"];
    HeaderLenOf(ExampleBlock(), [Render(Example()) + "\n"]);
  }

  lemma KeysNoDup()
    ensures NoDup(InfoKeys) && NoDup(FormatKeys)
  {
  }

  /** The keys two runs of meta lines and a header line declare. */
  lemma DeclaredBlock(fd: seq<string>, id: seq<string>, c: string, t: string)
    requires !StartsWith(c, "##" + t)
    ensures Declared(fd + id + [c], "##" + t) == Declared(fd, "##" + t) + Declared(id, "##" + t)
  {
    DeclaredNone([c], "##" + t);
    DeclaredConcat(fd, id, "##" + t);
    DeclaredConcat(fd + id, [c], "##" + t);
  }

  lemma ChromDeclaresNothing(t: string)
    ensures !StartsWith(ChromLine(), "##" + t)
  {
    ChromLineHead();
    MetaPrefix(ChromLine(), t);
  }

  /** No declared key holds `,` or `=`. */
  lemma KeysPlain()
    ensures forall i :: 0 <= i < |InfoKeys| ==> ',' !in InfoKeys[i] && '=' !in InfoKeys[i]
    ensures forall i :: 0 <= i < |FormatKeys| ==> ',' !in FormatKeys[i] && '=' !in FormatKeys[i]
  {
  }

  lemma TagLineInfo()
    ensures "##" + "INFO" == "##INFO"
  {
  }

  lemma TagLineFormat()
    ensures "##" + "FORMAT" == "##FORMAT"
  {
  }

  lemma TagLineFilter()
    ensures "##" + "FILTER" == "##FILTER"
  {
  }

  lemma InfoDeclared()
    ensures Declared(ExampleBlock(), "##INFO") == InfoKeys
  {
    var fd := Decls("FORMAT", FormatKeys, FormatNumbers, FormatTypes);
    var id := Decls("INFO", InfoKeys, InfoNumbers, InfoTypes);
    KeysPlain();
    DeclsNone("FORMAT", FormatKeys, FormatNumbers, FormatTypes, "INFO", 0);
    DeclsDeclare("INFO", InfoKeys, InfoNumbers, InfoTypes);
    ChromDeclaresNothing("INFO");
    DeclaredBlock(fd, id, ChromLine(), "INFO");
    TagLineInfo();
  }

  lemma FormatDeclared()
    ensures Declared(ExampleBlock(), "##FORMAT") == FormatKeys
  {
    var fd := Decls("FORMAT", FormatKeys, FormatNumbers, FormatTypes);
    var id := Decls("INFO", InfoKeys, InfoNumbers, InfoTypes);
    KeysPlain();
    DeclsDeclare("FORMAT", FormatKeys, FormatNumbers, FormatTypes);
    DeclsNone("INFO", InfoKeys, InfoNumbers, InfoTypes, "FORMAT", 0);
    ChromDeclaresNothing("FORMAT");
    DeclaredBlock(fd, id, ChromLine(), "FORMAT");
    TagLineFormat();
  }

  /** The INFO keys of the example header, in file order. */
  lemma ExampleInfoKeys()
    ensures Dedup(Declared(ExampleBlock(), "##INFO")) == InfoKeys
  {
    InfoDeclared();
    KeysNoDup();
    DedupOfNoDup(InfoKeys);
  }

  /** The FORMAT keys of the example header, in file order. */
  lemma ExampleFormatKeys()
    ensures Dedup(Declared(ExampleBlock(), "##FORMAT")) == FormatKeys
  {
    FormatDeclared();
    KeysNoDup();
    DedupOfNoDup(FormatKeys);
  }

  /** The example header declares no FILTER. */
  lemma ExampleFilterKeys()
    ensures Dedup(Declared(ExampleBlock(), "##FILTER")) == []
  {
    var fd := Decls("FORMAT", FormatKeys, FormatNumbers, FormatTypes);
    var id := Decls("INFO", InfoKeys, InfoNumbers, InfoTypes);
    DeclsNone("FORMAT", FormatKeys, FormatNumbers, FormatTypes, "FILTER", 1);
    DeclsNone("INFO", InfoKeys, InfoNumbers, InfoTypes, "FILTER", 0);
    ChromDeclaresNothing("FILTER");
    DeclaredBlock(fd, id, ChromLine(), "FILTER");
    TagLineFilter();
  }

  /** test_header: reading the example file gives the thirteen sample ids
      of its header line and the seventeen INFO keys in the order of their
      declaration (and the eleven FORMAT keys likewise). */
  lemma ExampleHeader()
    ensures HeaderSchema(ExampleFile()) == ExampleSchema
    ensures HeaderSchema(ExampleFile()).samples == Some(SampleNames)
    ensures HeaderSchema(ExampleFile()).info == InfoKeys
  {
    ExampleHeaderLen();
    ExampleInfoKeys();
    ExampleFormatKeys();
    ExampleFilterKeys();
    ChromLineHead();
    ChromLineIds();
    assert LastChrom(ExampleBlock()) == 28;
  }

  // ---------------------------------------------------------------------
  // the record's two projections

  /** The INFO columns test_vcf_line expects, in the order of the INFO
      keys. */
  const ExpectedInfo: seq<string> :=
    ["NA", "NA", "NA", "-1.383", "65", "NA", "3.01", "NA", "NA", ".", ".",
     "23.2", "-0.674", "NA", "NA", "0.21", "NA"]

  /** The FORMAT columns it expects for the first sample, `0/0:2:6`, in
      the order of the FORMAT keys. */
  const ExpectedFormat: seq<string> :=
    ["NA", "2", "NA", "0/0", "NA", "NA", "NA", "NA", "NA", "6", "NA"]

  /** The seven fixed fields the test expects at the head of both rows. */
  const ExpectedFixed: seq<string> :=
    ["1", "89211", ".", "G", ".", "19.64", "QUAL_filter"]

  /** The site row the test expects, written as its tab-separated cells. */
  const ExpectedSiteCells: seq<string> := ExpectedFixed + ExpectedInfo

  /** The first genotype row the test expects, as its tab-separated
      cells. */
  const ExpectedGenotypeCells: seq<string> := ExpectedFixed + ["Oblat_F_10"] + ExpectedFormat

  /** `x` stands first at position `s` of `xs`, or nowhere when `s` is
      negative. */
  predicate SlotOf(xs: seq<string>, x: string, s: int) {
    if s < 0 then x !in xs
    else s < |xs| && xs[s] == x && forall k :: 0 <= k < s ==> xs[k] != x
  }

  /** Where each INFO key is named among the record's pieces. */
  const InfoSlots: seq<int> := [-1, -1, -1, 0, 1, -1, 2, -1, -1, 3, 4, 5, 6, -1, -1, 7, -1]

  lemma InfoSlotsSpec()
    ensures forall i :: 0 <= i < |InfoKeys| ==> SlotOf(InfoNames, InfoKeys[i], InfoSlots[i])
    ensures forall i :: 0 <= i < |InfoKeys| ==>
      ExpectedInfo[i] == if InfoSlots[i] < 0 then Placeholder else InfoValues[InfoSlots[i]]
  {
  }

  lemma InfoFieldNotDot()
    ensures InfoField() != "."
  {
    ExamplePieces();
    SplitNoSep(".", ';');
  }

  lemma PiecesAssigned()
    ensures forall j :: 0 <= j < |Pieces(InfoField())| ==> '=' in Pieces(InfoField())[j]
  {
    ExamplePieces();
  }

  lemma ExampleInfoOk()
    ensures InfoField() != "."
    ensures BuildInfo(InfoField(), InfoKeys).Ok?
  {
    InfoFieldNotDot();
    PiecesAssigned();
  }

  lemma ExampleInfoCells()
    ensures BuildInfo(InfoField(), InfoKeys).Ok?
    ensures forall i :: 0 <= i < |InfoKeys| ==> BuildInfo(InfoField(), InfoKeys).value[i] == ExpectedInfo[i]
  {
    var info := InfoField();
    var ps := Pieces(info);
    ExampleInfoOk();
    ExamplePieces();
    InfoSlotsSpec();
    var vals := BuildInfo(info, InfoKeys).value;
    BuildInfoValues(info, InfoKeys);
    forall i | 0 <= i < |InfoKeys| ensures vals[i] == ExpectedInfo[i] {
      var key, slot := InfoKeys[i], InfoSlots[i];
      if slot >= 0 {
        assert FirstNamed(ps, slot, key);
      } else {
        assert !Named(ps, key);
      }
    }
  }

  /** build_info on the record: every piece has a value, and each INFO
      column holds the value of the piece of its name or `NA`. */
  lemma ExampleInfo()
    ensures BuildInfo(InfoField(), InfoKeys) == Ok(ExpectedInfo)
  {
    ExampleInfoCells();
    var vals := BuildInfo(InfoField(), InfoKeys).value;
    assert |vals| == |ExpectedInfo|;
    assert vals == ExpectedInfo;
  }

  /** Where each FORMAT key stands in the record's FORMAT spec. */
  const FormatSlots: seq<int> := [-1, 1, -1, 0, -1, -1, -1, -1, -1, 2, -1]

  lemma FormatSlotsSpec()
    ensures forall i :: 0 <= i < |FormatKeys| ==> SlotOf(["GT", "DP", "RGQ"], FormatKeys[i], FormatSlots[i])
    ensures forall i :: 0 <= i < |FormatKeys| ==>
      ExpectedFormat[i] == if FormatSlots[i] < 0 then Placeholder else ["0/0", "2", "6"][FormatSlots[i]]
    ensures forall t :: 0 <= t < 3 ==> ["GT", "DP", "RGQ"][t] in FormatKeys
    ensures NoDup(["GT", "DP", "RGQ"])
  {
  }

  /** A sample with three colon fields is projected under a FORMAT spec
      of three distinct keys, such as the record's `GT:DP:RGQ`. */
  lemma ThreeFieldSample(spec: string, keys: seq<string>, gt: string)
    requires NoDup(keys) && |Split(spec, ':')| == 3 && NoDup(Split(spec, ':'))
    requires |Split(gt, ':')| == 3
    ensures SampleFormat(spec, keys, gt).Ok?
  {
    SampleFormatArity(spec, keys, gt);
  }

  lemma SpecKeys()
    ensures Split(Spec(), ':') == ["GT", "DP", "RGQ"]
    ensures NoDup(Split(Spec(), ':'))
  {
    SampleSplit("GT", "DP", "RGQ");
  }

  /** Every sample of the record has a field for each key of its FORMAT
      spec, so every sample is projected. */
  lemma ExampleSamplesOk()
    ensures NoDup(FormatKeys)
    ensures forall i :: 0 <= i < |Samples()| ==> SampleFormat(Example().format, FormatKeys, Samples()[i]).Ok?
  {
    KeysNoDup();
    ExampleSamples();
    SpecKeys();
    forall i | 0 <= i < |Samples()| ensures SampleFormat(Spec(), FormatKeys, Samples()[i]).Ok? {
      ThreeFieldSample(Spec(), FormatKeys, Samples()[i]);
    }
  }

  /** The column a sample's `GT`, `DP` and `RGQ` fields land in. */
  function Pick(key: string, gt: string, dp: string, rgq: string): string {
    if key == "GT" then gt else if key == "DP" then dp else if key == "RGQ" then rgq else Placeholder
  }

  /** Under any duplicate-free FORMAT keys that declare GT, DP and RGQ, a
      sample `<gt>:<dp>:<rgq>` of the record keeps exactly those keys, its
      three fields land in their columns and every other column is `NA`. */
  lemma ProjectThree(spec: string, keys: seq<string>, gt: string, a: string, b: string, c: string)
    requires NoDup(keys) && Split(spec, ':') == ["GT", "DP", "RGQ"] && Split(gt, ':') == [a, b, c]
    requires "GT" in keys && "DP" in keys && "RGQ" in keys
    ensures SampleFormat(spec, keys, gt).Ok?
    ensures SampleFormat(spec, keys, gt).value.keys == keys
    ensures forall i :: 0 <= i < |keys| ==> SampleFormat(spec, keys, gt).value.values[i] == Pick(keys[i], a, b, c)
  {
    ProjectThreeKeys(spec, keys, gt);
    SampleFormatValues(spec, keys, gt);
    var d := SampleFormat(spec, keys, gt).value;
    forall i | 0 <= i < |keys| ensures d.values[i] == Pick(keys[i], a, b, c) {
      ThreeSlot(Split(spec, ':'), [a, b, c], keys[i]);
    }
  }

  lemma ProjectThreeKeys(spec: string, keys: seq<string>, gt: string)
    requires NoDup(keys) && Split(spec, ':') == ["GT", "DP", "RGQ"] && |Split(gt, ':')| == 3
    requires "GT" in keys && "DP" in keys && "RGQ" in keys
    ensures SampleFormat(spec, keys, gt).Ok?
    ensures SampleFormat(spec, keys, gt).value.keys == keys
  {
    ThreeKnown(Split(spec, ':'), keys);
    SampleFormatKeeps(spec, keys, gt);
  }

  lemma ThreeKnown(elements: seq<string>, keys: seq<string>)
    requires elements == ["GT", "DP", "RGQ"]
    requires "GT" in keys && "DP" in keys && "RGQ" in keys
    ensures NoDup(elements) && forall i :: 0 <= i < |elements| ==> elements[i] in keys
  {
  }

  /** Where a key's value comes from among three fields. */
  lemma ThreeSlot(elements: seq<string>, fields: seq<string>, k: string)
    requires elements == ["GT", "DP", "RGQ"] && |fields| == 3
    ensures (if k in elements then fields[IndexOf(elements, k)] else Placeholder) == Pick(k, fields[0], fields[1], fields[2])
  {
    if k == "GT" {
      assert IndexOf(elements, k) == 0;
    } else if k == "DP" {
      assert IndexOf(elements, k) == 1;
    } else if k == "RGQ" {
      assert IndexOf(elements, k) == 2;
    }
  }

  lemma PickFormat()
    ensures forall i :: 0 <= i < |FormatKeys| ==> Pick(FormatKeys[i], "0/0", "2", "6") == ExpectedFormat[i]
  {
  }

  /** The first sample's FORMAT dict: all three record keys are declared,
      so the dict has exactly the header's FORMAT keys; GT, DP and RGQ take
      the sample's fields and the other keys keep `NA`. */
  lemma ExampleFirstSample()
    ensures NoDup(FormatKeys)
    ensures SampleFormat(Example().format, FormatKeys, Samples()[0]).Ok?
    ensures SampleFormat(Example().format, FormatKeys, Samples()[0]).value.keys == FormatKeys
    ensures SampleFormat(Example().format, FormatKeys, Samples()[0]).value.values == ExpectedFormat
  {
    KeysNoDup();
    FirstSampleFields();
    SpecKeys();
    FormatDeclaresThree();
    ProjectThree(Spec(), FormatKeys, Samples()[0], "0/0", "2", "6");
    PickFormat();
    var d := SampleFormat(Spec(), FormatKeys, Samples()[0]).value;
    assert |d.values| == |ExpectedFormat|;
  }

  lemma FirstSampleFields()
    ensures Split(Samples()[0], ':') == ["0/0", "2", "6"]
  {
    ExampleSamples();
  }

  lemma FormatDeclaresThree()
    ensures "GT" in FormatKeys && "DP" in FormatKeys && "RGQ" in FormatKeys
  {
    assert FormatKeys[3] == "GT" && FormatKeys[1] == "DP" && FormatKeys[9] == "RGQ";
  }

  /** A record's site row is its fixed fields followed by its INFO values. */
  lemma SiteRowOf(v: VcfLine, s: Schema, vals: seq<string>)
    requires BuildInfo(v.info, s.info) == Ok(vals) && |vals| > 0
    ensures BuildInfoRow(v, s) == Ok(Join(v.Fixed() + vals, "\t"))
  {
    JoinAppend(v.Fixed(), vals, "\t");
  }

  /** The record's site row under the example schema. */
  lemma ExampleSiteRow()
    ensures BuildInfoRow(Example(), ExampleSchema) == Ok(Join(ExpectedSiteCells, "\t"))
  {
    ExampleInfo();
    SiteRowOf(Example(), ExampleSchema, ExpectedInfo);
    assert Example().Fixed() == ExpectedFixed;
  }

  /** A genotype row is the fixed fields, the sample id and the values. */
  lemma GenotypeRowOf(v: VcfLine, ind: string, d: Dict)
    requires |d.values| > 0
    ensures GenotypeRow(v, ind, d) == Join(v.Fixed() + [ind] + d.values, "\t")
  {
    JoinAppend([ind], d.values, "\t");
    JoinAppend(v.Fixed(), [ind] + d.values, "\t");
    assert v.Fixed() + [ind] + d.values == v.Fixed() + ([ind] + d.values);
  }

  /** The record's genotype row for its first sample. */
  lemma ExampleGenotypeRow()
    ensures NoDup(FormatKeys)
    ensures SampleFormat(Example().format, FormatKeys, Samples()[0]).Ok?
    ensures GenotypeRow(Example(), "Oblat_F_10", SampleFormat(Example().format, FormatKeys, Samples()[0]).value)
      == Join(ExpectedGenotypeCells, "\t")
  {
    ExampleFirstSample();
    var d := SampleFormat(Spec(), FormatKeys, Samples()[0]).value;
    GenotypeRowOf(Example(), "Oblat_F_10", d);
    assert Example().Fixed() == ExpectedFixed;
  }

  /** test_vcf_line: the record read back from its line and projected
      under the schema of the example file gives the expected site row and,
      for the first sample, the expected genotype row; every one of the
      thirteen samples gets a row. */
  lemma ExampleVcfLine()
    ensures ProcessLine(Render(Example())) == Ok(Example())
    ensures var s := HeaderSchema(ExampleFile());
      NoDup(s.format) && ProcessSite(Example(), s).Ok?
    ensures var rows := ProcessSite(Example(), HeaderSchema(ExampleFile())).value;
      && rows.site == Join(ExpectedSiteCells, "\t")
      && |rows.genotypes| == |SampleNames|
      && rows.genotypes[0] == Join(ExpectedGenotypeCells, "\t")
  {
    ExampleWellFormed();
    ExampleHeader();
    KeysNoDup();
    ExampleInfo();
    ExampleSamplesOk();
    ExampleSiteRow();
    ExampleGenotypeRow();
    assert SampleNames[0] == "Oblat_F_10";
  }
}

=== FILE: header.dfy ===
/** The schema of a VCF file: the INFO, FORMAT and FILTER keys its meta
    lines declare and the sample ids of its `#CHROM` line (`Header` in
    tidy_vcf/main.py). Meta lines follow section 1.4 of the Variant Call
    Format specification v4.3 (`##INFO=<ID=...,...>`), the header line
    section 1.5. */
module Header {
  import opened Outcomes
  import opened PyStr
  import opened OrderedDict

  /** Every value of the three header dicts is this placeholder. */
  const Placeholder: string := "NA"

  /** The header dicts as their key sequences (each key maps to
      Placeholder). `samples` is None while no `#CHROM` line has set
      `individual_ids`: reading the attribute then raises AttributeError. */
  datatype Schema = Schema(
    info: seq<string>,
    format: seq<string>,
    filter: seq<string>,
    samples: Option<seq<string>>)

  /** The names of the seven fixed columns a row starts with. */
  const FixedNames: seq<string> := ["CHROM", "POS", "ID", "REF", "ALT", "QUAL", "FILTER"]

  /** `content_header`: the fixed column names, tab-joined (written out,
      so that ContentHeaderNames is the one place that joins them). */
  function ContentHeader(): string
  {
    "CHROM\tPOS\tID\tREF\tALT\tQUAL\tFILTER"
  }

  lemma ContentHeaderNames()
    ensures ContentHeader() == Join(FixedNames, "\t")
  {
  }

  /** The site table's column line: fixed names, then the INFO keys. */
  function SiteColumns(s: Schema): string
  {
    ContentHeader() + "\t" + Join(s.info, "\t")
  }

  /** The genotype table's column line: fixed names, `IND`, then the
      FORMAT keys. */
  function GenotypeColumns(s: Schema): string
  {
    ContentHeader() + "\tIND\t" + Join(s.format, "\t")
  }

  /** `line.split(",")[0].split("=")[-1]`: the text after the last `=` in
      the part of the line before its first `,`. */
  function KeyOf(line: string): (k: string)
    ensures ',' !in k && '=' !in k
  {
    var head := Split(line, ',')[0];
    var parts := Split(head, '=');
    SplitPieces(line, ',');
    SplitPieces(head, '=');
    NotInJoin(parts, "=", ',');
    parts[|parts| - 1]
  }

  /** For a declaration `<prefix>=<key>,<rest>` (as in `##INFO=<ID=DP,...`)
      the extracted key is `<key>`, whatever the rest of the line says. */
  lemma KeyOfDeclaration(prefix: string, key: string, rest: string)
    requires ',' !in prefix && ',' !in key && '=' !in key
    ensures KeyOf(prefix + "=" + key + "," + rest) == key
  {
    var head := prefix + "=" + key;
    assert ',' !in head by {
      assert forall i :: 0 <= i < |head| ==> head[i] != ',' by {
        forall i | 0 <= i < |head| ensures head[i] != ',' {
          if i < |prefix| { assert head[i] == prefix[i]; }
          else if i > |prefix| { assert head[i] == key[i - |prefix| - 1]; }
        }
      }
    }
    assert prefix + "=" + key + "," + rest == head + [','] + rest;
    SplitPrefix(head, rest, ',');
    SplitConcat(prefix, key, '=');
    SplitNoSep(key, '=');
  }

  /** `individual_ids = line.strip().split()[9:]`: the whitespace-separated
      tokens of the `#CHROM` line after the nine fixed column names. */
  function SampleIds(line: string): (ids: seq<string>)
    ensures |ids| == if |SplitWs(Strip(line))| <= 9 then 0 else |SplitWs(Strip(line))| - 9
    ensures forall i :: 0 <= i < |ids| ==> ids[i] == SplitWs(Strip(line))[9 + i]
  {
    Drop(SplitWs(Strip(line)), 9)
  }

  /** The number of leading lines that start with `p`: a scan that breaks
      at the first line that does not reads exactly these. */
  function LeadingRun(lines: seq<string>, p: string): (n: nat)
    ensures n <= |lines|
    ensures forall j :: 0 <= j < n ==> StartsWith(lines[j], p)
    ensures n < |lines| ==> !StartsWith(lines[n], p)
  {
    if |lines| == 0 || !StartsWith(lines[0], p) then 0
    else 1 + LeadingRun(lines[1..], p)
  }

  /** The header build_vcf_dicts reads: the leading lines that start
      with `#`. */
  function HeaderLen(lines: seq<string>): nat {
    LeadingRun(lines, "#")
  }

  /** A block of `#` lines followed by a line that does not start with
      `#` is exactly the header the scan reads. */
  lemma HeaderLenOf(block: seq<string>, rest: seq<string>)
    requires forall j :: 0 <= j < |block| ==> StartsWith(block[j], "#")
    requires |rest| > 0 && !StartsWith(rest[0], "#")
    ensures HeaderLen(block + rest) == |block|
    ensures (block + rest)[..HeaderLen(block + rest)] == block
  {
    var f := block + rest;
    assert f[|block|] == rest[0];
    assert f[..|block|] == block;
  }

  /** The keys the lines starting with `tag` declare, in line order and
      with repetitions. */
  function Declared(lines: seq<string>, tag: string): seq<string>
  {
    if |lines| == 0 then []
    else
      var init, last := lines[..|lines| - 1], lines[|lines| - 1];
      Declared(init, tag) + (if StartsWith(last, tag) then [KeyOf(last)] else [])
  }

  lemma {:induction false} DeclaredMembers(lines: seq<string>, tag: string)
    ensures forall k :: k in Declared(lines, tag) <==>
      (exists j :: 0 <= j < |lines| && StartsWith(lines[j], tag) && KeyOf(lines[j]) == k)
  {
    if |lines| > 0 {
      var init := lines[..|lines| - 1];
      DeclaredMembers(init, tag);
      assert forall j :: 0 <= j < |init| ==> init[j] == lines[j];
    }
  }

  /** The position of the LAST `#CHROM` line, or -1 when there is none. */
  function LastChrom(lines: seq<string>): (r: int)
    ensures -1 <= r < |lines|
    ensures r >= 0 ==> StartsWith(lines[r], "#CHROM")
    ensures forall k :: r < k < |lines| ==> !StartsWith(lines[k], "#CHROM")
  {
    if |lines| == 0 then -1
    else if StartsWith(lines[|lines| - 1], "#CHROM") then |lines| - 1
    else LastChrom(lines[..|lines| - 1])
  }

  /** The sample ids as the scan leaves them: every `#CHROM` line
      overwrites `individual_ids`, so the last one wins; with none the
      attribute is never set. */
  function LastSamples(lines: seq<string>): Option<seq<string>>
  {
    var r := LastChrom(lines);
    if r < 0 then None else Some(SampleIds(lines[r]))
  }

  /** The schema a block of header lines declares: for each kind the keys
      declared with its tag, each once, in first-seen order; and the ids of
      the last `#CHROM` line. */
  function BlockSchema(block: seq<string>): Schema
  {
    Schema(
      Dedup(Declared(block, "##INFO")),
      Dedup(Declared(block, "##FORMAT")),
      Dedup(Declared(block, "##FILTER")),
      LastSamples(block))
  }

  /** The schema of a VCF file: what its header block, the leading `#`
      lines, declares. */
  function HeaderSchema(lines: seq<string>): Schema
  {
    BlockSchema(lines[..HeaderLen(lines)])
  }

  /** The keys of one kind in the header dict. */
  function BlockKeys(lines: seq<string>, tag: string): seq<string>
  {
    Dedup(Declared(lines[..HeaderLen(lines)], tag))
  }

  /** The keys of a kind are duplicate-free, are exactly the keys some
      header-block line with that tag declares, and stand in the order of
      their first declaration. */
  lemma BlockKeysSpec(lines: seq<string>, tag: string)
    ensures NoDup(BlockKeys(lines, tag))
    ensures forall k :: k in BlockKeys(lines, tag) <==>
      (exists j :: 0 <= j < HeaderLen(lines) && StartsWith(lines[j], tag) && KeyOf(lines[j]) == k)
    ensures var ks, ds := BlockKeys(lines, tag), Declared(lines[..HeaderLen(lines)], tag);
      forall i, j :: 0 <= i < j < |ks| ==> IndexOf(ds, ks[i]) < IndexOf(ds, ks[j])
  {
    var block := lines[..HeaderLen(lines)];
    assert forall j :: 0 <= j < |block| ==> block[j] == lines[j];
    DeclaredMembers(block, tag);
    DedupFirstSeenOrder(Declared(block, tag));
  }

  /** The sample ids are those of the last `#CHROM` line of the header
      block; they stay unset when the block has no such line. */
  lemma HeaderSamplesSpec(lines: seq<string>)
    ensures var s := HeaderSchema(lines);
      s.samples.None? <==> forall j :: 0 <= j < HeaderLen(lines) ==> !StartsWith(lines[j], "#CHROM")
    ensures var s, r := HeaderSchema(lines), LastChrom(lines[..HeaderLen(lines)]);
      s.samples.Some? ==> (0 <= r < HeaderLen(lines) && StartsWith(lines[r], "#CHROM")
        && s.samples.value == SampleIds(lines[r])
        && forall k :: r < k < HeaderLen(lines) ==> !StartsWith(lines[k], "#CHROM"))
  {
    var block := lines[..HeaderLen(lines)];
    assert forall j :: 0 <= j < |block| ==> block[j] == lines[j];
  }

  /** One more header line updates the key list of its own kind only. */
  lemma DeclaredStep(lines: seq<string>, i: nat, tag: string)
    requires i < |lines|
    ensures Dedup(Declared(lines[..i + 1], tag)) ==
      if StartsWith(lines[i], tag) then AddKey(Dedup(Declared(lines[..i], tag)), KeyOf(lines[i]))
      else Dedup(Declared(lines[..i], tag))
  {
    assert lines[..i + 1][..i] == lines[..i];
    var xs := Declared(lines[..i], tag);
    if StartsWith(lines[i], tag) {
      assert (xs + [KeyOf(lines[i])])[..|xs|] == xs;
    } else {
      assert xs + [] == xs;
    }
  }

  /** One more header line replaces the sample ids iff it is a `#CHROM` line. */
  lemma LastSamplesStep(lines: seq<string>, i: nat)
    requires i < |lines|
    ensures LastSamples(lines[..i + 1]) ==
      if StartsWith(lines[i], "#CHROM") then Some(SampleIds(lines[i])) else LastSamples(lines[..i])
  {
    assert lines[..i + 1][..i] == lines[..i];
    var r := LastChrom(lines[..i]);
    if r >= 0 {
      assert lines[..i][r] == lines[r];
    }
  }

  /** The body of the loop in build_vcf_dicts for one header line: the
      dict of the kind the line declares gets its key, and a `#CHROM` line
      sets the sample ids. */
  function Visit(s: Schema, line: string): Schema
  {
    Schema(
      if StartsWith(line, "##INFO") then AddKey(s.info, KeyOf(line)) else s.info,
      if StartsWith(line, "##FORMAT") then AddKey(s.format, KeyOf(line)) else s.format,
      if StartsWith(line, "##FILTER") then AddKey(s.filter, KeyOf(line)) else s.filter,
      if StartsWith(line, "#CHROM") then Some(SampleIds(line)) else s.samples)
  }

  lemma VisitStep(lines: seq<string>, i: nat)
    requires i < |lines|
    ensures BlockSchema(lines[..i + 1]) == Visit(BlockSchema(lines[..i]), lines[i])
  {
    DeclaredStep(lines, i, "##INFO");
    DeclaredStep(lines, i, "##FORMAT");
    DeclaredStep(lines, i, "##FILTER");
    LastSamplesStep(lines, i);
  }

  /** build_vcf_dicts: one pass over the lines that stops at the first line
      not starting with `#`. It computes exactly the schema the header block
      declares. */
  method BuildVcfDicts(lines: seq<string>) returns (s: Schema)
    ensures s == HeaderSchema(lines)
  {
    s := Schema([], [], [], None);
    var i := 0;
    while i < |lines|
      invariant i <= |lines|
      invariant i <= HeaderLen(lines)
      invariant s == BlockSchema(lines[..i])
    {
      if !StartsWith(lines[i], "#") {
        break;
      }
      VisitStep(lines, i);
      s := Visit(s, lines[i]);
      i := i + 1;
    }
    assert i == HeaderLen(lines);
  }
}

=== FILE: legacy.dfy ===
/** The first revision of the converter (the top-level tidy_vcf.py). It
    reads the same VCF lines with different rules: the key dicts hold empty
    strings and come from the leading `##` lines only, INFO has no `.`
    special case, genotype rows carry a sample's raw colon fields without
    any projection onto the header's FORMAT keys, data fields are split on
    single tabs, and the sites file is parsed but never consulted. */
module Legacy {
  import opened Outcomes
  import opened PyStr
  import opened OrderedDict
  import opened Header
  import opened Record
  import opened Selector
  import opened Driver

  /** The `info` and `format` dicts of vcf_dict as key sequences; every
      value is the empty string. */
  datatype Keys = Keys(info: seq<string>, format: seq<string>)

  /** The number of leading `##` lines: vcf_dict stops at the first line
      that is not one, so the `#CHROM` line ends the scan. */
  function MetaLen(lines: seq<string>): nat {
    LeadingRun(lines, "##")
  }

  /** The keys vcf_dict collects: of the leading `##` lines, those
      starting with `##INFO` and `##FORMAT` give their keys, each once, in
      first-seen order. */
  function VcfDict(lines: seq<string>): Keys
  {
    var block := lines[..MetaLen(lines)];
    Keys(Dedup(Declared(block, "##INFO")), Dedup(Declared(block, "##FORMAT")))
  }

  /** The keys the first `n` lines declare. */
  function KeysOf(lines: seq<string>, n: nat): Keys
    requires n <= |lines|
  {
    Keys(Dedup(Declared(lines[..n], "##INFO")), Dedup(Declared(lines[..n], "##FORMAT")))
  }

  /** What one `##` line adds: its key to the dict its tag names. */
  function Visit(k: Keys, line: string): Keys {
    Keys(
      if StartsWith(line, "##INFO") then AddKey(k.info, KeyOf(line)) else k.info,
      if StartsWith(line, "##FORMAT") then AddKey(k.format, KeyOf(line)) else k.format)
  }

  lemma KeysOfStep(lines: seq<string>, i: nat)
    requires i < |lines|
    ensures KeysOf(lines, i + 1) == Visit(KeysOf(lines, i), lines[i])
  {
    DeclaredStep(lines, i, "##INFO");
    DeclaredStep(lines, i, "##FORMAT");
  }

  /** The loop of vcf_dict, one line at a time: it computes exactly the
      keys the leading `##` lines declare. */
  method VcfDictScan(lines: seq<string>) returns (k: Keys)
    ensures k == VcfDict(lines)
  {
    k := Keys([], []);
    var i := 0;
    while i < |lines|
      invariant i <= |lines|
      invariant i <= MetaLen(lines)
      invariant k == KeysOf(lines, i)
    {
      if !StartsWith(lines[i], "##") {
        break;
      }
      KeysOfStep(lines, i);
      k := Visit(k, lines[i]);
      i := i + 1;
    }
    assert i == MetaLen(lines);
  }

  /** The keys are duplicate-free and exactly those some leading `##` line
      of the kind declares. */
  lemma VcfDictSpec(lines: seq<string>)
    ensures NoDup(VcfDict(lines).info) && NoDup(VcfDict(lines).format)
    ensures forall key :: key in VcfDict(lines).info <==>
      (exists j :: 0 <= j < MetaLen(lines) && StartsWith(lines[j], "##INFO") && KeyOf(lines[j]) == key)
    ensures forall key :: key in VcfDict(lines).format <==>
      (exists j :: 0 <= j < MetaLen(lines) && StartsWith(lines[j], "##FORMAT") && KeyOf(lines[j]) == key)
  {
    var block := lines[..MetaLen(lines)];
    assert forall j :: 0 <= j < |block| ==> block[j] == lines[j];
    DeclaredMembers(block, "##INFO");
    DeclaredMembers(block, "##FORMAT");
  }

  /** No line from the first `#CHROM` line on is read. */
  lemma MetaLenStopsAtChrom(lines: seq<string>, j: nat)
    requires j < |lines| && StartsWith(lines[j], "#CHROM")
    ensures MetaLen(lines) <= j
  {
    ChromNotMeta(lines[j]);
  }

  lemma ChromNotMeta(line: string)
    requires StartsWith(line, "#CHROM")
    ensures !StartsWith(line, "##")
  {
    assert line[1] == "#CHROM"[1];
  }

  /** A line starting with `##INFO` or `##FORMAT` starts with `##`. */
  lemma TagIsMeta(line: string, tag: string)
    requires StartsWith(tag, "##") && StartsWith(line, tag)
    ensures StartsWith(line, "##")
  {
    assert line[..2] == line[..|tag|][..2];
  }

  /** Lines that do not carry the tag declare nothing of its kind. */
  lemma {:induction false} DeclaredExtend(lines: seq<string>, m: nat, n: nat, tag: string)
    requires m <= n <= |lines|
    requires forall k :: m <= k < n ==> !StartsWith(lines[k], tag)
    ensures Declared(lines[..n], tag) == Declared(lines[..m], tag)
    decreases n
  {
    if n > m {
      DeclaredExtend(lines, m, n - 1, tag);
      assert lines[..n][..n - 1] == lines[..n - 1];
      assert lines[..n][n - 1] == lines[n - 1];
    }
  }

  /** When the `##` lines all precede the other header lines, as section
      1.4 of the Variant Call Format specification v4.3 requires, this
      revision and the later one read the same INFO and FORMAT keys. */
  lemma VcfDictAgrees(lines: seq<string>)
    requires forall k :: MetaLen(lines) <= k < HeaderLen(lines) ==> !StartsWith(lines[k], "##")
    ensures VcfDict(lines).info == HeaderSchema(lines).info
    ensures VcfDict(lines).format == HeaderSchema(lines).format
  {
    var m, n := MetaLen(lines), HeaderLen(lines);
    forall k | m <= k < n ensures !StartsWith(lines[k], "##INFO") && !StartsWith(lines[k], "##FORMAT") {
      if StartsWith(lines[k], "##INFO") { TagIsMeta(lines[k], "##INFO"); }
      if StartsWith(lines[k], "##FORMAT") { TagIsMeta(lines[k], "##FORMAT"); }
    }
    DeclaredExtend(lines, m, n, "##INFO");
    DeclaredExtend(lines, m, n, "##FORMAT");
  }

  // ---------------------------------------------------------------------
  // INFO

  /** The INFO values of build_info in this revision: every `;`-piece is
      split on `=` and its second part taken BEFORE anything else, so any
      piece without `=` fails, INFO `.` included; then each key, in key
      order, takes the value of the first piece of that name (appended to
      its empty placeholder) or `NA`. */
  function LegacyInfo(info: string, keys: seq<string>): (r: Result<seq<string>>)
    ensures r.Err? <==> exists j :: 0 <= j < |Pieces(info)| && '=' !in Pieces(info)[j]
    ensures r.Ok? ==> |r.value| == |keys|
  {
    var ps := Pieces(info);
    if exists j :: 0 <= j < |ps| && '=' !in ps[j] then Err(IndexOutOfRange)
    else
      var stats := seq(|ps|, j requires 0 <= j < |ps| => PieceName(ps[j]));
      var values := seq(|ps|, j requires 0 <= j < |ps| => PieceValue(ps[j]));
      Ok(seq(|keys|, i requires 0 <= i < |keys| =>
        if keys[i] in stats then "" + values[IndexOf(stats, keys[i])] else "" + Placeholder))
  }

  /** INFO `.` has a piece without `=`, so this revision fails on it. */
  lemma LegacyInfoDot(keys: seq<string>)
    ensures LegacyInfo(".", keys) == Err(IndexOutOfRange)
  {
    SplitNoSep(".", ';');
    assert Pieces(".")[0] == ".";
  }

  /** Apart from `.`, both revisions give every key the same INFO value. */
  lemma LegacyInfoAgrees(info: string, keys: seq<string>)
    requires info != "."
    ensures LegacyInfo(info, keys) == BuildInfo(info, keys)
  {
    var ps := Pieces(info);
    if !exists j :: 0 <= j < |ps| && '=' !in ps[j] {
      var a, b := LegacyInfo(info, keys).value, BuildInfo(info, keys).value;
      var stats := seq(|ps|, j requires 0 <= j < |ps| => PieceName(ps[j]));
      var values := seq(|ps|, j requires 0 <= j < |ps| => PieceValue(ps[j]));
      forall i | 0 <= i < |keys| ensures a[i] == b[i] {
        if keys[i] in stats {
          assert a[i] == "" + values[IndexOf(stats, keys[i])];
          assert b[i] == values[IndexOf(stats, keys[i])];
        } else {
          assert a[i] == "" + Placeholder;
          assert b[i] == Placeholder;
        }
      }
      assert a == b;
    }
  }

  /** build_info with `print_header`: the values are extracted first, so
      the header form fails exactly when the value form does; it then
      gives the keys, tab-joined, and the value form the values. */
  function LegacyBuildInfo(info: string, keys: seq<string>, printHeader: bool): (r: Result<string>)
    ensures r.Ok? <==> LegacyInfo(info, keys).Ok?
    ensures r.Ok? && printHeader ==> r.value == Join(keys, "\t")
  {
    var vals :- LegacyInfo(info, keys);
    if printHeader then Ok(Join(keys, "\t")) else Ok(Join(vals, "\t"))
  }

  /** A tab-free list joined with tabs splits back into its cells. */
  lemma JoinCells(xs: seq<string>)
    requires TabFree(xs)
    ensures Split(Join(xs, "\t"), '\t') == Cells(xs)
  {
    if |xs| > 0 {
      SplitJoin(xs, '\t');
    }
  }

  /** The header form and the value form of build_info have the same
      number of tab-separated fields. */
  lemma LegacyHeaderWidth(info: string, keys: seq<string>)
    requires '\t' !in info && TabFree(keys)
    requires LegacyInfo(info, keys).Ok?
    ensures Split(LegacyBuildInfo(info, keys, true).value, '\t') == Cells(keys)
    ensures |Split(LegacyBuildInfo(info, keys, true).value, '\t')| ==
      |Split(LegacyBuildInfo(info, keys, false).value, '\t')|
  {
    if info == "." {
      LegacyInfoDot(keys);
    }
    LegacyInfoAgrees(info, keys);
    BuildInfoTabFree(info, keys);
    JoinCells(keys);
    JoinCells(LegacyInfo(info, keys).value);
  }

  // ---------------------------------------------------------------------
  // rows

  /** get_inds: the fields of a line split on single tabs, from index 9
      on; consecutive tabs give empty fields. */
  function GetInds(line: string): (r: seq<string>)
    ensures forall i :: 0 <= i < |r| ==> '\t' !in r[i]
    ensures |r| == if |Split(line, '\t')| <= 9 then 0 else |Split(line, '\t')| - 9
    ensures forall i :: 0 <= i < |r| ==> r[i] == Split(line, '\t')[9 + i]
  {
    SplitPieces(line, '\t');
    Drop(Split(line, '\t'), 9)
  }

  /** Round trip: the sample ids of a line written with single tabs. */
  lemma GetIndsOfLine(fixed: seq<string>, ids: seq<string>)
    requires |fixed| == 9 && TabFree(fixed) && TabFree(ids)
    ensures GetInds(Join(fixed + ids, "\t")) == ids
  {
    assert TabFree(fixed + ids) by {
      forall i | 0 <= i < |fixed + ids| ensures '\t' !in (fixed + ids)[i] {
        if i >= 9 { assert (fixed + ids)[i] == ids[i - 9]; }
      }
    }
    SplitJoin(fixed + ids, '\t');
    assert (fixed + ids)[9..] == ids;
  }

  /** df_content: seven fields, tab-joined. */
  function DfContent(chrom: string, pos: string, id: string, ref: string, alt: string,
                     qual: string, filter: string): string
  {
    Join([chrom, pos, id, ref, alt, qual, filter], "\t")
  }

  /** Seven tab-free fields split back out of df_content, and they are the
      later revision's `content_string` of a record with those fields. */
  lemma DfContentFields(v: VcfLine)
    requires TabFree(v.Fixed())
    ensures Split(DfContent(v.chrom, v.pos, v.id, v.ref, v.alt, v.qual, v.filter), '\t') == v.Fixed()
    ensures DfContent(v.chrom, v.pos, v.id, v.ref, v.alt, v.qual, v.filter) == v.Content()
  {
    SplitJoin(v.Fixed(), '\t');
  }

  /** parse_GTs: each sample column split on `:`; the pieces of a column
      joined with `:` give the column back. */
  function ParseGTs(line: string): (r: seq<seq<string>>)
    ensures |r| == |GetInds(line)|
    ensures forall i :: 0 <= i < |r| ==> Join(r[i], ":") == GetInds(line)[i]
    ensures forall i, j :: 0 <= i < |r| && 0 <= j < |r[i]| ==> ':' !in r[i][j] && '\t' !in r[i][j]
  {
    var gts := GetInds(line);
    forall i | 0 <= i < |gts| ensures forall j :: 0 <= j < |Split(gts[i], ':')| ==> '\t' !in Split(gts[i], ':')[j] {
      SplitAvoids(gts[i], ':', '\t');
    }
    forall i | 0 <= i < |gts| ensures Join(Split(gts[i], ':'), ":") == gts[i] && forall j :: 0 <= j < |Split(gts[i], ':')| ==> ':' !in Split(gts[i], ':')[j] {
      SplitPieces(gts[i], ':');
    }
    seq(|gts|, i requires 0 <= i < |gts| => Split(gts[i], ':'))
  }

  /** One genotype row: the sample id, the site row, then the sample's
      colon fields as they stand, tab-joined. */
  function LegacyGenotypeRow(ind: string, siteRow: string, gt: string): string {
    ind + "\t" + siteRow + "\t" + Join(Split(gt, ':'), "\t")
  }

  /** process_site of this revision: the stripped line split on single
      tabs must give nine fields for the unpacking; the site row is the
      seven fixed fields then the INFO values; the genotype rows pair the
      sample ids with the sample columns as `zip` does. */
  function LegacyProcessSite(line: string, inds: seq<string>, keys: Keys): (r: Result<SiteRows>)
    ensures var fields := Split(Strip(line), '\t');
      r.Ok? <==> |fields| >= 9 && LegacyInfo(fields[7], keys.info).Ok?
    ensures var fields := Split(Strip(line), '\t');
      r.Ok? ==> |r.value.genotypes| == Min(|inds|, |fields| - 9)
  {
    var fields := Split(Strip(line), '\t');
    if |fields| < 9 then Err(NotEnoughFields)
    else
      var siteRow := DfContent(fields[0], fields[1], fields[2], fields[3], fields[4], fields[5], fields[6]);
      var info :- LegacyBuildInfo(fields[7], keys.info, false);
      Ok(SiteRows(siteRow + "\t" + info, LegacyGenotypeRows(inds, siteRow, fields[9..])))
  }

  /** `zip(individual_ids, genotypes)`: one row per pair, as many as the
      shorter list has. */
  function LegacyGenotypeRows(inds: seq<string>, siteRow: string, gts: seq<string>): (rows: seq<string>)
    ensures |rows| == Min(|inds|, |gts|)
    ensures forall i :: 0 <= i < |rows| ==> rows[i] == LegacyGenotypeRow(inds[i], siteRow, gts[i])
  {
    seq(Min(|inds|, |gts|), i requires 0 <= i < Min(|inds|, |gts|) => LegacyGenotypeRow(inds[i], siteRow, gts[i]))
  }

  /** The cells of a site row: the seven fixed fields, then one INFO value
      per key. */
  lemma LegacySiteCells(line: string, inds: seq<string>, keys: Keys)
    requires LegacyProcessSite(line, inds, keys).Ok?
    ensures var fields := Split(Strip(line), '\t');
      Split(LegacyProcessSite(line, inds, keys).value.site, '\t') ==
        fields[..7] + Cells(LegacyInfo(fields[7], keys.info).value)
  {
    var fields := Split(Strip(line), '\t');
    var vals := LegacyInfo(fields[7], keys.info).value;
    var head := fields[..7];
    SplitPieces(Strip(line), '\t');
    assert head == [fields[0], fields[1], fields[2], fields[3], fields[4], fields[5], fields[6]];
    assert TabFree(head);
    if fields[7] == "." {
      LegacyInfoDot(keys.info);
    }
    LegacyInfoAgrees(fields[7], keys.info);
    BuildInfoTabFree(fields[7], keys.info);
    SplitRow(head, vals);
  }

  /** The cells of a genotype row: the sample id, the seven fixed fields,
      then the sample's colon fields in the record's own order, with no
      projection onto the header's FORMAT keys. */
  lemma LegacyGenotypeCells(line: string, inds: seq<string>, keys: Keys, i: nat)
    requires LegacyProcessSite(line, inds, keys).Ok?
    requires i < |LegacyProcessSite(line, inds, keys).value.genotypes|
    requires '\t' !in inds[i]
    ensures var fields := Split(Strip(line), '\t');
      Split(LegacyProcessSite(line, inds, keys).value.genotypes[i], '\t') ==
        [inds[i]] + fields[..7] + Cells(Split(fields[9 + i], ':'))
  {
    var fields := Split(Strip(line), '\t');
    var head := fields[..7];
    SplitPieces(Strip(line), '\t');
    assert head == [fields[0], fields[1], fields[2], fields[3], fields[4], fields[5], fields[6]];
    assert fields[9..][i] == fields[9 + i];
    var siteRow := DfContent(fields[0], fields[1], fields[2], fields[3], fields[4], fields[5], fields[6]);
    assert LegacyProcessSite(line, inds, keys).value.genotypes[i] == LegacyGenotypeRow(inds[i], siteRow, fields[9 + i]);
    LegacyRowCells(inds[i], head, fields[9 + i]);
  }

  /** A genotype row of tab-free parts splits into the id, the seven
      fixed fields and the sample's colon fields. */
  lemma LegacyRowCells(ind: string, head: seq<string>, gt: string)
    requires |head| == 7 && TabFree(head) && '\t' !in ind && '\t' !in gt
    ensures Split(LegacyGenotypeRow(ind, Join(head, "\t"), gt), '\t') == [ind] + head + Cells(Split(gt, ':'))
  {
    var all := [ind] + head;
    assert TabFree(all) by {
      forall k | 0 <= k < |all| ensures '\t' !in all[k] {
        if k > 0 { assert all[k] == head[k - 1]; }
      }
    }
    SplitAvoids(gt, ':', '\t');
    JoinAppend([ind], head, "\t");
    SplitRow(all, Split(gt, ':'));
  }

  // ---------------------------------------------------------------------
  // the sites file

  /** The loop of parse_sites from some line on, over the lines' tokens
      (`line.strip().split()`), `d` holding the entries so far: every line
      must hold exactly two tokens (the unpacking fails otherwise), and a
      chromosome already present keeps its position. */
  function SitesFrom(d: map<string, string>, toks: seq<seq<string>>): (r: Result<map<string, string>>)
    ensures r.Ok? <==> forall i :: 0 <= i < |toks| ==> |toks[i]| == 2
    ensures r.Ok? ==> forall c :: c in d ==> c in r.value && r.value[c] == d[c]
    decreases |toks|
  {
    if |toks| == 0 then Ok(d)
    else if |toks[0]| != 2 then Err(BadSitesLine)
    else
      var c := toks[0][0];
      var r := SitesFrom(if c in d then d else d[c := toks[0][1]], toks[1..]);
      assert forall i :: 1 <= i < |toks| ==> toks[i] == toks[1..][i - 1];
      r
  }

  /** The tokens of each line of a sites file. */
  function SiteTokens(lines: seq<string>): (toks: seq<seq<string>>)
    ensures |toks| == |lines|
    ensures forall i :: 0 <= i < |lines| ==> toks[i] == SplitWs(Strip(lines[i]))
  {
    seq(|lines|, i requires 0 <= i < |lines| => SplitWs(Strip(lines[i])))
  }

  /** parse_sites of this revision: a dict from chromosome to position,
      built from lines of exactly two tokens. */
  function LegacyParseSites(lines: seq<string>): (r: Result<map<string, string>>)
    ensures r.Ok? <==> forall i :: 0 <= i < |lines| ==> IsSiteLine(lines[i])
  {
    SitesFrom(map[], SiteTokens(lines))
  }

  predicate HasChrom(toks: seq<seq<string>>, c: string) {
    exists i :: 0 <= i < |toks| && |toks[i]| == 2 && toks[i][0] == c
  }

  /** The dict holds exactly the chromosomes the lines name. */
  lemma {:induction false} SitesFromDomain(d: map<string, string>, toks: seq<seq<string>>)
    requires SitesFrom(d, toks).Ok?
    ensures forall c :: c in SitesFrom(d, toks).value <==> c in d || HasChrom(toks, c)
    decreases |toks|
  {
    if |toks| > 0 {
      var c0 := toks[0][0];
      var d' := if c0 in d then d else d[c0 := toks[0][1]];
      var rest := toks[1..];
      SitesFromDomain(d', rest);
      forall c ensures HasChrom(toks, c) <==> c == c0 || HasChrom(rest, c) {
        if HasChrom(rest, c) {
          var i :| 0 <= i < |rest| && |rest[i]| == 2 && rest[i][0] == c;
          assert toks[i + 1] == rest[i];
        }
        if HasChrom(toks, c) && c != c0 {
          var i :| 0 <= i < |toks| && |toks[i]| == 2 && toks[i][0] == c;
          assert rest[i - 1] == toks[i];
        }
      }
    }
  }

  /** Each chromosome keeps the position on its FIRST line. */
  lemma {:induction false} SitesFromFirst(d: map<string, string>, toks: seq<seq<string>>, j: nat)
    requires j < |toks| && SitesFrom(d, toks).Ok?
    requires toks[j][0] !in d
    requires forall i :: 0 <= i < j ==> toks[i][0] != toks[j][0]
    ensures toks[j][0] in SitesFrom(d, toks).value
    ensures SitesFrom(d, toks).value[toks[j][0]] == toks[j][1]
    decreases j
  {
    var c0 := toks[0][0];
    var d' := if c0 in d then d else d[c0 := toks[0][1]];
    var rest := toks[1..];
    if j > 0 {
      assert rest[j - 1] == toks[j];
      forall i | 0 <= i < j - 1 ensures rest[i][0] != rest[j - 1][0] {
        assert rest[i] == toks[i + 1];
      }
      SitesFromFirst(d', rest, j - 1);
    }
  }

  /** parse_sites maps each chromosome the file names to the position on
      its first line, and holds no other chromosome. */
  lemma LegacyParseSitesSpec(lines: seq<string>)
    requires LegacyParseSites(lines).Ok?
    ensures var toks := SiteTokens(lines);
      forall c :: c in LegacyParseSites(lines).value <==> HasChrom(toks, c)
    ensures var toks := SiteTokens(lines);
      forall j :: 0 <= j < |toks| && (forall i :: 0 <= i < j ==> toks[i][0] != toks[j][0]) ==>
        toks[j][0] in LegacyParseSites(lines).value && LegacyParseSites(lines).value[toks[j][0]] == toks[j][1]
  {
    var toks := SiteTokens(lines);
    SitesFromDomain(map[], toks);
    forall j | 0 <= j < |toks| && (forall i :: 0 <= i < j ==> toks[i][0] != toks[j][0])
      ensures toks[j][0] in LegacyParseSites(lines).value && LegacyParseSites(lines).value[toks[j][0]] == toks[j][1]
    {
      SitesFromFirst(map[], toks, j);
    }
  }

  // ---------------------------------------------------------------------
  // the conversion loop

  /** A line that takes the first-data-line branch of parse_file when no
      data line came before it. */
  predicate IsLegacyData(line: string) {
    |line| > 0 && line[0] != '#'
  }

  /** The first such line, if any. */
  function FirstData(lines: seq<string>): Option<string>
  {
    if |lines| == 0 then None
    else if IsLegacyData(lines[0]) then Some(lines[0])
    else FirstData(lines[1..])
  }

  /** The FORMAT field of a data line (only read for lines with nine
      fields). */
  function FormatOf(line: string): string {
    var fields := Split(Strip(line), '\t');
    if |fields| >= 9 then fields[8] else ""
  }

  /** The site table's column line: fixed names, then the INFO keys. */
  function LegacySiteColumns(keys: Keys): string {
    ContentHeader() + "\t" + Join(keys.info, "\t")
  }

  /** The genotype table's column line: `IND`, the fixed names, then the
      FORMAT keys of the first data line (not of the header). */
  function LegacyGenotypeColumns(format: string): string {
    "IND\t" + ContentHeader() + "\t" + Join(Split(format, ':'), "\t")
  }

  /** The column lines the first data line prints: the line must unpack
      into nine fields and its INFO must pass build_info, although the
      site column line only names the keys. */
  function LegacyHeading(keys: Keys, line: string): (r: Result<Output>)
    ensures var fields := Split(Strip(line), '\t');
      r.Ok? <==> |fields| >= 9 && LegacyInfo(fields[7], keys.info).Ok?
    ensures r.Ok? ==> r.value == Output([Emitted(Columns, LegacySiteColumns(keys))],
                                        [Emitted(Columns, LegacyGenotypeColumns(FormatOf(line)))])
  {
    var fields := Split(Strip(line), '\t');
    if |fields| < 9 then Err(NotEnoughFields)
    else
      var infoHeaders :- LegacyBuildInfo(fields[7], keys.info, true);
      Ok(Output([Emitted(Columns, ContentHeader() + "\t" + infoHeaders)],
                [Emitted(Columns, "IND\t" + ContentHeader() + "\t" + Join(Split(fields[8], ':'), "\t"))]))
  }

  /** What a site line prints before its rows: the column lines if it is
      the first line not starting with `#`, nothing otherwise. */
  function LegacyHead(keys: Keys, first: bool, line: string): Result<Output>
    requires |line| > 0
  {
    if first && line[0] != '#' then LegacyHeading(keys, line) else Ok(Output([], []))
  }

  /** The loop of parse_file from some line on. `##` lines are echoed; a
      `#CHROM` line sets the sample ids; every other line is a site: the
      first one not starting with `#` prints the column lines first, and
      every one is processed (reading unset sample ids fails). An empty
      line fails at `line[0]`. */
  function LegacyDrive(keys: Keys, first: bool, inds: Option<seq<string>>, lines: seq<string>): (r: Result<Output>)
    decreases |lines|
  {
    if |lines| == 0 then Ok(Output([], []))
    else
      var line := lines[0];
      if StartsWith(line, "##") then
        var rest :- LegacyDrive(keys, first, inds, lines[1..]);
        Ok(Output([Emitted(Echo, Strip(line))] + rest.sites, [Emitted(Echo, Strip(line))] + rest.genotypes))
      else if StartsWith(line, "#CHROM") then
        LegacyDrive(keys, first, Some(GetInds(Strip(line))), lines[1..])
      else if |line| == 0 then Err(IndexOutOfRange)
      else
        var head :- LegacyHead(keys, first, line);
        if inds.None? then Err(UnboundSampleIds)
        else
          var rows :- LegacyProcessSite(line, inds.value, keys);
          var rest :- LegacyDrive(keys, first && line[0] == '#', inds, lines[1..]);
          Ok(Output(head.sites + Rows([rows.site]) + rest.sites,
                    head.genotypes + Rows(rows.genotypes) + rest.genotypes))
  }

  /** parse_file of this revision: the keys are read, the sites file is
      parsed (and may fail), then the lines are converted. */
  function LegacyParseFile(lines: seq<string>, sitesLines: seq<string>): Result<Output>
  {
    var sites :- LegacyParseSites(sitesLines);
    LegacyDrive(VcfDict(lines), true, None, lines)
  }

  /** The sites file is never consulted: any two sites files that parse
      give the same conversion. */
  lemma LegacySitesIgnored(lines: seq<string>, a: seq<string>, b: seq<string>)
    requires LegacyParseSites(a).Ok? && LegacyParseSites(b).Ok?
    ensures LegacyParseFile(lines, a) == LegacyParseFile(lines, b)
  {
  }

  /** The stripped `##` lines, in order. */
  function LegacyMeta(lines: seq<string>): seq<string>
  {
    if |lines| == 0 then []
    else (if StartsWith(lines[0], "##") then [Strip(lines[0])] else []) + LegacyMeta(lines[1..])
  }

  /** A line parse_file hands to process_site. */
  predicate IsSite(line: string) {
    !StartsWith(line, "##") && !StartsWith(line, "#CHROM")
  }

  /** The number of such lines. */
  function SiteCount(lines: seq<string>): nat
  {
    if |lines| == 0 then 0
    else (if IsSite(lines[0]) then 1 else 0) + SiteCount(lines[1..])
  }

  /** The loop on a site line. */
  lemma LegacySiteStep(keys: Keys, first: bool, inds: Option<seq<string>>, lines: seq<string>)
    requires |lines| > 0 && |lines[0]| > 0 && IsSite(lines[0])
    requires LegacyDrive(keys, first, inds, lines).Ok?
    ensures inds.Some? && LegacyHead(keys, first, lines[0]).Ok?
    ensures LegacyProcessSite(lines[0], inds.value, keys).Ok?
    ensures LegacyDrive(keys, first && lines[0][0] == '#', inds, lines[1..]).Ok?
    ensures var head, rows, rest := LegacyHead(keys, first, lines[0]).value,
      LegacyProcessSite(lines[0], inds.value, keys).value,
      LegacyDrive(keys, first && lines[0][0] == '#', inds, lines[1..]).value;
      LegacyDrive(keys, first, inds, lines).value ==
        Output(head.sites + Rows([rows.site]) + rest.sites, head.genotypes + Rows(rows.genotypes) + rest.genotypes)
  {
  }

  /** What the loop prints from some line on, when it succeeds: both
      tables carry the `##` lines, stripped and in file order, and no other
      echoed line; every line other than a `##` or `#CHROM` line gives
      exactly one site row (nothing is filtered out); each table gets its
      column line once, and only if there is a line not starting with `#`,
      the genotype column line naming that line's own FORMAT keys. Where
      the column lines sit is `LegacyPlaced`. */
  predicate LegacyShape(keys: Keys, first: bool, inds: Option<seq<string>>, lines: seq<string>)
  {
    var r := LegacyDrive(keys, first, inds, lines);
    r.Ok? ==>
      && TextsOf(r.value.sites, Echo) == LegacyMeta(lines)
      && TextsOf(r.value.genotypes, Echo) == LegacyMeta(lines)
      && |TextsOf(r.value.sites, Row)| == SiteCount(lines)
      && TextsOf(r.value.sites, Columns) ==
        (if first && FirstData(lines).Some? then [LegacySiteColumns(keys)] else [])
      && TextsOf(r.value.genotypes, Columns) ==
        (if first && FirstData(lines).Some? then [LegacyGenotypeColumns(FormatOf(FirstData(lines).value))] else [])
  }

  lemma {:induction false} LegacyDriveShape(keys: Keys, first: bool, inds: Option<seq<string>>, lines: seq<string>)
    ensures LegacyShape(keys, first, inds, lines)
    decreases |lines|
  {
    if |lines| > 0 && LegacyDrive(keys, first, inds, lines).Ok? {
      var line := lines[0];
      if StartsWith(line, "##") {
        LegacyDriveShape(keys, first, inds, lines[1..]);
        EchoCase(keys, first, inds, lines);
      } else if StartsWith(line, "#CHROM") {
        LegacyDriveShape(keys, first, Some(GetInds(Strip(line))), lines[1..]);
        ChromCase(keys, first, inds, lines);
      } else {
        LegacySiteStep(keys, first, inds, lines);
        LegacyDriveShape(keys, first && line[0] == '#', inds, lines[1..]);
        SiteCase(keys, first, inds, lines);
      }
    }
  }

  lemma EchoCase(keys: Keys, first: bool, inds: Option<seq<string>>, lines: seq<string>)
    requires |lines| > 0 && StartsWith(lines[0], "##")
    requires LegacyShape(keys, first, inds, lines[1..])
    ensures LegacyShape(keys, first, inds, lines)
  {
    var line := lines[0];
    if LegacyDrive(keys, first, inds, lines).Ok? {
      var rest := LegacyDrive(keys, first, inds, lines[1..]).value;
      var e := [Emitted(Echo, Strip(line))];
      assert LegacyDrive(keys, first, inds, lines).value == Output(e + rest.sites, e + rest.genotypes);
      assert LegacyMeta(lines) == [Strip(line)] + LegacyMeta(lines[1..]);
      assert SiteCount(lines) == SiteCount(lines[1..]);
      assert FirstData(lines) == FirstData(lines[1..]) by {
        HashNotData(line, "##");
      }
      EchoKind(Strip(line), rest.sites, Echo);
      EchoKind(Strip(line), rest.genotypes, Echo);
      EchoKind(Strip(line), rest.sites, Row);
      EchoKind(Strip(line), rest.sites, Columns);
      EchoKind(Strip(line), rest.genotypes, Columns);
    }
  }

  lemma ChromCase(keys: Keys, first: bool, inds: Option<seq<string>>, lines: seq<string>)
    requires |lines| > 0 && !StartsWith(lines[0], "##") && StartsWith(lines[0], "#CHROM")
    requires LegacyShape(keys, first, Some(GetInds(Strip(lines[0]))), lines[1..])
    ensures LegacyShape(keys, first, inds, lines)
  {
    ChromStep(keys, first, inds, lines);
  }

  /** A header line only rebinds the sample ids: it prints nothing and
      counts as neither meta, site nor data line. */
  lemma ChromStep(keys: Keys, first: bool, inds: Option<seq<string>>, lines: seq<string>)
    requires |lines| > 0 && !StartsWith(lines[0], "##") && StartsWith(lines[0], "#CHROM")
    ensures LegacyDrive(keys, first, inds, lines) == LegacyDrive(keys, first, Some(GetInds(Strip(lines[0]))), lines[1..])
    ensures LegacyMeta(lines) == LegacyMeta(lines[1..])
    ensures SiteCount(lines) == SiteCount(lines[1..])
    ensures FirstData(lines) == FirstData(lines[1..])
  {
    HashNotData(lines[0], "#CHROM");
  }

  lemma SiteCase(keys: Keys, first: bool, inds: Option<seq<string>>, lines: seq<string>)
    requires |lines| > 0 && |lines[0]| > 0 && IsSite(lines[0])
    requires LegacyShape(keys, first && lines[0][0] == '#', inds, lines[1..])
    ensures LegacyShape(keys, first, inds, lines)
  {
    var line, first' := lines[0], first && lines[0][0] == '#';
    if LegacyDrive(keys, first, inds, lines).Ok? {
      LegacySiteStep(keys, first, inds, lines);
      var r := LegacyDrive(keys, first, inds, lines).value;
      var rest := LegacyDrive(keys, first', inds, lines[1..]).value;
      var head := HeadOf(keys, first, line);
      assert LegacyMeta(lines) == LegacyMeta(lines[1..]);
      assert SiteCount(lines) == 1 + SiteCount(lines[1..]);
      assert TextsOf(r.sites, Echo) == LegacyMeta(lines) && TextsOf(r.genotypes, Echo) == LegacyMeta(lines) by {
        SiteStepKind(keys, first, inds, lines, Echo);
        HeadValue(keys, first, line);
        HeadNoEchoRow(keys, first, line);
      }
      assert |TextsOf(r.sites, Row)| == SiteCount(lines) by {
        SiteStepKind(keys, first, inds, lines, Row);
        HeadValue(keys, first, line);
        HeadNoEchoRow(keys, first, line);
      }
      assert TextsOf(r.sites, Columns) ==
        (if first && FirstData(lines).Some? then [LegacySiteColumns(keys)] else []) by {
        SiteStepKind(keys, first, inds, lines, Columns);
        HeadValue(keys, first, line);
        HeadSiteColumns(keys, first, lines);
      }
      assert TextsOf(r.genotypes, Columns) ==
        (if first && FirstData(lines).Some? then [LegacyGenotypeColumns(FormatOf(FirstData(lines).value))] else []) by {
        SiteStepKind(keys, first, inds, lines, Columns);
        HeadValue(keys, first, line);
        var tail := if first' && FirstData(lines[1..]).Some? then [LegacyGenotypeColumns(FormatOf(FirstData(lines[1..]).value))] else [];
        assert TextsOf(rest.genotypes, Columns) == tail;
        assert TextsOf(r.genotypes, Columns) == TextsOf(head.genotypes, Columns) + tail;
        HeadGenotypeColumns(keys, first, lines);
      }
    }
  }

  /** The entries of one kind a site line and the rest of the run print. */
  lemma SiteStepKind(keys: Keys, first: bool, inds: Option<seq<string>>, lines: seq<string>, k: Kind)
    requires |lines| > 0 && |lines[0]| > 0 && IsSite(lines[0])
    requires LegacyDrive(keys, first, inds, lines).Ok?
    ensures inds.Some? && LegacyHead(keys, first, lines[0]).Ok?
    ensures LegacyProcessSite(lines[0], inds.value, keys).Ok?
    ensures LegacyDrive(keys, first && lines[0][0] == '#', inds, lines[1..]).Ok?
    ensures var r, head, rows, rest := LegacyDrive(keys, first, inds, lines).value,
      LegacyHead(keys, first, lines[0]).value,
      LegacyProcessSite(lines[0], inds.value, keys).value,
      LegacyDrive(keys, first && lines[0][0] == '#', inds, lines[1..]).value;
      && TextsOf(r.sites, k) == TextsOf(head.sites, k) + (if k == Row then [rows.site] else []) + TextsOf(rest.sites, k)
      && TextsOf(r.genotypes, k) == TextsOf(head.genotypes, k) + (if k == Row then rows.genotypes else []) + TextsOf(rest.genotypes, k)
  {
    LegacySiteStep(keys, first, inds, lines);
    var head, rows, rest := LegacyHead(keys, first, lines[0]).value,
      LegacyProcessSite(lines[0], inds.value, keys).value,
      LegacyDrive(keys, first && lines[0][0] == '#', inds, lines[1..]).value;
    SiteKind(head.sites, [rows.site], rest.sites, k);
    SiteKind(head.genotypes, rows.genotypes, rest.genotypes, k);
  }

  /** What a site line prints before its rows, once LegacyHead succeeded:
      the two column lines if the line is the first of the run not
      starting with `#`, nothing otherwise. */
  function HeadOf(keys: Keys, first: bool, line: string): Output
    requires |line| > 0
  {
    if first && line[0] != '#' then
      Output([Emitted(Columns, LegacySiteColumns(keys))], [Emitted(Columns, LegacyGenotypeColumns(FormatOf(line)))])
    else Output([], [])
  }

  lemma HeadValue(keys: Keys, first: bool, line: string)
    requires |line| > 0 && LegacyHead(keys, first, line).Ok?
    ensures LegacyHead(keys, first, line).value == HeadOf(keys, first, line)
  {
  }

  /** The heading holds no echoed line and no row. */
  lemma HeadNoEchoRow(keys: Keys, first: bool, line: string)
    requires |line| > 0
    ensures var head := HeadOf(keys, first, line);
      && TextsOf(head.sites, Echo) == [] && TextsOf(head.genotypes, Echo) == []
      && TextsOf(head.sites, Row) == [] && TextsOf(head.genotypes, Row) == []
  {
  }

  /** One step of the site column count: a site line's heading plus what
      the rest of the run prints is one site column line when the run
      starts before its first line not starting with `#`, and none
      otherwise. */
  lemma HeadSiteColumns(keys: Keys, first: bool, lines: seq<string>)
    requires |lines| > 0 && |lines[0]| > 0
    ensures var head, first' := HeadOf(keys, first, lines[0]), first && lines[0][0] == '#';
      TextsOf(head.sites, Columns) + (if first' && FirstData(lines[1..]).Some? then [LegacySiteColumns(keys)] else [])
        == (if first && FirstData(lines).Some? then [LegacySiteColumns(keys)] else [])
  {
    var line := lines[0];
    if first && line[0] != '#' {
      assert FirstData(lines) == Some(line);
      assert TextsOf(HeadOf(keys, first, line).sites, Columns) == [LegacySiteColumns(keys)];
    } else if first {
      assert FirstData(lines) == FirstData(lines[1..]);
    }
  }

  /** One step of the genotype column count: a site line's heading plus
      what the rest of the run prints is one genotype column line, naming
      the FORMAT keys of the run's first line not starting with `#`, when
      the run starts before that line, and none otherwise. */
  lemma HeadGenotypeColumns(keys: Keys, first: bool, lines: seq<string>)
    requires |lines| > 0 && |lines[0]| > 0
    ensures var head, first' := HeadOf(keys, first, lines[0]), first && lines[0][0] == '#';
      TextsOf(head.genotypes, Columns) + (if first' && FirstData(lines[1..]).Some? then [LegacyGenotypeColumns(FormatOf(FirstData(lines[1..]).value))] else [])
        == (if first && FirstData(lines).Some? then [LegacyGenotypeColumns(FormatOf(FirstData(lines).value))] else [])
  {
    var line := lines[0];
    if first && line[0] != '#' {
      assert FirstData(lines) == Some(line);
      assert TextsOf(HeadOf(keys, first, line).genotypes, Columns) == [LegacyGenotypeColumns(FormatOf(line))];
    } else if first {
      assert FirstData(lines) == FirstData(lines[1..]);
    }
  }

  // ---------------------------------------------------------------------
  // where the column lines sit

  /** The sample ids bound when the run reaches its first line not
      starting with `#`: a `#CHROM` line before it rebinds them. */
  function IdsAtData(inds: Option<seq<string>>, lines: seq<string>): Option<seq<string>>
    decreases |lines|
  {
    if |lines| == 0 || IsLegacyData(lines[0]) then inds
    else if StartsWith(lines[0], "#CHROM") && !StartsWith(lines[0], "##") then
      IdsAtData(Some(GetInds(Strip(lines[0]))), lines[1..])
    else IdsAtData(inds, lines[1..])
  }

  /** Every column line is followed at once by the given rows. */
  predicate ColumnsThenRows(es: seq<Emitted>, rows: seq<string>) {
    forall j :: 0 <= j < |es| && es[j].kind == Columns ==>
      j + |rows| < |es| && es[j + 1..j + 1 + |rows|] == Rows(rows)
  }

  /** From the start of a run, the column lines are followed at once by
      the rows of the run's first line not starting with `#`: its site row
      in the site table, its genotype rows in the genotype table. */
  predicate LegacyPlaced(keys: Keys, first: bool, inds: Option<seq<string>>, lines: seq<string>)
  {
    var r := LegacyDrive(keys, first, inds, lines);
    r.Ok? && first && FirstData(lines).Some? ==>
      && IdsAtData(inds, lines).Some?
      && LegacyProcessSite(FirstData(lines).value, IdsAtData(inds, lines).value, keys).Ok?
      && var rows := LegacyProcessSite(FirstData(lines).value, IdsAtData(inds, lines).value, keys).value;
         ColumnsThenRows(r.value.sites, [rows.site]) && ColumnsThenRows(r.value.genotypes, rows.genotypes)
  }

  /** The column lines of a run come right before the rows of its first
      line not starting with `#`, whatever `##`, `#CHROM` and other `#`
      lines precede that line. */
  lemma {:induction false} LegacyColumnsPlacement(keys: Keys, first: bool, inds: Option<seq<string>>, lines: seq<string>)
    ensures LegacyPlaced(keys, first, inds, lines)
    decreases |lines|
  {
    if |lines| > 0 && first && LegacyDrive(keys, first, inds, lines).Ok? && FirstData(lines).Some? {
      var line := lines[0];
      if StartsWith(line, "##") {
        LegacyColumnsPlacement(keys, first, inds, lines[1..]);
        PlacedEcho(keys, inds, lines);
      } else if StartsWith(line, "#CHROM") {
        LegacyColumnsPlacement(keys, first, Some(GetInds(Strip(line))), lines[1..]);
        PlacedChrom(keys, inds, lines);
      } else if line[0] == '#' {
        LegacyColumnsPlacement(keys, first, inds, lines[1..]);
        PlacedHashSite(keys, inds, lines);
      } else {
        PlacedData(keys, inds, lines);
      }
    }
  }

  lemma PlacedEcho(keys: Keys, inds: Option<seq<string>>, lines: seq<string>)
    requires |lines| > 0 && StartsWith(lines[0], "##")
    requires LegacyPlaced(keys, true, inds, lines[1..])
    ensures LegacyPlaced(keys, true, inds, lines)
  {
    if LegacyDrive(keys, true, inds, lines).Ok? {
      HashNotData(lines[0], "##");
      assert FirstData(lines) == FirstData(lines[1..]);
      assert IdsAtData(inds, lines) == IdsAtData(inds, lines[1..]);
      var rest := LegacyDrive(keys, true, inds, lines[1..]).value;
      var e := [Emitted(Echo, Strip(lines[0]))];
      assert LegacyDrive(keys, true, inds, lines).value == Output(e + rest.sites, e + rest.genotypes);
      if FirstData(lines).Some? {
        var rows := LegacyProcessSite(FirstData(lines).value, IdsAtData(inds, lines).value, keys).value;
        ShiftColumns(e, rest.sites, [rows.site]);
        ShiftColumns(e, rest.genotypes, rows.genotypes);
      }
    }
  }

  lemma PlacedChrom(keys: Keys, inds: Option<seq<string>>, lines: seq<string>)
    requires |lines| > 0 && !StartsWith(lines[0], "##") && StartsWith(lines[0], "#CHROM")
    requires LegacyPlaced(keys, true, Some(GetInds(Strip(lines[0]))), lines[1..])
    ensures LegacyPlaced(keys, true, inds, lines)
  {
    var bound := Some(GetInds(Strip(lines[0])));
    assert LegacyDrive(keys, true, inds, lines) == LegacyDrive(keys, true, bound, lines[1..])
      && FirstData(lines) == FirstData(lines[1..]) by {
      ChromStep(keys, true, inds, lines);
    }
    assert IdsAtData(inds, lines) == IdsAtData(bound, lines[1..]) by {
      HashNotData(lines[0], "#CHROM");
    }
  }

  /** A site line starting with `#` (not `##`, not `#CHROM`) prints its
      rows with no heading, before the column lines. */
  lemma PlacedHashSite(keys: Keys, inds: Option<seq<string>>, lines: seq<string>)
    requires |lines| > 0 && |lines[0]| > 0 && lines[0][0] == '#' && IsSite(lines[0])
    requires LegacyPlaced(keys, true, inds, lines[1..])
    ensures LegacyPlaced(keys, true, inds, lines)
  {
    if LegacyDrive(keys, true, inds, lines).Ok? && FirstData(lines).Some? {
      HashSiteOutput(keys, inds, lines);
      var here := LegacyProcessSite(lines[0], inds.value, keys).value;
      var rest := LegacyDrive(keys, true, inds, lines[1..]).value;
      var r := LegacyDrive(keys, true, inds, lines).value;
      assert FirstData(lines) == FirstData(lines[1..]);
      assert IdsAtData(inds, lines) == IdsAtData(inds, lines[1..]);
      var rows := LegacyProcessSite(FirstData(lines).value, IdsAtData(inds, lines).value, keys).value;
      assert ColumnsThenRows(r.sites, [rows.site]) by {
        ShiftColumns(Rows([here.site]), rest.sites, [rows.site]);
      }
      assert ColumnsThenRows(r.genotypes, rows.genotypes) by {
        ShiftColumns(Rows(here.genotypes), rest.genotypes, rows.genotypes);
      }
    }
  }

  /** The output of a site line starting with `#`: its rows, then the
      rest's. */
  lemma HashSiteOutput(keys: Keys, inds: Option<seq<string>>, lines: seq<string>)
    requires |lines| > 0 && |lines[0]| > 0 && lines[0][0] == '#' && IsSite(lines[0])
    requires LegacyDrive(keys, true, inds, lines).Ok?
    ensures inds.Some? && LegacyProcessSite(lines[0], inds.value, keys).Ok?
    ensures LegacyDrive(keys, true, inds, lines[1..]).Ok?
    ensures var here, rest := LegacyProcessSite(lines[0], inds.value, keys).value, LegacyDrive(keys, true, inds, lines[1..]).value;
      LegacyDrive(keys, true, inds, lines).value == Output(Rows([here.site]) + rest.sites, Rows(here.genotypes) + rest.genotypes)
  {
    LegacySiteStep(keys, true, inds, lines);
    HeadValue(keys, true, lines[0]);
    var here, rest := LegacyProcessSite(lines[0], inds.value, keys).value, LegacyDrive(keys, true, inds, lines[1..]).value;
    assert [] + Rows([here.site]) + rest.sites == Rows([here.site]) + rest.sites;
    assert [] + Rows(here.genotypes) + rest.genotypes == Rows(here.genotypes) + rest.genotypes;
  }

  /** The first line not starting with `#` prints the column lines, then
      its rows; nothing after it prints a column line. */
  lemma PlacedData(keys: Keys, inds: Option<seq<string>>, lines: seq<string>)
    requires |lines| > 0 && IsLegacyData(lines[0])
    ensures LegacyPlaced(keys, true, inds, lines)
  {
    if LegacyDrive(keys, true, inds, lines).Ok? {
      var line := lines[0];
      DataIsSite(line);
      LegacySiteStep(keys, true, inds, lines);
      HeadValue(keys, true, line);
      LegacyDriveShape(keys, false, inds, lines[1..]);
      assert FirstData(lines) == Some(line) && IdsAtData(inds, lines) == inds;
      var rows := LegacyProcessSite(line, inds.value, keys).value;
      var rest := LegacyDrive(keys, false, inds, lines[1..]).value;
      var head := HeadOf(keys, true, line);
      TextsOfNone(rest.sites, Columns);
      TextsOfNone(rest.genotypes, Columns);
      HeadThenRows(head.sites[0], [rows.site], rest.sites);
      HeadThenRows(head.genotypes[0], rows.genotypes, rest.genotypes);
    }
  }

  /** A line not starting with `#` is a site line. */
  lemma DataIsSite(line: string)
    requires IsLegacyData(line)
    ensures IsSite(line)
  {
    assert !StartsWith(line, "##") by {
      assert |line| < 2 || line[..2][0] == line[0];
    }
    assert !StartsWith(line, "#CHROM") by {
      assert |line| < 6 || line[..6][0] == line[0];
    }
  }

  lemma ShiftColumns(pre: seq<Emitted>, rest: seq<Emitted>, rows: seq<string>)
    requires NoneOf(pre, Columns) && ColumnsThenRows(rest, rows)
    ensures ColumnsThenRows(pre + rest, rows)
  {
    var es := pre + rest;
    forall j | 0 <= j < |es| && es[j].kind == Columns
      ensures j + |rows| < |es| && es[j + 1..j + 1 + |rows|] == Rows(rows)
    {
      assert j >= |pre|;
      var k := j - |pre|;
      assert es[j] == rest[k];
      assert es[j + 1..j + 1 + |rows|] == rest[k + 1..k + 1 + |rows|];
    }
  }

  lemma HeadThenRows(c: Emitted, rows: seq<string>, rest: seq<Emitted>)
    requires c.kind == Columns && NoneOf(rest, Columns)
    ensures ColumnsThenRows([c] + Rows(rows) + rest, rows)
  {
    var es := [c] + Rows(rows) + rest;
    forall j | 0 <= j < |es| && es[j].kind == Columns
      ensures j + |rows| < |es| && es[j + 1..j + 1 + |rows|] == Rows(rows)
    {
      assert j == 0;
      assert es[1..1 + |rows|] == Rows(rows);
    }
  }

  /** A line starting with `#` is not a data line. */
  lemma HashNotData(line: string, p: string)
    requires |p| > 0 && p[0] == '#' && StartsWith(line, p)
    ensures !IsLegacyData(line)
  {
    assert line[0] == line[..|p|][0];
  }

  /** The entries a site line adds, of one kind. */
  lemma SiteKind(head: seq<Emitted>, xs: seq<string>, rest: seq<Emitted>, k: Kind)
    ensures TextsOf(head + Rows(xs) + rest, k) == TextsOf(head, k) + (if k == Row then xs else []) + TextsOf(rest, k)
  {
    TextsOfThree(head, Rows(xs), rest, k);
    TextsOfRows(xs, k);
  }

  /** The entry an echoed line adds, of one kind. */
  lemma EchoKind(ln: string, rest: seq<Emitted>, k: Kind)
    ensures TextsOf([Emitted(Echo, ln)] + rest, k) == (if k == Echo then [ln] else []) + TextsOf(rest, k)
  {
    TextsOfConcat([Emitted(Echo, ln)], rest, k);
  }
}

=== FILE: ordered_dict.dfy ===
/** Python dicts remember insertion order: `d.update({k: v})` overwrites the
    value of an existing key in place and appends a new key at the end. The
    converter uses dicts only for that ordering, so a dict is modelled as a
    duplicate-free key sequence with a parallel value sequence. */
module OrderedDict {
  import opened PyStr

  predicate NoDup(xs: seq<string>) {
    forall i, j :: 0 <= i < j < |xs| ==> xs[i] != xs[j]
  }

  /** The key order after inserting `k`: an existing key keeps its place,
      a new one goes last. */
  function AddKey(keys: seq<string>, k: string): (r: seq<string>)
    ensures |keys| <= |r| <= |keys| + 1 && r[..|keys|] == keys
    ensures forall x :: x in r <==> x in keys || x == k
    ensures NoDup(keys) ==> NoDup(r)
    ensures |r| == |keys| <==> k in keys
  {
    if k in keys then keys else keys + [k]
  }

  /** The key order after inserting every element of `xs`, first to last. */
  function AddAll(keys: seq<string>, xs: seq<string>): (r: seq<string>)
    ensures |keys| <= |r| <= |keys| + |xs| && r[..|keys|] == keys
    ensures forall x :: x in r <==> x in keys || x in xs
    ensures NoDup(keys) ==> NoDup(r)
    decreases |xs|
  {
    if |xs| == 0 then keys
    else
      var r := AddKey(AddAll(keys, xs[..|xs| - 1]), xs[|xs| - 1]);
      assert xs == xs[..|xs| - 1] + [xs[|xs| - 1]];
      r
  }

  /** The keys of a dict built by inserting `xs` into an empty dict. */
  function Dedup(xs: seq<string>): (r: seq<string>)
    ensures NoDup(r)
    ensures forall x :: x in r <==> x in xs
  {
    AddAll([], xs)
  }

  lemma IndexOfAppend(xs: seq<string>, x: string, y: string)
    requires y in xs
    ensures IndexOf(xs + [x], y) == IndexOf(xs, y)
  {
    var i := IndexOf(xs, y);
    assert (xs + [x])[i] == y;
  }

  /** The keys AddAll appends after `keys` are exactly the new ones, and they
      stand in the order of their FIRST occurrence in `xs`. */
  lemma {:induction false} AddAllFirstSeenOrder(keys: seq<string>, xs: seq<string>)
    requires NoDup(keys)
    ensures forall i :: |keys| <= i < |AddAll(keys, xs)| ==>
      AddAll(keys, xs)[i] !in keys && AddAll(keys, xs)[i] in xs
    ensures forall i, j :: |keys| <= i < j < |AddAll(keys, xs)| ==>
      IndexOf(xs, AddAll(keys, xs)[i]) < IndexOf(xs, AddAll(keys, xs)[j])
    decreases |xs|
  {
    var r := AddAll(keys, xs);
    if |xs| > 0 {
      var init, x := xs[..|xs| - 1], xs[|xs| - 1];
      assert xs == init + [x];
      var r' := AddAll(keys, init);
      AddAllFirstSeenOrder(keys, init);
      forall i | |keys| <= i < |r'| ensures IndexOf(xs, r'[i]) == IndexOf(init, r'[i]) {
        IndexOfAppend(init, x, r'[i]);
      }
      if x !in r' {
        assert r == r' + [x];
        assert x !in init;
        assert IndexOf(xs, x) == |init|;
      } else {
        assert r == r';
      }
      forall i, j | |keys| <= i < j < |r| ensures IndexOf(xs, r[i]) < IndexOf(xs, r[j]) {
        assert r[i] == r'[i];
        assert IndexOf(xs, r'[i]) == IndexOf(init, r'[i]);
        if j < |r'| {
          assert r[j] == r'[j];
          assert IndexOf(xs, r'[j]) == IndexOf(init, r'[j]);
          assert IndexOf(init, r'[i]) < IndexOf(init, r'[j]);
        } else {
          assert r[j] == x && x !in r';
          assert IndexOf(xs, x) == |init|;
          assert IndexOf(init, r'[i]) < |init|;
        }
      }
    }
  }

  /** In particular the keys of Dedup(xs) follow first-declaration order. */
  lemma DedupFirstSeenOrder(xs: seq<string>)
    ensures var r := Dedup(xs);
      forall i, j :: 0 <= i < j < |r| ==> IndexOf(xs, r[i]) < IndexOf(xs, r[j])
  {
    var r := Dedup(xs);
    assert r == AddAll([], xs);
    AddAllFirstSeenOrder([], xs);
    assert forall i, j :: 0 <= i < j < |r| ==> IndexOf(xs, r[i]) < IndexOf(xs, r[j]);
  }

  /** Inserting keys that are all present already changes nothing, and only
      then: the key list keeps its length exactly when no new key arrives. */
  lemma {:induction false} AddAllUnchanged(keys: seq<string>, xs: seq<string>)
    ensures AddAll(keys, xs) == keys <==> forall i :: 0 <= i < |xs| ==> xs[i] in keys
    ensures |AddAll(keys, xs)| == |keys| <==> AddAll(keys, xs) == keys
    decreases |xs|
  {
    var r := AddAll(keys, xs);
    if |xs| > 0 {
      AddAllUnchanged(keys, xs[..|xs| - 1]);
      var init := xs[..|xs| - 1];
      if forall i :: 0 <= i < |xs| ==> xs[i] in keys {
        assert forall i :: 0 <= i < |init| ==> init[i] in keys;
      }
    }
    if |r| == |keys| {
      assert r == r[..|keys|];
    }
  }

  /** A duplicate-free list is its own Dedup. */
  lemma {:induction false} DedupOfNoDup(xs: seq<string>)
    requires NoDup(xs)
    ensures Dedup(xs) == xs
    decreases |xs|
  {
    if |xs| > 0 {
      var init := xs[..|xs| - 1];
      DedupOfNoDup(init);
      assert xs[|xs| - 1] !in init;
      assert init + [xs[|xs| - 1]] == xs;
    }
  }

  // ---------------------------------------------------------------------
  // dicts from string keys to string values

  datatype Dict = Dict(keys: seq<string>, values: seq<string>)

  predicate Valid(d: Dict) {
    |d.keys| == |d.values| && NoDup(d.keys)
  }

  /** `{k: v for k in keys}`, i.e. a header dict with its placeholders. */
  function FromKeys(keys: seq<string>, v: string): (d: Dict)
    requires NoDup(keys)
    ensures Valid(d) && d.keys == keys
    ensures forall i :: 0 <= i < |d.values| ==> d.values[i] == v
  {
    Dict(keys, seq(|keys|, _ => v))
  }

  /** `d.update({k: v})`: the key order becomes AddKey(keys, k), `k` now maps
      to `v`, and every other key keeps its value. */
  function Update(d: Dict, k: string, v: string): (r: Dict)
    requires Valid(d)
    ensures Valid(r) && r.keys == AddKey(d.keys, k)
    ensures forall i :: 0 <= i < |r.keys| && r.keys[i] == k ==> r.values[i] == v
    ensures forall i :: 0 <= i < |r.keys| && r.keys[i] != k ==> i < |d.values| && r.values[i] == d.values[i]
  {
    if k in d.keys then Dict(d.keys, d.values[IndexOf(d.keys, k) := v])
    else Dict(d.keys + [k], d.values + [v])
  }
}

=== FILE: outcomes.dfy ===
/** The exceptions the Python code can raise while converting a VCF file,
    and a failure-compatible Result carrying one of them. */
module Outcomes {

  /** One constructor per way the original program stops with an exception. */
  datatype Error =
      /** tuple unpacking of a line with too few fields (ValueError) */
    | NotEnoughFields
      /** `values[idx]` / `ind_formats[idx]` / `i[1]` past the end of a list (IndexError) */
    | IndexOutOfRange
      /** the `assert` comparing sample columns with sample ids (AssertionError) */
    | SampleCountMismatch
      /** `header.individual_ids` read although no `#CHROM` line set it (AttributeError) */
    | NoSampleIds
      /** `int(...)` of a position that is not a decimal numeral (ValueError) */
    | NotAnInteger
      /** a sites-file line that does not split into exactly two tokens (ValueError) */
    | BadSitesLine
      /** legacy script: `inds` used before any `#CHROM` line bound it (UnboundLocalError) */
    | UnboundSampleIds
      /** `self.sites_dict` read although parse_sites never set it (AttributeError) */
    | SitesNotRead

  datatype Result<+T> = Ok(value: T) | Err(error: Error) {

    predicate IsFailure() {
      Err?
    }

    function PropagateFailure<U>(): Result<U>
      requires Err?
    {
      Err(error)
    }

    function Extract(): T
      requires Ok?
    {
      value
    }
  }

  datatype Option<+T> = None | Some(value: T)

  /** A loop that computes one result per item and stops at the first
      exception: it succeeds exactly when every item does, with the items'
      values in order, and fails with the first failure's error. */
  function Collect<T>(rs: seq<Result<T>>): (r: Result<seq<T>>)
    ensures r.Ok? <==> forall i :: 0 <= i < |rs| ==> rs[i].Ok?
    ensures r.Ok? ==> |r.value| == |rs| && forall i :: 0 <= i < |rs| ==> rs[i] == Ok(r.value[i])
    ensures r.Err? ==>
      exists i :: 0 <= i < |rs| && rs[i] == Err(r.error) && (forall j :: 0 <= j < i ==> rs[j].Ok?)
  {
    if |rs| == 0 then Ok([])
    else if rs[0].Err? then Err(rs[0].error)
    else
      var rest := Collect(rs[1..]);
      assert forall i :: 1 <= i < |rs| ==> rs[i] == rs[1..][i - 1];
      if rest.Err? then
        var i :| 0 <= i < |rs[1..]| && rs[1..][i] == Err(rest.error) && forall j :: 0 <= j < i ==> rs[1..][j].Ok?;
        assert rs[i + 1] == Err(rest.error);
        Err(rest.error)
      else Ok([rs[0].value] + rest.value)
  }
}

=== FILE: pystr.dfy ===
/** The few Python `str` and list operations the converter is built from:
    `split(sep)`, `split()`, `strip()`, `sep.join`, `startswith`,
    `list.index`, slicing past the end, and `int()` on a decimal numeral. */
module PyStr {
  import opened Outcomes

  /** Python's `str.isspace` for one character (the set `split()` and
      `strip()` use): ASCII whitespace, the separators U+001C..U+001F and
      the Unicode space characters. */
  predicate IsSpace(c: char) {
    || c == ' ' || c == '\t' || c == '\n' || c == '\r'
    || c == '\U{B}' || c == '\U{C}'
    || ('\U{1C}' <= c <= '\U{1F}')
    || c == '\U{85}' || c == '\U{A0}' || c == '\U{1680}'
    || ('\U{2000}' <= c <= '\U{200A}')
    || c == '\U{2028}' || c == '\U{2029}' || c == '\U{202F}'
    || c == '\U{205F}' || c == '\U{3000}'
  }

  predicate NoSpace(s: string) {
    forall i :: 0 <= i < |s| ==> !IsSpace(s[i])
  }

  predicate AllSpace(s: string) {
    forall i :: 0 <= i < |s| ==> IsSpace(s[i])
  }

  /** `s.startswith(p)` */
  predicate StartsWith(s: string, p: string) {
    |p| <= |s| && s[..|p|] == p
  }

  /** `sep.join(xs)` */
  function Join(xs: seq<string>, sep: string): string
  {
    if |xs| == 0 then ""
    else if |xs| == 1 then xs[0]
    else xs[0] + sep + Join(xs[1..], sep)
  }

  /** `s.split(sep)` for a one-character separator: empty pieces are kept
      and the result is never empty (`"".split(";") == [""]`); SplitPieces
      shows the pieces joined back with the separator give `s` again. */
  function Split(s: string, sep: char): (r: seq<string>)
    ensures |r| >= 1
    decreases |s|
  {
    if |s| == 0 then [""]
    else
      var rest := Split(s[1..], sep);
      if s[0] == sep then [""] + rest
      else [[s[0]] + rest[0]] + rest[1..]
  }

  /** `s.split()`: the maximal runs of non-whitespace characters, in order;
      whitespace runs of any length separate them and never yield empty
      tokens. */
  function SplitWs(s: string): (r: seq<string>)
    ensures forall i :: 0 <= i < |r| ==> |r[i]| > 0 && NoSpace(r[i])
    ensures |s| > 0 && !IsSpace(s[0]) ==> |r| > 0 && r[0][0] == s[0]
    decreases |s|
  {
    if |s| == 0 then []
    else
      var rest := SplitWs(s[1..]);
      if IsSpace(s[0]) then rest
      else if |s| > 1 && !IsSpace(s[1]) then [[s[0]] + rest[0]] + rest[1..]
      else [[s[0]]] + rest
  }

  /** `s.lstrip()` */
  function TrimLeft(s: string): (r: string)
    ensures |r| <= |s| && r == s[|s| - |r|..]
    ensures AllSpace(s[..|s| - |r|])
    ensures r == [] || !IsSpace(r[0])
    decreases |s|
  {
    if |s| > 0 && IsSpace(s[0]) then
      var r := TrimLeft(s[1..]);
      assert s[..|s| - |r|] == [s[0]] + s[1..][..|s| - 1 - |r|];
      r
    else s
  }

  /** `s.rstrip()` */
  function TrimRight(s: string): (r: string)
    ensures |r| <= |s| && r == s[..|r|]
    ensures AllSpace(s[|r|..])
    ensures r == [] || !IsSpace(r[|r| - 1])
    decreases |s|
  {
    if |s| > 0 && IsSpace(s[|s| - 1]) then
      var r := TrimRight(s[..|s| - 1]);
      assert s[|r|..] == s[..|s| - 1][|r|..] + [s[|s| - 1]];
      r
    else s
  }

  /** `s.strip()`: the text between the leading and the trailing whitespace.
      It is empty exactly for blank input, and a string that neither starts
      nor ends with whitespace is its own strip. */
  function Strip(s: string): (r: string)
    ensures r == "" <==> AllSpace(s)
    ensures r == "" || (!IsSpace(r[0]) && !IsSpace(r[|r| - 1]))
    ensures (|s| == 0 || (!IsSpace(s[0]) && !IsSpace(s[|s| - 1]))) ==> r == s
  {
    TrimRight(TrimLeft(s))
  }

  /** `xs[n:]`: a slice that starts past the end is empty, not an error. */
  function Drop<T>(xs: seq<T>, n: nat): (r: seq<T>)
    ensures n <= |xs| ==> r == xs[n..]
    ensures n >= |xs| ==> r == []
  {
    if n <= |xs| then xs[n..] else []
  }

  /** `xs.index(x)`: the position of the FIRST occurrence of `x`. */
  function IndexOf<T(==)>(xs: seq<T>, x: T): (r: nat)
    requires x in xs
    ensures r < |xs| && xs[r] == x
    ensures forall j :: 0 <= j < r ==> xs[j] != x
  {
    if xs[0] == x then 0 else 1 + IndexOf(xs[1..], x)
  }

  predicate IsDigit(c: char) {
    '0' <= c <= '9'
  }

  predicate IsNumeral(s: string) {
    |s| > 0 && forall i :: 0 <= i < |s| ==> IsDigit(s[i])
  }

  /** The value of a string of decimal digits, most significant first. */
  function DigitsValue(s: string): nat
    requires forall i :: 0 <= i < |s| ==> IsDigit(s[i])
  {
    if |s| == 0 then 0
    else
      assert IsDigit(s[|s| - 1]);
      10 * DigitsValue(s[..|s| - 1]) + ((s[|s| - 1] as int) - ('0' as int))
  }

  /** `int(s)` for a token free of whitespace: an optional `+` or `-`
      followed by decimal digits. */
  function PyInt(s: string): (r: Result<int>)
    ensures r.Ok? <==> IsNumeral(s) || (|s| > 1 && (s[0] == '+' || s[0] == '-') && IsNumeral(s[1..]))
    ensures IsNumeral(s) ==> r == Ok(DigitsValue(s))
  {
    if |s| > 1 && s[0] == '-' && IsNumeral(s[1..]) then Ok(-(DigitsValue(s[1..]) as int))
    else if |s| > 1 && s[0] == '+' && IsNumeral(s[1..]) then Ok(DigitsValue(s[1..]))
    else if IsNumeral(s) then Ok(DigitsValue(s) as int)
    else Err(NotAnInteger)
  }

  /** `str(n)` for a natural number. */
  function NatToString(n: nat): (r: string)
    ensures IsNumeral(r)
  {
    if n < 10 then [(('0' as int) + n) as char]
    else NatToString(n / 10) + [(('0' as int) + n % 10) as char]
  }

  /** `str(i)` for an integer: a `-` before the digits of a negative one. */
  function IntToString(i: int): (r: string)
    ensures i >= 0 ==> IsNumeral(r)
    ensures i < 0 ==> |r| > 1 && r[0] == '-' && IsNumeral(r[1..])
  {
    if i >= 0 then NatToString(i) else "-" + NatToString(-i)
  }

  // ---------------------------------------------------------------------
  // Join and split(sep) are inverse to each other

  lemma JoinAppend(xs: seq<string>, ys: seq<string>, sep: string)
    requires |xs| > 0 && |ys| > 0
    ensures Join(xs + ys, sep) == Join(xs, sep) + sep + Join(ys, sep)
    decreases |xs|
  {
    if |xs| > 1 {
      assert (xs + ys)[1..] == xs[1..] + ys;
      JoinAppend(xs[1..], ys, sep);
    } else {
      assert (xs + ys)[1..] == ys;
    }
  }

  /** The pieces of `s.split(sep)` hold no separator, and joined back with
      it they give `s`. */
  lemma {:induction false} SplitPieces(s: string, sep: char)
    ensures forall i :: 0 <= i < |Split(s, sep)| ==> sep !in Split(s, sep)[i]
    ensures Join(Split(s, sep), [sep]) == s
    decreases |s|
  {
    if |s| > 0 {
      var rest := Split(s[1..], sep);
      SplitPieces(s[1..], sep);
      var r := Split(s, sep);
      if s[0] == sep {
        assert r == [""] + rest && r[1..] == rest;
        assert s == [sep] + s[1..];
        forall i | 0 < i < |r| ensures sep !in r[i] {
          assert r[i] == rest[i - 1];
        }
      } else {
        assert r == [[s[0]] + rest[0]] + rest[1..];
        assert s == [s[0]] + s[1..];
        if |rest| > 1 {
          assert Join(rest, [sep]) == rest[0] + [sep] + Join(rest[1..], [sep]);
          assert r[1..] == rest[1..];
        }
        forall i | 0 < i < |r| ensures sep !in r[i] {
          assert r[i] == rest[i];
        }
      }
    }
  }

  /** A piece free of the separator splits into itself. */
  lemma {:induction false} SplitNoSep(a: string, sep: char)
    requires sep !in a
    ensures Split(a, sep) == [a]
    decreases |a|
  {
    if |a| > 0 {
      SplitNoSep(a[1..], sep);
      assert [a[0]] + a[1..] == a;
    }
  }

  /** Splitting at the first separator peels off the first piece. */
  lemma {:induction false} SplitPrefix(a: string, t: string, sep: char)
    requires sep !in a
    ensures Split(a + [sep] + t, sep) == [a] + Split(t, sep)
    decreases |a|
  {
    var s := a + [sep] + t;
    if |a| == 0 {
      assert s[1..] == t;
    } else {
      assert s[1..] == a[1..] + [sep] + t;
      SplitPrefix(a[1..], t, sep);
      assert [a[0]] + a[1..] == a;
    }
  }

  /** Round trip: splitting a join of separator-free pieces gives the pieces
      back. Together with SplitPieces this says Split(s) is the ONLY
      separator-free decomposition of `s`. */
  lemma {:induction false} SplitJoin(xs: seq<string>, sep: char)
    requires |xs| > 0
    requires forall i :: 0 <= i < |xs| ==> sep !in xs[i]
    ensures Split(Join(xs, [sep]), sep) == xs
    decreases |xs|
  {
    if |xs| == 1 {
      SplitNoSep(xs[0], sep);
    } else {
      SplitJoin(xs[1..], sep);
      assert Join(xs, [sep]) == xs[0] + [sep] + Join(xs[1..], [sep]);
      SplitPrefix(xs[0], Join(xs[1..], [sep]), sep);
      assert [xs[0]] + xs[1..] == xs;
    }
  }

  /** Splitting distributes over a separator between two strings. */
  lemma SplitConcat(a: string, b: string, sep: char)
    ensures Split(a + [sep] + b, sep) == Split(a, sep) + Split(b, sep)
  {
    var xs, ys := Split(a, sep), Split(b, sep);
    SplitPieces(a, sep);
    SplitPieces(b, sep);
    JoinAppend(xs, ys, [sep]);
    assert forall i :: 0 <= i < |xs + ys| ==> sep !in (xs + ys)[i] by {
      forall i | 0 <= i < |xs + ys| ensures sep !in (xs + ys)[i] {
        if i < |xs| { assert (xs + ys)[i] == xs[i]; }
        else { assert (xs + ys)[i] == ys[i - |xs|]; }
      }
    }
    SplitJoin(xs + ys, sep);
  }

  /** `s.split(sep)` has a second piece exactly when `sep` occurs in `s`. */
  lemma SplitHasSecond(s: string, sep: char)
    ensures |Split(s, sep)| >= 2 <==> sep in s
  {
    var r := Split(s, sep);
    SplitPieces(s, sep);
    if |r| >= 2 {
      assert Join(r, [sep]) == r[0] + [sep] + Join(r[1..], [sep]);
      assert s[|r[0]|] == sep;
    } else {
      assert s == r[0];
    }
  }

  /** A character absent from a join is absent from every piece. */
  lemma {:induction false} NotInJoin(xs: seq<string>, sep: string, c: char)
    requires c !in Join(xs, sep)
    ensures forall i :: 0 <= i < |xs| ==> c !in xs[i]
    decreases |xs|
  {
    if |xs| > 1 {
      assert Join(xs, sep) == xs[0] + sep + Join(xs[1..], sep);
      assert forall k :: 0 <= k < |xs[0]| ==> xs[0][k] == Join(xs, sep)[k];
      var tail := Join(xs[1..], sep);
      assert forall k :: 0 <= k < |tail| ==> tail[k] == Join(xs, sep)[|xs[0]| + |sep| + k];
      NotInJoin(xs[1..], sep, c);
      forall i | 0 < i < |xs| ensures c !in xs[i] {
        assert xs[i] == xs[1..][i - 1];
      }
    }
  }

  /** A character absent from a string is absent from each of its pieces. */
  lemma SplitAvoids(s: string, sep: char, c: char)
    requires c !in s
    ensures forall i :: 0 <= i < |Split(s, sep)| ==> c !in Split(s, sep)[i]
  {
    SplitPieces(s, sep);
    NotInJoin(Split(s, sep), [sep], c);
  }

  /** A string without whitespace has no tab. */
  lemma NoSpaceNoTab(s: string)
    requires NoSpace(s)
    ensures '\t' !in s
  {
  }

  /** A character absent from both the pieces and the separator is absent
      from the join. */
  lemma {:induction false} NotInJoinOf(xs: seq<string>, sep: string, c: char)
    requires c !in sep
    requires forall i :: 0 <= i < |xs| ==> c !in xs[i]
    ensures c !in Join(xs, sep)
    decreases |xs|
  {
    if |xs| > 1 {
      NotInJoinOf(xs[1..], sep, c);
    }
  }

  // ---------------------------------------------------------------------
  // split() undoes a join with one whitespace character

  lemma {:induction false} SplitWsToken(t: string)
    requires |t| > 0 && NoSpace(t)
    ensures SplitWs(t) == [t]
    decreases |t|
  {
    assert !IsSpace(t[0]);
    if |t| > 1 {
      SplitWsToken(t[1..]);
      assert !IsSpace(t[1]);
      assert SplitWs(t) == [[t[0]] + t[1..]];
      assert [t[0]] + t[1..] == t;
    } else {
      assert SplitWs(t[1..]) == [];
      assert SplitWs(t) == [[t[0]]];
      assert [t[0]] == t;
    }
  }

  lemma {:induction false} SplitWsTokenThen(t: string, w: char, rest: string)
    requires |t| > 0 && NoSpace(t) && IsSpace(w)
    ensures SplitWs(t + [w] + rest) == [t] + SplitWs(rest)
    decreases |t|
  {
    var s := t + [w] + rest;
    if |t| == 1 {
      assert s[1..] == [w] + rest;
      assert ([w] + rest)[1..] == rest;
      assert SplitWs([w] + rest) == SplitWs(rest);
      assert s[0] == t[0] && s[1] == w;
      assert [t[0]] == t;
    } else {
      assert s[1..] == t[1..] + [w] + rest;
      SplitWsTokenThen(t[1..], w, rest);
      assert [t[0]] + t[1..] == t;
    }
  }

  /** Round trip: `sep.join(tokens).split() == tokens` for non-empty,
      whitespace-free tokens and a whitespace separator. */
  lemma {:induction false} SplitWsJoin(toks: seq<string>, w: char)
    requires IsSpace(w)
    requires forall i :: 0 <= i < |toks| ==> |toks[i]| > 0 && NoSpace(toks[i])
    ensures SplitWs(Join(toks, [w])) == toks
    decreases |toks|
  {
    if |toks| == 1 {
      SplitWsToken(toks[0]);
    } else if |toks| > 1 {
      SplitWsJoin(toks[1..], w);
      SplitWsTokenThen(toks[0], w, Join(toks[1..], [w]));
      assert [toks[0]] + toks[1..] == toks;
    }
  }

  /** A join of whitespace-free tokens with a whitespace separator neither
      starts nor ends with whitespace. */
  lemma {:induction false} JoinEnds(toks: seq<string>, w: char)
    requires |toks| > 0
    requires forall i :: 0 <= i < |toks| ==> |toks[i]| > 0 && NoSpace(toks[i])
    ensures var s := Join(toks, [w]); |s| > 0 && s[0] == toks[0][0]
    ensures var s := Join(toks, [w]); |s| > 0 && s[|s| - 1] == toks[|toks| - 1][|toks[|toks| - 1]| - 1]
    decreases |toks|
  {
    if |toks| > 1 {
      JoinEnds(toks[1..], w);
    }
  }

  // ---------------------------------------------------------------------
  // int() and str() on natural numbers

  lemma {:induction false} DigitsOfNat(n: nat)
    ensures DigitsValue(NatToString(n)) == n
  {
    if n >= 10 {
      DigitsOfNat(n / 10);
      var x := NatToString(n / 10);
      var s := x + [(('0' as int) + n % 10) as char];
      assert s[..|s| - 1] == x;
    }
  }

  /** Round trip: `int(str(i)) == i`. */
  lemma PyIntOfString(i: int)
    ensures PyInt(IntToString(i)) == Ok(i)
  {
    if i >= 0 {
      DigitsOfNat(i);
    } else {
      DigitsOfNat(-i);
      assert IntToString(i)[1..] == NatToString(-i);
    }
  }
}

=== FILE: record.dfy ===
/** One VCF data line and its two projections (`VCFLine` in
    tidy_vcf/main.py): the site row, whose INFO columns follow the schema's
    INFO keys, and one genotype row per sample, whose FORMAT columns follow
    the schema's FORMAT keys. Fixed fields and INFO follow section 1.6.1 of
    the Variant Call Format specification v4.3, genotype fields section
    1.6.2. */
module Record {
  import opened Outcomes
  import opened PyStr
  import opened OrderedDict
  import opened Header

  /** The nine fixed fields of a data line and its sample columns. */
  datatype VcfLine = VcfLine(
    chrom: string, pos: string, id: string, ref: string, alt: string,
    qual: string, filter: string, info: string, format: string,
    gtFormats: seq<string>)
  {
    function Fixed(): seq<string> {
      [chrom, pos, id, ref, alt, qual, filter]
    }

    /** The whitespace-separated tokens the line was made of. */
    function Tokens(): seq<string> {
      Fixed() + [info, format] + gtFormats
    }

    /** `content_string`: the seven leading fields, tab-joined. */
    function Content(): string {
      Join(Fixed(), "\t")
    }
  }

  /** A line whose every token is non-empty and free of whitespace, as the
      tokens of `str.split()` are. */
  predicate WellFormed(v: VcfLine) {
    forall i :: 0 <= i < |v.Tokens()| ==> |v.Tokens()[i]| > 0 && NoSpace(v.Tokens()[i])
  }

  /** _process_line: the fields are the whitespace tokens of the line in
      order; the tuple unpacking fails with fewer than nine. */
  function ProcessLine(line: string): (r: Result<VcfLine>)
    ensures r.Ok? <==> |SplitWs(line)| >= 9
    ensures r.Ok? ==> r.value.Tokens() == SplitWs(line) && WellFormed(r.value)
  {
    var toks := SplitWs(line);
    if |toks| < 9 then Err(NotEnoughFields)
    else
      var v := VcfLine(toks[0], toks[1], toks[2], toks[3], toks[4], toks[5], toks[6],
                       toks[7], toks[8], toks[9..]);
      assert v.Tokens() == toks;
      Ok(v)
  }

  /** A data line written with tab separators. */
  function Render(v: VcfLine): string {
    Join(v.Tokens(), "\t")
  }

  /** Round trip: a well-formed record rendered as a line parses back to
      itself. */
  lemma ProcessLineRender(v: VcfLine)
    requires WellFormed(v)
    ensures ProcessLine(Render(v)) == Ok(v)
  {
    SplitWsJoin(v.Tokens(), '\t');
    var v' := ProcessLine(Render(v)).value;
    assert v'.Tokens() == v.Tokens();
    assert v'.gtFormats == v'.Tokens()[9..] == v.Tokens()[9..] == v.gtFormats;
  }

  // ---------------------------------------------------------------------
  // INFO

  /** `INFO.split(";")` */
  function Pieces(info: string): seq<string> {
    Split(info, ';')
  }

  /** `piece.split("=")[0]`: the name of an INFO piece. */
  function PieceName(p: string): string {
    Split(p, '=')[0]
  }

  /** `piece.split("=")[1]`: the value of an INFO piece, which exists only
      when the piece contains `=`. */
  function PieceValue(p: string): string
    requires '=' in p
  {
    SplitHasSecond(p, '=');
    Split(p, '=')[1]
  }

  /** A piece is split on every `=`: `a=b=c` is named `a` and has value
      `b`, the rest is dropped. */
  lemma PieceSecondPart(a: string, b: string, c: string)
    requires '=' !in a && '=' !in b
    ensures var p := a + "=" + b + "=" + c; '=' in p && PieceName(p) == a && PieceValue(p) == b
  {
    var p := a + "=" + b + "=" + c;
    assert p == a + ['='] + (b + ['='] + c);
    assert p[|a|] == '=';
    SplitPrefix(a, b + ['='] + c, '=');
    SplitPrefix(b, c, '=');
  }

  /** Piece `j` is the first piece named `key`. */
  predicate FirstNamed(ps: seq<string>, j: int, key: string) {
    && 0 <= j < |ps|
    && PieceName(ps[j]) == key
    && forall k :: 0 <= k < j ==> PieceName(ps[k]) != key
  }

  predicate Named(ps: seq<string>, key: string) {
    exists j :: 0 <= j < |ps| && PieceName(ps[j]) == key
  }

  /** The values build_info writes into the copy of the INFO dict, in the
      order of the schema's INFO keys. With INFO exactly `.` every key keeps
      `NA`. Otherwise every `;`-piece is split on `=` and its second part
      taken, which fails for a piece without `=` (a flag, or an empty
      piece) even when its name is not a schema key; then each key takes
      the value of the first piece of that name, or keeps `NA`. */
  function BuildInfo(info: string, keys: seq<string>): (r: Result<seq<string>>)
    ensures r.Err? <==> info != "." && exists j :: 0 <= j < |Pieces(info)| && '=' !in Pieces(info)[j]
    ensures r.Ok? ==> |r.value| == |keys|
  {
    if info == "." then Ok(seq(|keys|, _ => Placeholder))
    else
      var ps := Pieces(info);
      if exists j :: 0 <= j < |ps| && '=' !in ps[j] then Err(IndexOutOfRange)
      else
        var stats := seq(|ps|, j requires 0 <= j < |ps| => PieceName(ps[j]));
        var values := seq(|ps|, j requires 0 <= j < |ps| => PieceValue(ps[j]));
        Ok(seq(|keys|, i requires 0 <= i < |keys| =>
          if keys[i] in stats then values[IndexOf(stats, keys[i])] else Placeholder))
  }

  /** What each INFO column holds: the value of the first piece named by
      the column's key, and `NA` when no piece has that name or INFO is
      `.`. */
  lemma BuildInfoValues(info: string, keys: seq<string>)
    requires BuildInfo(info, keys).Ok?
    ensures var vals, ps := BuildInfo(info, keys).value, Pieces(info);
      forall i, j :: 0 <= i < |keys| && info != "." && FirstNamed(ps, j, keys[i]) ==>
        '=' in ps[j] && vals[i] == PieceValue(ps[j])
    ensures var vals, ps := BuildInfo(info, keys).value, Pieces(info);
      forall i :: 0 <= i < |keys| && (info == "." || !Named(ps, keys[i])) ==> vals[i] == Placeholder
  {
    var vals, ps := BuildInfo(info, keys).value, Pieces(info);
    if info != "." {
      var stats := seq(|ps|, j requires 0 <= j < |ps| => PieceName(ps[j]));
      forall i, j | 0 <= i < |keys| && FirstNamed(ps, j, keys[i])
        ensures '=' in ps[j] && vals[i] == PieceValue(ps[j])
      {
        assert stats[j] == keys[i];
        assert IndexOf(stats, keys[i]) == j;
      }
      forall i | 0 <= i < |keys| && !Named(ps, keys[i]) ensures vals[i] == Placeholder {
        assert keys[i] !in stats;
      }
    }
  }

  /** build_info's `info_string`: the seven fixed fields, then the INFO
      values. */
  function BuildInfoRow(v: VcfLine, s: Schema): (r: Result<string>)
    ensures r.Ok? <==> BuildInfo(v.info, s.info).Ok?
  {
    var vals :- BuildInfo(v.info, s.info);
    Ok(v.Content() + "\t" + Join(vals, "\t"))
  }

  // ---------------------------------------------------------------------
  // FORMAT

  /** The inner loop of build_formats over the record's FORMAT keys
      `todo` (a prefix of `elements`, processed first to last): each key
      gets the sample field at its FIRST index in `elements`, which fails
      when the sample has no field there. Keys already in the dict keep
      their position; new keys are appended. */
  function FillSample(d: Dict, todo: seq<string>, elements: seq<string>, fields: seq<string>): (r: Result<Dict>)
    requires Valid(d)
    requires forall x :: x in todo ==> x in elements
    ensures r.Ok? <==> forall t :: 0 <= t < |todo| ==> IndexOf(elements, todo[t]) < |fields|
    ensures r.Ok? ==> forall x :: x in todo ==> IndexOf(elements, x) < |fields|
    ensures r.Ok? ==> Valid(r.value) && r.value.keys == AddAll(d.keys, todo)
    ensures r.Ok? ==> forall i :: 0 <= i < |r.value.keys| && r.value.keys[i] in todo ==>
      r.value.values[i] == fields[IndexOf(elements, r.value.keys[i])]
    ensures r.Ok? ==> forall i :: 0 <= i < |r.value.keys| && r.value.keys[i] !in todo ==>
      i < |d.values| && r.value.values[i] == d.values[i]
    decreases |todo|
  {
    if |todo| == 0 then Ok(d)
    else
      var init, e := todo[..|todo| - 1], todo[|todo| - 1];
      FillSplit(todo, elements, fields);
      var prev := FillSample(d, init, elements, fields);
      if prev.Err? then Err(prev.error)
      else if IndexOf(elements, e) >= |fields| then Err(IndexOutOfRange)
      else
        FillStep(d, init, e, elements, fields, prev.value);
        Ok(Update(prev.value, e, fields[IndexOf(elements, e)]))
  }

  /** The last key of `todo` and the ones before it. */
  lemma FillSplit(todo: seq<string>, elements: seq<string>, fields: seq<string>)
    requires |todo| > 0 && forall x :: x in todo ==> x in elements
    ensures var init, e := todo[..|todo| - 1], todo[|todo| - 1];
      && todo == init + [e] && e in elements && (forall x :: x in init ==> x in elements)
      && ((forall t :: 0 <= t < |todo| ==> IndexOf(elements, todo[t]) < |fields|) <==>
          (forall t :: 0 <= t < |init| ==> IndexOf(elements, init[t]) < |fields|) && IndexOf(elements, e) < |fields|)
  {
    var init, e := todo[..|todo| - 1], todo[|todo| - 1];
    assert todo == init + [e];
    assert forall t :: 0 <= t < |init| ==> init[t] == todo[t];
  }

  /** The step of FillSample: one more key `e` of the spec is written. */
  lemma FillStep(d: Dict, init: seq<string>, e: string, elements: seq<string>, fields: seq<string>, prev: Dict)
    requires Valid(d) && Valid(prev) && prev.keys == AddAll(d.keys, init)
    requires e in elements && IndexOf(elements, e) < |fields|
    requires forall x :: x in init ==> x in elements && IndexOf(elements, x) < |fields|
    requires forall i :: 0 <= i < |prev.keys| && prev.keys[i] in init ==>
      prev.values[i] == fields[IndexOf(elements, prev.keys[i])]
    requires forall i :: 0 <= i < |prev.keys| && prev.keys[i] !in init ==>
      i < |d.values| && prev.values[i] == d.values[i]
    ensures var r, todo := Update(prev, e, fields[IndexOf(elements, e)]), init + [e];
      && (forall x :: x in todo ==> IndexOf(elements, x) < |fields|)
      && Valid(r) && r.keys == AddAll(d.keys, todo)
      && (forall i :: 0 <= i < |r.keys| && r.keys[i] in todo ==>
           r.values[i] == fields[IndexOf(elements, r.keys[i])])
      && (forall i :: 0 <= i < |r.keys| && r.keys[i] !in todo ==>
           i < |d.values| && r.values[i] == d.values[i])
  {
    var todo := init + [e];
    var r := Update(prev, e, fields[IndexOf(elements, e)]);
    assert todo[..|todo| - 1] == init && todo[|todo| - 1] == e;
    assert r.keys == AddAll(d.keys, todo);
    forall x | x in todo ensures IndexOf(elements, x) < |fields| {
      assert x in init || x == e;
    }
    forall i | 0 <= i < |r.keys| && r.keys[i] != e
      ensures i < |prev.keys| && r.keys[i] == prev.keys[i] && r.values[i] == prev.values[i]
    {
      assert r.keys[..|prev.keys|] == prev.keys;
    }
    forall i | 0 <= i < |r.keys| && r.keys[i] in todo
      ensures r.values[i] == fields[IndexOf(elements, r.keys[i])]
    {
      if r.keys[i] != e {
        assert r.keys[i] in init;
      }
    }
  }

  /** `s.split(':')`, the way a FORMAT spec and a sample are cut into
      fields. */
  function ColonFields(s: string): seq<string> {
    Split(s, ':')
  }

  /** One sample's FORMAT dict: the schema's FORMAT keys, then the record's
      FORMAT keys missing from the schema, in first-seen order. A key of the
      record takes the sample's field at the key's first position in the
      record's FORMAT spec; a schema key absent from the record keeps `NA`.
      The sample fails when some record key's first position has no field. */
  function SampleFormat(spec: string, keys: seq<string>, gt: string): (r: Result<Dict>)
    requires NoDup(keys)
    ensures r.Ok? <==> forall t :: 0 <= t < |ColonFields(spec)| ==>
      IndexOf(ColonFields(spec), ColonFields(spec)[t]) < |ColonFields(gt)|
    ensures r.Ok? ==> Valid(r.value) && r.value.keys == AddAll(keys, ColonFields(spec))
  {
    FillSample(FromKeys(keys, Placeholder), ColonFields(spec), ColonFields(spec), ColonFields(gt))
  }

  /** A key is looked up at its first position, so a spec that repeats a
      key needs fewer sample fields than it has keys: a spec such as
      `GT:GT` projects a one-field sample such as `0/0`, and the key takes
      that field. */
  lemma RepeatedKeyShortSample(k: string, g: string)
    requires ':' !in k && ':' !in g
    ensures SampleFormat(k + ":" + k, [k], g) == Ok(Dict([k], [g]))
  {
    var spec := k + ":" + k;
    var elements, fields := ColonFields(spec), ColonFields(g);
    assert elements == [k, k] by {
      assert spec == k + [':'] + k;
      SplitPrefix(k, k, ':');
      SplitNoSep(k, ':');
    }
    assert fields == [g] by {
      SplitNoSep(g, ':');
    }
    var r := SampleFormat(spec, [k], g);
    assert r.Ok? by {
      assert IndexOf(elements, k) == 0;
    }
    var d := r.value;
    assert d.keys == [k] by {
      assert [k, k][..1] == [k] && [k][..0] == [];
      assert AddAll([k], []) == [k];
      assert AddAll([k], [k]) == [k];
    }
    assert d.values == [g] by {
      SampleFormatValues(spec, [k], g);
      assert IndexOf(elements, k) == 0;
      assert d.values[0] == g;
    }
  }

  /** The value of every column of a projected sample. */
  lemma SampleFormatValues(spec: string, keys: seq<string>, gt: string)
    requires NoDup(keys)
    requires SampleFormat(spec, keys, gt).Ok?
    ensures var d, elements, fields := SampleFormat(spec, keys, gt).value, Split(spec, ':'), Split(gt, ':');
      forall i :: 0 <= i < |d.keys| ==>
        d.values[i] == if d.keys[i] in elements then fields[IndexOf(elements, d.keys[i])] else Placeholder
  {
    var elements := Split(spec, ':');
    var d0 := FromKeys(keys, Placeholder);
    var d := FillSample(d0, elements, elements, Split(gt, ':')).value;
    forall i | 0 <= i < |d.keys| && d.keys[i] !in elements ensures d.values[i] == Placeholder {
      assert i < |d0.values|;
    }
  }

  /** With a duplicate-free FORMAT spec a sample is projected exactly when
      it has at least as many colon fields as the spec has keys. */
  lemma SampleFormatArity(spec: string, keys: seq<string>, gt: string)
    requires NoDup(keys) && NoDup(Split(spec, ':'))
    ensures SampleFormat(spec, keys, gt).Ok? <==> |Split(gt, ':')| >= |Split(spec, ':')|
  {
    var elements := Split(spec, ':');
    if |elements| > |Split(gt, ':')| {
      var t := |elements| - 1;
      assert IndexOf(elements, elements[t]) == t;
    }
  }

  /** A sample with a field for every key of a duplicate-free spec that
      names only known keys is projected onto exactly the known keys. */
  lemma SampleFormatKeeps(spec: string, keys: seq<string>, gt: string)
    requires NoDup(keys) && NoDup(Split(spec, ':')) && |Split(gt, ':')| >= |Split(spec, ':')|
    requires forall i :: 0 <= i < |Split(spec, ':')| ==> Split(spec, ':')[i] in keys
    ensures SampleFormat(spec, keys, gt).Ok? && SampleFormat(spec, keys, gt).value.keys == keys
  {
    SampleFormatArity(spec, keys, gt);
    AddAllUnchanged(keys, Split(spec, ':'));
  }

  /** The loop of build_formats over the sample columns: every sample is
      projected, and the first failing one stops the record. */
  function SampleDicts(spec: string, keys: seq<string>, gts: seq<string>): (r: Result<seq<Dict>>)
    requires NoDup(keys)
    ensures r.Ok? <==> forall i :: 0 <= i < |gts| ==> SampleFormat(spec, keys, gts[i]).Ok?
    ensures r.Ok? ==> |r.value| == |gts|
    ensures r.Ok? ==> forall i :: 0 <= i < |gts| ==> r.value[i] == SampleFormat(spec, keys, gts[i]).value
  {
    var rs := seq(|gts|, i requires 0 <= i < |gts| => SampleFormat(spec, keys, gts[i]));
    assert forall i :: 0 <= i < |gts| ==> rs[i] == SampleFormat(spec, keys, gts[i]);
    var r := Collect(rs);
    assert r.Ok? ==> forall i :: 0 <= i < |gts| ==> r.value[i] == rs[i].value;
    r
  }

  /** One genotype row: fixed fields, the sample id, then the sample's
      FORMAT values. */
  function GenotypeRow(v: VcfLine, ind: string, d: Dict): string {
    v.Content() + "\t" + (ind + "\t" + Join(d.values, "\t"))
  }

  /** build_formats' `format_strings`: every sample is projected first;
      then reading `individual_ids` fails if no `#CHROM` line set it; the
      rows pair sample ids with sample dicts as `zip` does, so there are as
      many as the shorter of the two. */
  function BuildFormats(v: VcfLine, s: Schema): (r: Result<seq<string>>)
    requires NoDup(s.format)
    ensures r.Ok? <==> s.samples.Some? && SampleDicts(v.format, s.format, v.gtFormats).Ok?
    ensures r.Ok? ==> |r.value| == Min(|s.samples.value|, |v.gtFormats|)
    ensures r.Ok? ==> forall i :: 0 <= i < |r.value| ==>
      r.value[i] == GenotypeRow(v, s.samples.value[i], SampleFormat(v.format, s.format, v.gtFormats[i]).value)
  {
    var dicts :- SampleDicts(v.format, s.format, v.gtFormats);
    if s.samples.None? then Err(NoSampleIds)
    else
      var ids := s.samples.value;
      Ok(seq(Min(|ids|, |dicts|), i requires 0 <= i < Min(|ids|, |dicts|) => GenotypeRow(v, ids[i], dicts[i])))
  }

  function Min(a: int, b: int): int {
    if a < b then a else b
  }

  /** The rows one record contributes to the two tables. */
  datatype SiteRows = SiteRows(site: string, genotypes: seq<string>)

  /** process_site: reading `individual_ids` fails if it was never set;
      the sample columns must match the sample ids in number (the
      `assert`); then build_info and build_formats. A record projected
      this way has exactly one genotype row per sample, in sample-id
      order. */
  function ProcessSite(v: VcfLine, s: Schema): (r: Result<SiteRows>)
    requires NoDup(s.format)
    ensures s.samples.None? ==> r == Err(NoSampleIds)
    ensures s.samples.Some? && |v.gtFormats| != |s.samples.value| ==> r == Err(SampleCountMismatch)
    ensures r.Ok? <==> (s.samples.Some? && |v.gtFormats| == |s.samples.value|
      && BuildInfo(v.info, s.info).Ok? && SampleDicts(v.format, s.format, v.gtFormats).Ok?)
    ensures r.Ok? ==> r.value.site == BuildInfoRow(v, s).value
    ensures r.Ok? ==> |r.value.genotypes| == |s.samples.value| == |v.gtFormats|
    ensures r.Ok? ==> forall i :: 0 <= i < |r.value.genotypes| ==>
      r.value.genotypes[i] == GenotypeRow(v, s.samples.value[i], SampleFormat(v.format, s.format, v.gtFormats[i]).value)
  {
    if s.samples.None? then Err(NoSampleIds)
    else if |v.gtFormats| != |s.samples.value| then Err(SampleCountMismatch)
    else
      var site :- BuildInfoRow(v, s);
      var genotypes :- BuildFormats(v, s);
      Ok(SiteRows(site, genotypes))
  }

  // ---------------------------------------------------------------------
  // rows line up with their column lines

  predicate TabFree(xs: seq<string>) {
    forall i :: 0 <= i < |xs| ==> '\t' !in xs[i]
  }

  /** The tab-separated cells of `head`, a tab, then `tail` joined with
      tabs: a line ending in a tab still has one (empty) last cell. */
  function Cells(tail: seq<string>): seq<string> {
    if tail == [] then [""] else tail
  }

  lemma SplitRow(head: seq<string>, tail: seq<string>)
    requires |head| > 0 && TabFree(head) && TabFree(tail)
    ensures Split(Join(head, "\t") + "\t" + Join(tail, "\t"), '\t') == head + Cells(tail)
  {
    var cells := Cells(tail);
    JoinAppend(head, cells, "\t");
    assert Join(cells, "\t") == Join(tail, "\t");
    forall i | 0 <= i < |head + cells| ensures '\t' !in (head + cells)[i] {
      if i >= |head| { assert (head + cells)[i] == cells[i - |head|]; }
    }
    SplitJoin(head + cells, '\t');
  }

  lemma FixedTabFree(v: VcfLine)
    requires WellFormed(v)
    ensures TabFree(v.Fixed())
  {
    forall i | 0 <= i < 7 ensures '\t' !in v.Fixed()[i] {
      assert v.Fixed()[i] == v.Tokens()[i];
      NoSpaceNoTab(v.Tokens()[i]);
    }
  }

  /** INFO values come from the INFO field or are `NA`, so they carry no
      tab when the field has none. */
  lemma BuildInfoTabFree(info: string, keys: seq<string>)
    requires '\t' !in info && BuildInfo(info, keys).Ok?
    ensures TabFree(BuildInfo(info, keys).value)
  {
    var ps := Pieces(info);
    SplitAvoids(info, ';', '\t');
    forall j | 0 <= j < |ps| && '=' in ps[j] ensures '\t' !in PieceValue(ps[j]) {
      SplitAvoids(ps[j], '=', '\t');
      SplitHasSecond(ps[j], '=');
    }
  }

  /** The site row has one cell per column of the site column line: the
      seven fixed fields, then one INFO value per schema INFO key. */
  lemma SiteRowWidth(v: VcfLine, s: Schema)
    requires WellFormed(v) && TabFree(s.info)
    requires BuildInfoRow(v, s).Ok?
    ensures Split(BuildInfoRow(v, s).value, '\t') == v.Fixed() + Cells(BuildInfo(v.info, s.info).value)
    ensures Split(SiteColumns(s), '\t') == FixedNames + Cells(s.info)
    ensures |Split(BuildInfoRow(v, s).value, '\t')| == |Split(SiteColumns(s), '\t')|
  {
    SiteRowCells(v, s);
    SiteColumnCells(s);
  }

  lemma SiteRowCells(v: VcfLine, s: Schema)
    requires WellFormed(v) && TabFree(s.info)
    requires BuildInfoRow(v, s).Ok?
    ensures Split(BuildInfoRow(v, s).value, '\t') == v.Fixed() + Cells(BuildInfo(v.info, s.info).value)
  {
    FixedTabFree(v);
    assert v.info == v.Tokens()[7];
    NoSpaceNoTab(v.Tokens()[7]);
    BuildInfoTabFree(v.info, s.info);
    SplitRow(v.Fixed(), BuildInfo(v.info, s.info).value);
  }

  lemma SiteColumnCells(s: Schema)
    requires TabFree(s.info)
    ensures Split(SiteColumns(s), '\t') == FixedNames + Cells(s.info)
  {
    ContentHeaderNames();
    NamedRow(ContentHeader(), FixedNames, s.info);
  }

  /** A column line whose head joins `names`: its cells are the names,
      then the tail's cells. */
  lemma NamedRow(head: string, names: seq<string>, tail: seq<string>)
    requires |names| > 0 && TabFree(names) && TabFree(tail) && head == Join(names, "\t")
    ensures Split(head + "\t" + Join(tail, "\t"), '\t') == names + Cells(tail)
  {
    SplitRow(names, tail);
  }

  /** A sample's FORMAT values carry no tab when its column has none. */
  lemma SampleFormatTabFree(spec: string, keys: seq<string>, gt: string)
    requires NoDup(keys) && '\t' !in gt
    requires SampleFormat(spec, keys, gt).Ok?
    ensures TabFree(SampleFormat(spec, keys, gt).value.values)
  {
    var d, elements, fields := SampleFormat(spec, keys, gt).value, Split(spec, ':'), Split(gt, ':');
    SampleFormatValues(spec, keys, gt);
    SplitAvoids(gt, ':', '\t');
    forall i | 0 <= i < |d.values| ensures '\t' !in d.values[i] {
      if d.keys[i] in elements {
        var t := IndexOf(elements, d.keys[i]);
        assert d.values[i] == fields[t];
      } else {
        assert d.values[i] == Placeholder;
      }
    }
  }

  /** The cells of a genotype row: the fixed fields, the sample id, then
      the sample's FORMAT values. */
  lemma GenotypeRowCells(v: VcfLine, ind: string, d: Dict)
    requires WellFormed(v) && '\t' !in ind && TabFree(d.values)
    ensures Split(GenotypeRow(v, ind, d), '\t') == v.Fixed() + [ind] + Cells(d.values)
  {
    FixedTabFree(v);
    var head := v.Fixed() + [ind];
    JoinAppend(v.Fixed(), [ind], "\t");
    assert GenotypeRow(v, ind, d) == Join(head, "\t") + "\t" + Join(d.values, "\t");
    assert TabFree(head) by {
      forall k | 0 <= k < |head| ensures '\t' !in head[k] {
        if k < 7 { assert head[k] == v.Fixed()[k]; }
      }
    }
    SplitRow(head, d.values);
  }

  /** The cells of the genotype column line: the fixed names, `IND`, then
      the header's FORMAT keys. */
  lemma GenotypeColumnsCells(s: Schema)
    requires TabFree(s.format)
    ensures Split(GenotypeColumns(s), '\t') == FixedNames + ["IND"] + Cells(s.format)
  {
    ContentHeaderNames();
    assert "\tIND\t" == "\t" + "IND" + "\t";
    NamedRowWith(ContentHeader(), FixedNames, "\tIND\t", "IND", s.format);
  }

  /** A column line whose head joins `names`, followed by one more name
      between tabs (`mid`). */
  lemma NamedRowWith(head: string, names: seq<string>, mid: string, extra: string, tail: seq<string>)
    requires |names| > 0 && TabFree(names) && '\t' !in extra && TabFree(tail) && head == Join(names, "\t")
    requires mid == "\t" + extra + "\t"
    ensures Split(head + mid + Join(tail, "\t"), '\t') == names + [extra] + Cells(tail)
  {
    var all := names + [extra];
    JoinAppend(names, [extra], "\t");
    assert TabFree(all) by {
      forall k | 0 <= k < |all| ensures '\t' !in all[k] {
        if k < |names| { assert all[k] == names[k]; }
      }
    }
    assert head + mid + Join(tail, "\t") == Join(all, "\t") + "\t" + Join(tail, "\t");
    SplitRow(all, tail);
  }

  /** Every FORMAT key of a record is one the header declares. */
  predicate AllDeclared(elements: seq<string>, keys: seq<string>) {
    forall t :: 0 <= t < |elements| ==> elements[t] in keys
  }

  /** A sample's dict has the header's FORMAT keys and possibly more; no
      more exactly when the record declares no key the header lacks. */
  lemma SampleWidth(spec: string, keys: seq<string>, gt: string)
    requires NoDup(keys) && SampleFormat(spec, keys, gt).Ok?
    ensures |SampleFormat(spec, keys, gt).value.values| >= |keys|
    ensures |SampleFormat(spec, keys, gt).value.values| == |keys| <==> AllDeclared(Split(spec, ':'), keys)
  {
    AddAllUnchanged(keys, Split(spec, ':'));
  }

  /** With at least one FORMAT key in the header, a genotype row has as
      many cells as the genotype column line exactly when every FORMAT key
      of the record is declared in the header: an undeclared key adds a
      column the header line does not name. */
  lemma GenotypeRowWidth(v: VcfLine, s: Schema, i: nat)
    requires WellFormed(v) && NoDup(s.format) && TabFree(s.format)
    requires s.samples.Some? && TabFree(s.samples.value)
    requires ProcessSite(v, s).Ok? && i < |ProcessSite(v, s).value.genotypes|
    requires |s.format| > 0
    ensures var d := SampleFormat(v.format, s.format, v.gtFormats[i]).value;
      Split(ProcessSite(v, s).value.genotypes[i], '\t') == v.Fixed() + [s.samples.value[i]] + d.values
    ensures |Split(ProcessSite(v, s).value.genotypes[i], '\t')| == |Split(GenotypeColumns(s), '\t')|
      <==> AllDeclared(Split(v.format, ':'), s.format)
  {
    GenotypeRowSplit(v, s, i);
    GenotypeColumnsCells(s);
    SampleWidth(v.format, s.format, v.gtFormats[i]);
  }

  lemma GenotypeRowSplit(v: VcfLine, s: Schema, i: nat)
    requires WellFormed(v) && NoDup(s.format)
    requires s.samples.Some? && TabFree(s.samples.value)
    requires ProcessSite(v, s).Ok? && i < |ProcessSite(v, s).value.genotypes|
    ensures var d := SampleFormat(v.format, s.format, v.gtFormats[i]).value;
      Split(ProcessSite(v, s).value.genotypes[i], '\t') == v.Fixed() + [s.samples.value[i]] + d.values
  {
    ProcessedSample(v, s, i);
    SampleNoTab(v, i);
    SampleRowCells(v, s.samples.value[i], v.format, s.format, v.gtFormats[i]);
  }

  /** Sample `i` of a processed record projects, and its genotype row is
      built from its dict. */
  lemma ProcessedSample(v: VcfLine, s: Schema, i: nat)
    requires NoDup(s.format)
    requires ProcessSite(v, s).Ok? && i < |ProcessSite(v, s).value.genotypes|
    ensures s.samples.Some? && i < |v.gtFormats| && i < |s.samples.value|
    ensures SampleFormat(v.format, s.format, v.gtFormats[i]).Ok?
    ensures ProcessSite(v, s).value.genotypes[i] ==
      GenotypeRow(v, s.samples.value[i], SampleFormat(v.format, s.format, v.gtFormats[i]).value)
  {
  }

  /** A sample column of a well-formed record holds no tab. */
  lemma SampleNoTab(v: VcfLine, i: nat)
    requires WellFormed(v) && i < |v.gtFormats|
    ensures '\t' !in v.gtFormats[i]
  {
    assert v.gtFormats[i] == v.Tokens()[9 + i];
    NoSpaceNoTab(v.Tokens()[9 + i]);
  }

  /** The cells of the genotype row of one projected sample. */
  lemma SampleRowCells(v: VcfLine, ind: string, spec: string, keys: seq<string>, gt: string)
    requires WellFormed(v) && '\t' !in ind && '\t' !in gt
    requires NoDup(keys) && SampleFormat(spec, keys, gt).Ok?
    ensures var d := SampleFormat(spec, keys, gt).value;
      Split(GenotypeRow(v, ind, d), '\t') == v.Fixed() + [ind] + d.values
  {
    SampleFormatTabFree(spec, keys, gt);
    GenotypeRowCells(v, ind, SampleFormat(spec, keys, gt).value);
  }
}

=== FILE: selector.dfy ===
/** Which records reach the output (`TidyVCF.sites_pass` and
    `TidyVCF.parse_sites` in tidy_vcf/main.py): every record, the records
    listed in a sites file, or a thinned subset in which a record is kept
    when it lies more than `thin` bases after the record read just before
    it on the same chromosome. */
module Selector {
  import opened Outcomes
  import opened PyStr

  /** A chromosome name and a position, both as the text of the record. */
  datatype Locus = Locus(chrom: string, pos: string)

  /** Before the first record the previous chromosome is empty and the
      previous position is 0. */
  const Start: Locus := Locus("", "0")

  /** The selection options: the sites file's keys when one was given, and
      the thinning distance (0 when thinning is off). */
  datatype Config = Config(sites: Option<set<string>>, thin: int)

  /** The key a site is looked up under: chromosome, a tab, position. */
  function SiteKey(l: Locus): (k: string)
    ensures |k| == |l.chrom| + 1 + |l.pos| && k[|l.chrom|] == '\t'
    ensures k[..|l.chrom|] == l.chrom && k[|l.chrom| + 1..] == l.pos
  {
    l.chrom + "\t" + l.pos
  }

  /** Two loci with tab-free chromosome names share a key only when they
      are the same locus: the key is matched as text. */
  lemma SiteKeyInjective(a: Locus, b: Locus)
    requires '\t' !in a.chrom && '\t' !in b.chrom
    ensures SiteKey(a) == SiteKey(b) <==> a == b
  {
    if SiteKey(a) == SiteKey(b) {
      SplitPrefix(a.chrom, a.pos, '\t');
      SplitPrefix(b.chrom, b.pos, '\t');
      assert a.chrom == Split(SiteKey(a), '\t')[0] == Split(SiteKey(b), '\t')[0] == b.chrom;
      assert a.pos == SiteKey(a)[|a.chrom| + 1..];
    }
  }

  /** The distance from the previous record, `int(POS) - int(previous)`;
      `int` fails for a position that is not an integer numeral. */
  function Distance(prev: Locus, l: Locus): (r: Result<int>)
    ensures r.Ok? <==> PyInt(l.pos).Ok? && PyInt(prev.pos).Ok?
    ensures r.Ok? ==> r.value + PyInt(prev.pos).value == PyInt(l.pos).value
  {
    var p :- PyInt(l.pos);
    var q :- PyInt(prev.pos);
    Ok(p - q)
  }

  /** On positions written as integer numerals the distance is the
      difference of the numbers, whatever the chromosomes. */
  lemma DistanceOfNumerals(c: string, m: int, d: string, n: int)
    ensures Distance(Locus(c, IntToString(m)), Locus(d, IntToString(n))) == Ok(n - m)
  {
    PyIntOfString(m);
    PyIntOfString(n);
  }

  /** sites_pass for the record at `l`, with `prev` the record read before
      it. The sites rule keeps listed records; the thinning rule (any
      non-zero `thin`) keeps the first record of a chromosome and a record
      more than `thin` past the previous one, and evaluates `int` only when
      the chromosome repeats; with no sites file and `thin < 1` every
      record is kept. Either rule keeping the record keeps it. */
  function SitesPass(cfg: Config, prev: Locus, l: Locus): (r: Result<bool>)
    ensures r.Err? <==> cfg.thin != 0 && l.chrom == prev.chrom && Distance(prev, l).Err?
    // every record
    ensures cfg.sites.None? && cfg.thin == 0 ==> r == Ok(true)
    // a sites file only
    ensures cfg.sites.Some? && cfg.thin == 0 ==> r == Ok(SiteKey(l) in cfg.sites.value)
    // thinning, alone or with a sites file
    ensures cfg.thin != 0 && l.chrom != prev.chrom ==> r == Ok(true)
    ensures cfg.sites.None? && cfg.thin >= 1 && l.chrom == prev.chrom && r.Ok? ==>
      (r.value <==> Distance(prev, l).value > cfg.thin)
    ensures cfg.sites.None? && cfg.thin < 0 && r.Ok? ==> r.value
    ensures cfg.sites.Some? && cfg.thin != 0 && l.chrom == prev.chrom && r.Ok? ==>
      (r.value <==> SiteKey(l) in cfg.sites.value || Distance(prev, l).value > cfg.thin)
  {
    var listed := cfg.sites.Some? && SiteKey(l) in cfg.sites.value;
    var all := cfg.sites.None? && cfg.thin < 1;
    if cfg.thin == 0 then Ok(listed || all)
    else if l.chrom != prev.chrom then Ok(true)
    else
      var d :- Distance(prev, l);
      Ok(listed || d > cfg.thin || all)
  }

  /** The position matched against a sites file is the record's text, so
      a zero-padded position does not match the plain one. */
  lemma SitesMatchText()
    ensures SitesPass(Config(Some({SiteKey(Locus("1", "500"))}), 0), Start, Locus("1", "0500")) == Ok(false)
    ensures SitesPass(Config(Some({SiteKey(Locus("1", "500"))}), 0), Start, Locus("1", "500")) == Ok(true)
  {
    assert SiteKey(Locus("1", "0500")) != SiteKey(Locus("1", "500")) by {
      assert SiteKey(Locus("1", "0500"))[2] == '0';
    }
  }

  // ---------------------------------------------------------------------
  // the sites file

  /** A sites-file line holds exactly two whitespace-separated tokens. */
  predicate IsSiteLine(line: string) {
    |SplitWs(Strip(line))| == 2
  }

  /** The key of a well-formed sites-file line. */
  function LineKey(line: string): string
    requires IsSiteLine(line)
  {
    var toks := SplitWs(Strip(line));
    SiteKey(Locus(toks[0], toks[1]))
  }

  /** parse_sites: every line, stripped and split on whitespace, must give
      exactly a chromosome and a position (an empty line does not); the
      set holds their keys. */
  function ParseSites(lines: seq<string>): (r: Result<set<string>>)
    ensures r.Ok? <==> forall i :: 0 <= i < |lines| ==> IsSiteLine(lines[i])
  {
    if |lines| == 0 then Ok({})
    else
      assert forall i :: 1 <= i < |lines| ==> lines[i] == lines[1..][i - 1];
      if !IsSiteLine(lines[0]) then Err(BadSitesLine)
      else
        var rest :- ParseSites(lines[1..]);
        Ok({LineKey(lines[0])} + rest)
  }

  /** The keys of the lines of a well-formed sites file, in file order. */
  function LineKeys(lines: seq<string>): (ks: seq<string>)
    requires forall i :: 0 <= i < |lines| ==> IsSiteLine(lines[i])
    ensures |ks| == |lines| && forall i :: 0 <= i < |lines| ==> ks[i] == LineKey(lines[i])
  {
    seq(|lines|, i requires 0 <= i < |lines| => LineKey(lines[i]))
  }

  /** The keys of the lines of a well-formed sites file, as a set. */
  function KeySet(lines: seq<string>): set<string>
    requires forall i :: 0 <= i < |lines| ==> IsSiteLine(lines[i])
  {
    set k | k in LineKeys(lines)
  }

  /** The parsed set holds exactly the keys of the file's lines. */
  lemma {:induction false} ParseSitesKeys(lines: seq<string>)
    requires ParseSites(lines).Ok?
    ensures ParseSites(lines).value == KeySet(lines)
  {
    if |lines| > 0 {
      ParseSitesKeys(lines[1..]);
      KeySetCons(lines);
    }
  }

  lemma KeySetCons(lines: seq<string>)
    requires |lines| > 0 && forall i :: 0 <= i < |lines| ==> IsSiteLine(lines[i])
    ensures KeySet(lines) == {LineKey(lines[0])} + KeySet(lines[1..])
  {
    var ks := LineKeys(lines);
    assert ks[1..] == LineKeys(lines[1..]);
    ElementsCons(ks);
  }

  lemma ElementsCons(ks: seq<string>)
    requires |ks| > 0
    ensures (set k | k in ks) == {ks[0]} + (set k | k in ks[1..])
  {
    assert ks == [ks[0]] + ks[1..];
  }

  /** The keys of some loci, listed in order, are the keys of those loci. */
  lemma ElementsOfKeys(ks: seq<string>, ls: seq<Locus>)
    requires |ks| == |ls| && forall i :: 0 <= i < |ls| ==> ks[i] == SiteKey(ls[i])
    ensures (set k | k in ks) == set i | 0 <= i < |ls| :: SiteKey(ls[i])
  {
    forall k | k in ks ensures exists i :: 0 <= i < |ls| && SiteKey(ls[i]) == k {
      var i :| 0 <= i < |ks| && ks[i] == k;
    }
  }

  /** A sites-file line written for a locus. */
  function SitesLine(l: Locus): string {
    l.chrom + "\t" + l.pos + "\n"
  }

  /** A sites file written one line per locus. */
  function SitesFile(ls: seq<Locus>): (lines: seq<string>)
    ensures |lines| == |ls|
  {
    seq(|ls|, i requires 0 <= i < |ls| => SitesLine(ls[i]))
  }

  predicate Plain(ls: seq<Locus>) {
    forall i :: 0 <= i < |ls| ==> |ls[i].chrom| > 0 && NoSpace(ls[i].chrom) && |ls[i].pos| > 0 && NoSpace(ls[i].pos)
  }

  /** Round trip: a sites file written for some loci (with non-empty,
      whitespace-free names and positions) reads back as the set of those
      loci's keys. */
  lemma ParseSitesOfFile(ls: seq<Locus>)
    requires Plain(ls)
    ensures ParseSites(SitesFile(ls)) == Ok(set i | 0 <= i < |ls| :: SiteKey(ls[i]))
  {
    var lines := SitesFile(ls);
    SitesFileLines(ls);
    ParseSitesKeys(lines);
    ElementsOfKeys(LineKeys(lines), ls);
  }

  lemma SitesFileLines(ls: seq<Locus>)
    requires Plain(ls)
    ensures forall i :: 0 <= i < |ls| ==> IsSiteLine(SitesFile(ls)[i]) && LineKey(SitesFile(ls)[i]) == SiteKey(ls[i])
  {
    forall i | 0 <= i < |ls| ensures IsSiteLine(SitesFile(ls)[i]) && LineKey(SitesFile(ls)[i]) == SiteKey(ls[i]) {
      assert SitesFile(ls)[i] == SitesLine(ls[i]);
      SitesLineTokens(ls[i]);
    }
  }

  lemma SitesLineTokens(l: Locus)
    requires |l.chrom| > 0 && NoSpace(l.chrom) && |l.pos| > 0 && NoSpace(l.pos)
    ensures SplitWs(Strip(SitesLine(l))) == [l.chrom, l.pos]
  {
    var body := l.chrom + "\t" + l.pos;
    assert body == Join([l.chrom, l.pos], "\t");
    JoinEnds([l.chrom, l.pos], '\t');
    StripNewline(body);
    SplitWsJoin([l.chrom, l.pos], '\t');
  }

  /** Stripping a line ending in a newline drops the newline when the rest
      has no surrounding whitespace. */
  lemma StripNewline(s: string)
    requires |s| > 0 && !IsSpace(s[0]) && !IsSpace(s[|s| - 1])
    ensures Strip(s + "\n") == s
  {
    var t := s + "\n";
    assert TrimLeft(t) == t by {
      assert t[0] == s[0];
    }
    assert TrimRight(t) == s by {
      assert IsSpace(t[|t| - 1]) && t[..|t| - 1] == s;
      assert TrimRight(t) == TrimRight(s);
    }
  }

  // ---------------------------------------------------------------------
  // the pass over the records

  /** The pass flags for a run of records: each record is judged against
      the record read just before it, whether that one was kept or not. The
      first failure stops the run. */
  function Select(cfg: Config, prev: Locus, ls: seq<Locus>): (r: Result<seq<bool>>)
    ensures r.Ok? ==> |r.value| == |ls|
    decreases |ls|
  {
    if |ls| == 0 then Ok([])
    else
      var p :- SitesPass(cfg, prev, ls[0]);
      var rest :- Select(cfg, ls[0], ls[1..]);
      Ok([p] + rest)
  }

  /** The record read before record `i`. */
  function Before(prev: Locus, ls: seq<Locus>, i: nat): Locus
    requires i < |ls|
  {
    if i == 0 then prev else ls[i - 1]
  }

  /** The fold is the pointwise rule: it succeeds exactly when every
      record can be judged against its predecessor, and record `i`'s flag
      is its own verdict. */
  lemma {:induction false} SelectPointwise(cfg: Config, prev: Locus, ls: seq<Locus>)
    ensures Select(cfg, prev, ls).Ok? <==>
      forall i :: 0 <= i < |ls| ==> SitesPass(cfg, Before(prev, ls, i), ls[i]).Ok?
    ensures Select(cfg, prev, ls).Ok? ==>
      forall i :: 0 <= i < |ls| ==> Select(cfg, prev, ls).value[i] == SitesPass(cfg, Before(prev, ls, i), ls[i]).value
    decreases |ls|
  {
    if |ls| > 0 {
      SelectPointwise(cfg, ls[0], ls[1..]);
      assert forall i :: 1 <= i < |ls| ==> ls[1..][i - 1] == ls[i] && Before(ls[0], ls[1..], i - 1) == Before(prev, ls, i);
    }
  }

  /** Positions as the numbers they spell. */
  predicate Numeric(ls: seq<Locus>) {
    forall i :: 0 <= i < |ls| ==> PyInt(ls[i].pos).Ok?
  }

  /** Records on one chromosome in non-decreasing position order. */
  predicate SortedOn(chrom: string, ls: seq<Locus>)
    requires Numeric(ls)
  {
    && (forall i :: 0 <= i < |ls| ==> ls[i].chrom == chrom)
    && (forall i, j :: 0 <= i <= j < |ls| ==> PyInt(ls[i].pos).value <= PyInt(ls[j].pos).value)
  }

  /** When thinning alone runs from the start of the file over sorted
      records of one chromosome, every kept record after the first lies
      more than `thin` bases past every earlier record:
      a record is kept only when it is that far from its predecessor, which
      lies at or after every earlier record. */
  lemma ThinnedApart(cfg: Config, ls: seq<Locus>, i: nat, j: nat)
    requires cfg.sites.None? && cfg.thin >= 1
    requires Numeric(ls) && |ls| > 0 && SortedOn(ls[0].chrom, ls)
    requires Select(cfg, Start, ls).Ok?
    requires i < j < |ls| && Select(cfg, Start, ls).value[j]
    ensures PyInt(ls[j].pos).value - PyInt(ls[i].pos).value > cfg.thin
  {
    SelectPointwise(cfg, Start, ls);
    var b := Before(Start, ls, j);
    assert b == ls[j - 1];
    assert SitesPass(cfg, b, ls[j]).value;
    assert PyInt(ls[i].pos).value <= PyInt(ls[j - 1].pos).value;
  }

  lemma Numeral(s: string, n: nat)
    requires NatToString(n) == s
    ensures PyInt(s) == Ok(n)
  {
    PyIntOfString(n);
  }

  /** Under thinning alone, a record on the previous record's chromosome
      passes iff it lies strictly more than `thin` bases on: one exactly
      `thin` bases on is dropped. */
  lemma ThinStrictlyApart(cfg: Config, c: string, m: int, n: int)
    requires cfg.sites.None? && cfg.thin >= 1
    ensures SitesPass(cfg, Locus(c, IntToString(m)), Locus(c, IntToString(n))) == Ok(n - m > cfg.thin)
  {
    DistanceOfNumerals(c, m, c, n);
  }

  /** Thinning is not a greedy walk over kept sites: the third record lies
      more than 100 bases after the last KEPT record, yet is dropped
      because it is within 100 of the record just before it. */
  lemma ThinAgainstPrevious()
    ensures Select(Config(None, 100), Start, [Locus("1", "100"), Locus("1", "150"), Locus("1", "220")])
      == Ok([true, false, false])
  {
    FirstTwo();
    Numeral("220", 220);
    ThreeRecords(Config(None, 100), Locus("1", "100"), Locus("1", "150"), Locus("1", "220"));
  }

  /** A record more than 100 bases past its predecessor is kept. */
  lemma ThinKeepsFar()
    ensures Select(Config(None, 100), Start, [Locus("1", "100"), Locus("1", "150"), Locus("1", "260")])
      == Ok([true, false, true])
  {
    FirstTwo();
    Numeral("260", 260);
    ThreeRecords(Config(None, 100), Locus("1", "100"), Locus("1", "150"), Locus("1", "260"));
  }

  lemma FirstTwo()
    ensures SitesPass(Config(None, 100), Start, Locus("1", "100")) == Ok(true)
    ensures SitesPass(Config(None, 100), Locus("1", "100"), Locus("1", "150")) == Ok(false)
    ensures PyInt("150") == Ok(150)
  {
    Numeral("100", 100);
    Numeral("150", 150);
  }

  lemma ThreeRecords(cfg: Config, a: Locus, b: Locus, c: Locus)
    requires SitesPass(cfg, Start, a).Ok? && SitesPass(cfg, a, b).Ok? && SitesPass(cfg, b, c).Ok?
    ensures Select(cfg, Start, [a, b, c]) ==
      Ok([SitesPass(cfg, Start, a).value, SitesPass(cfg, a, b).value, SitesPass(cfg, b, c).value])
  {
    var ls := [a, b, c];
    SelectPointwise(cfg, Start, ls);
    assert Before(Start, ls, 0) == Start && Before(Start, ls, 1) == a && Before(Start, ls, 2) == b;
    assert forall i :: 0 <= i < |ls| ==> SitesPass(cfg, Before(Start, ls, i), ls[i]).Ok? by {
      forall i | 0 <= i < |ls| ensures SitesPass(cfg, Before(Start, ls, i), ls[i]).Ok? {
        if i == 0 {} else if i == 1 {} else {}
      }
    }
    var r := Select(cfg, Start, ls).value;
    assert r[0] == SitesPass(cfg, Start, a).value;
    assert r[1] == SitesPass(cfg, a, b).value;
    assert r[2] == SitesPass(cfg, b, c).value;
    assert r == [SitesPass(cfg, Start, a).value, SitesPass(cfg, a, b).value, SitesPass(cfg, b, c).value];
  }
}
